=== FILE: README.md ===
# EDR data bridge — a Dafny model

The openprocurement EDR data bridge is a pipeline of four workers. The **scanner**
pages through the tender listing and queues the ids of tenders in a qualification
stage. The **filter** fetches each of those tenders. It claims every pending award or
qualification that still lacks a `registerExtract` document and has a `UA-EDR`
identifier, recording the claim in the shared `processing_items`. It then queues the
item's code. The **EDR handler** looks each code up in the state register (EDR). It
fetches the record of every registry id found and turns the record into an extract
with `prepare_data`. The **uploader** stores each extract in the document service,
attaches it to its award or qualification, and releases the claim. Alongside these
sit a registry client, a back-off calculator (`TimeoutHandler`) and the role rule of
the API's authentication.

This project models each of those components as one Dafny module.

| module | file | source |
|---|---|---|
| `Common` | `common.dfy` | JSON values, Python truthiness, the `Data` record |
| `Timeout` | `timeout_handler.dfy` | `timeout_handler.py` |
| `Client` | `client.dfy` | `client.py` |
| `Utils` | `utils.dfy` | `databridge/utils.py` |
| `Auth` | `auth.dfy` | `auth.py` |
| `Scanning` | `scanner.dfy` | `databridge/scanner.py` |
| `FilterTender` | `filter_tender.dfy` | `databridge/filter_tender.py` |
| `EdrHandling` | `edr_handler.dfy` | `databridge/edr_handler.py` |
| `UploadFiles` | `upload_file.dfy` | `databridge/upload_file.py` |

How the source is represented:

- **Inputs.** HTTP responses, the tender fetched, and the outcome of a call wrapped in
  the retry decorator are input values of each step.
- **Registry lookup.** The detail lookup is a function from registry id to response.
- **Queues and claims.** Queues are `seq` fields. `processing_items` is a
  `map<string, string>`.
- **Crashes.** An uncaught exception that ends a worker's job is an explicit outcome
  (`Crashed`, or the `crashed` flag of the scanner's page loop); it is not excluded by a
  precondition. Examples: `del` of a missing key, a missing bid, a body of the wrong
  shape, a listing fetch that raises something other than a `ResourceError`, and the
  retried listing call of `initialize_sync` raising on its last attempt (`Raised`).
- **Workers.** Each worker whose fields change is a class. Every per-item step is a
  method. Its postcondition gives the new state in terms of specification functions,
  and the lemmas prove what the source promises about those functions.

## Model

| member | source | states |
|---|---|---|
| Timeout.AddUpdate | openprocurement/integrations/edr/timeout_handler.py:14-27 | never raises; returns false only for a failure already at max; with a non-negative step the value moves by at most `step`, never up on success and never down on failure |
| Timeout.MultUpdate | openprocurement/integrations/edr/timeout_handler.py:29-43 | raises `ZeroDivisionError` exactly for a success above min with a zero step; returns false only for a failure at max or one whose product overshoots max; for a value ≥ 0 and step ≥ 1 a success never raises the value and a failure never lowers it unless clamped to max |
| Timeout.TimeoutHandler.constructor | openprocurement/integrations/edr/timeout_handler.py:2-9 | value starts at `min`; mode `mult` selects the multiplicative update and any other mode the additive one; a sane configuration (0 ≤ min ≤ max, step ≥ 1) starts valid |
| Timeout.TimeoutHandler.Update | openprocurement/integrations/edr/timeout_handler.py:11-12 | dispatches to the update of the chosen mode; a `ZeroDivisionError` leaves the value as it was; from a valid state it never raises and keeps `min ≤ value ≤ max` |
| Timeout.TimeoutHandler.UpdateAdd | openprocurement/integrations/edr/timeout_handler.py:14-27 | new value and return value are those of the additive rule `AddUpdate` applied to the old value |
| Timeout.TimeoutHandler.UpdateMult | openprocurement/integrations/edr/timeout_handler.py:29-43 | new value and return value are those of the multiplicative rule `MultUpdate` applied to the old value, or its `ZeroDivisionError` with the value unchanged |
| Timeout.AddKeepsBounds | openprocurement/integrations/edr/timeout_handler.py:14-27 | under a sane configuration an additive update keeps the value within [min, max] |
| Timeout.MultKeepsBounds | openprocurement/integrations/edr/timeout_handler.py:29-43 | under a sane configuration a multiplicative update never raises and keeps the value within [min, max] |
| Timeout.SuccessNeverIncreases | openprocurement/integrations/edr/timeout_handler.py:14-43 | in both modes a success returns true, never increases the value, and leaves it alone at or below min |
| Timeout.MultFailure | openprocurement/integrations/edr/timeout_handler.py:35-41 | a multiplicative failure below max sets `min(value·step, max)` and returns false exactly when the product exceeds max; at max it changes nothing and returns false |
| Timeout.AddFailure | openprocurement/integrations/edr/timeout_handler.py:20-25 | an additive failure below max sets `min(value+step, max)` and returns true even when clamped; at max it returns false and changes nothing |
| Timeout.ZeroStepRaises | openprocurement/integrations/edr/timeout_handler.py:29-43 | with a zero step a multiplicative update raises iff it is a success above min; a failure below a non-negative max drops the value to 0 and returns true |
| Timeout.MultTrace | openprocurement/integrations/edr/timeout_handler.py:29-43 | min 1, max 7, step 2: three failures give 2, 4, 7 with true, true, false; a following success gives 3.5 |
| Client.NewEdrClient | openprocurement/integrations/edr/client.py:8-12 | base URL is `host:port/1.0/subjects`; the headers are exactly `Accept: application/json` and `Authorization: Token <token>` |
| Client.SubjectParam | openprocurement/integrations/edr/client.py:21 | `code` iff the string is all digits and of length 8 or 10, otherwise `passport` |
| Client.PassportCases | openprocurement/integrations/edr/client.py:21 | non-digit strings, other lengths, the empty string, 9 and 11 digits are all passports; 8 digits is a code |
| Client.GetSubject | openprocurement/integrations/edr/client.py:15-25 | the lookup URL is the base, `?`, the parameter `SubjectParam(code)`, `=`, then the code unescaped; headers and timeout are the client's |
| Client.GetSubjectDetails | openprocurement/integrations/edr/client.py:27-34 | the details URL is the base, `/`, then the registry id; headers and timeout are the client's, as for the subject lookup |
| Utils.ValidateParam | openprocurement/integrations/edr/databridge/utils.py:31-32 | `code` iff the string is all digits and its length is not 9 (`id_passport_len`), otherwise `passport` |
| Utils.LookupRulesDisagree | openprocurement/integrations/edr/databridge/utils.py:31-32 | the bridge's and the client's rules disagree exactly on all-digit strings of length other than 8, 9 and 10, which the bridge sends as a code and the client as a passport |
| Utils.LookupExamples | openprocurement/integrations/edr/databridge/utils.py:8 | `0013823` is a code for the bridge and a passport for the client; the empty string and 9 digits are passports |
| Utils.JournalContext | openprocurement/integrations/edr/databridge/utils.py:21-24 | returns the record it was given, whose entries gain `JOURNAL_`+k ↦ params[k] for every key |
| Utils.JournalContextEffect | openprocurement/integrations/edr/databridge/utils.py:21-24 | afterwards every `JOURNAL_`+k holds params[k], every other old entry is unchanged, and no other key appears |
| Auth.Groups | openprocurement/integrations/edr/auth.py:6 | every principal kept starts with `g:` and is one of the request's; no more are kept than there are principals |
| Auth.AuthenticatedRole | openprocurement/integrations/edr/auth.py:4-7 | the role is `anonymous` or the name of one of the group principals |
| Auth.GroupsOfConcat | openprocurement/integrations/edr/auth.py:6 | reversing and filtering a concatenation filters the two parts in swapped order |
| Auth.LastGroupWins | openprocurement/integrations/edr/auth.py:6-7 | the role is the last `g:` principal with its prefix dropped |
| Auth.NoGroupIsAnonymous | openprocurement/integrations/edr/auth.py:7 | with no `g:` principal the role is `anonymous` |
| Auth.NoGroupsNoneFound | openprocurement/integrations/edr/auth.py:6 | with no `g:` principal the list of groups is empty |
| Auth.NonGroupsIrrelevant | openprocurement/integrations/edr/auth.py:6 | inserting a non-group principal anywhere never changes the role |
| Auth.RobotsExample | openprocurement/integrations/edr/tests/test_utils.py:41-43 | `["g:robots", "a", "b"]` gives `robots` |
| Scanning.SleepChange | openprocurement/integrations/edr/databridge/scanner.py:84-89 | after a fetched page the extra delay is never negative and, with a non-negative decrement, never larger than before; a 425 adds the increment; any other error leaves it |
| Scanning.EligibleOf | openprocurement/integrations/edr/databridge/scanner.py:71-76 | a tender is yielded iff it is on the page and eligible (qualification or pre-qualification status with a matching procurement type); never more than the page holds |
| Scanning.EligibleOfConcat | openprocurement/integrations/edr/databridge/scanner.py:71-76 | eligible tenders are yielded in page order |
| Scanning.Run | openprocurement/integrations/edr/databridge/scanner.py:66-89 | everything the page loop yields is eligible, the loop never changes its direction, and it never both ends by its test and crashes |
| Scanning.Scanner.constructor | openprocurement/integrations/edr/databridge/scanner.py:25-42 | the steps, the delay and the queue are stored and no sync point is recorded yet; the extra delay is whatever the class attribute `sleep_change_value` already holds, which `__init__` does not reset |
| Scanning.Scanner.InitializeSync | openprocurement/integrations/edr/databridge/scanner.py:44-64 | backward records the swapped offsets of its first page (forward = prev, backward = next); forward starts at the recorded forward offset; a wrong `descending` flag fails the assertion; when the retried listing call raises, the outcome is `Raised` and no sync point is written (the forward offset stays written into `params`) |
| Scanning.Scanner.GetTenders | openprocurement/integrations/edr/databridge/scanner.py:63-89 | the queue gains the ids of the tenders of the page loop `Run`; the extra delay, the params, whether the loop ended, the page it stands on and whether a fetch raised are those of `Run` |
| Scanning.Scanner.PutEligible | openprocurement/integrations/edr/databridge/scanner.py:95-99 | the ids of a page's eligible tenders are appended to the queue in order |
| Scanning.RunInvariants | openprocurement/integrations/edr/databridge/scanner.py:83-89 | starting at 0 or above with a non-negative increment, the extra delay never goes negative |
| Scanning.ForwardNeverFinishes | openprocurement/integrations/edr/databridge/scanner.py:66-68 | a non-descending loop never ends by itself |
| Scanning.FinishedMeansCaughtUp | openprocurement/integrations/edr/databridge/scanner.py:66-68 | a loop that ends is descending, and its exit test holds on the page it stops at: the page is empty and its next offset is the offset recorded |
| Scanning.RunAdvancesOffset | openprocurement/integrations/edr/databridge/scanner.py:66-70 | the offset recorded is the next offset of the page the loop stands on, and nothing else in the params changes; unless the loop ended, that page is the last one fetched before any fetch that raised |
| Scanning.RunCrashes | openprocurement/integrations/edr/databridge/scanner.py:84-89 | the loop crashes iff one of its fetches raises something other than a `ResourceError` before its own test ends it |
| Scanning.RaiseEndsLoop | openprocurement/integrations/edr/databridge/scanner.py:69-89 | a fetch that raises ends the loop after the current page was yielded and the offset advanced; no later page is reached and the extra delay is unchanged |
| Scanning.ErrorRefiltersPage | openprocurement/integrations/edr/databridge/scanner.py:84-89 | after a failed fetch the same page is filtered and yielded again |
| Scanning.Trace425 | openprocurement/integrations/edr/databridge/tests/scanner.py:70-101 | increment 2, decrement 1, one 425 between pages: two tenders queued and the extra delay ends at 1 |
| Scanning.TraceThree425 | openprocurement/integrations/edr/databridge/tests/scanner.py:103-131 | increment 1, decrement 0.5, three 425s: the extra delay ends at 2.5 |
| FilterTender.Admit | openprocurement/integrations/edr/databridge/filter_tender.py:74-77 | appends at most one `Data` and keeps the queue's prefix; it appends iff the identifier is `UA-EDR` and the item is not held for this tender; a `UA-EDR` item is held afterwards for a non-empty tender id |
| FilterTender.AwardsPass | openprocurement/integrations/edr/databridge/filter_tender.py:65-85 | the awards loop only appends to the queue; no awards change nothing |
| FilterTender.QualificationsPass | openprocurement/integrations/edr/databridge/filter_tender.py:86-97 | the qualifications loop only appends to the queue, and raises only when some pending qualification has no bid or a bid without tenderers |
| FilterTender.FilterOne | openprocurement/integrations/edr/databridge/filter_tender.py:64-109 | filtering one tender only appends to the queue; it can raise only for a tender with bids and without awards; a tender with neither changes nothing |
| FilterTender.BidFor | openprocurement/integrations/edr/databridge/filter_tender.py:91 | a bid found for a `bidID` is one of the bids and has that id |
| FilterTender.BidForFirst | openprocurement/integrations/edr/databridge/filter_tender.py:91 | no bid is found iff no bid has the id; otherwise it is the first bid with that id |
| FilterTender.UaEdrCodesFilters | openprocurement/integrations/edr/databridge/filter_tender.py:72-74 | the codes taken are exactly the ids of the `UA-EDR` identifiers |
| FilterTender.ItemDataMembers | openprocurement/integrations/edr/databridge/filter_tender.py:76 | each `Data` is (tender, item, one of the codes verbatim, item name, None, None) |
| FilterTender.SuppliersPassExact | openprocurement/integrations/edr/databridge/filter_tender.py:72-81 | the supplier loop claims the item when it has a `UA-EDR` supplier and emits one `Data` unless the item is already held for the tender |
| FilterTender.SuppliersPassUnchanged | openprocurement/integrations/edr/databridge/filter_tender.py:111-113 | an item already held for the tender changes nothing |
| FilterTender.AwardStepExact | openprocurement/integrations/edr/databridge/filter_tender.py:66-85 | one award claims its id iff it qualifies and emits exactly its `AwardEmission` |
| FilterTender.AwardAdmission | openprocurement/integrations/edr/databridge/filter_tender.py:70-77 | an award emits iff it is pending, has no extract, has a `UA-EDR` supplier and is not held for the tender; at most one `Data` per award, carrying a `UA-EDR` supplier's id |
| FilterTender.AwardsPassGrows | openprocurement/integrations/edr/databridge/filter_tender.py:65-85 | the awards loop only appends; the claim keys grow by exactly the emitted item ids, each held for this tender; no other claim changes |
| FilterTender.AwardsPassKeepsClaims | openprocurement/integrations/edr/databridge/filter_tender.py:74-75 | a claim held for the tender survives the loop |
| FilterTender.AwardsPassClaimsAll | openprocurement/integrations/edr/databridge/filter_tender.py:70-77 | afterwards every qualifying award is held for the tender |
| FilterTender.AwardsPassHeld | openprocurement/integrations/edr/databridge/filter_tender.py:72-77 | when every qualifying award is already held, the loop changes nothing |
| FilterTender.AwardsPassIdempotent | openprocurement/integrations/edr/databridge/filter_tender.py:65-85 | running the awards loop again on its own result emits nothing and changes nothing |
| FilterTender.AwardsPassSound | openprocurement/integrations/edr/databridge/filter_tender.py:70-77 | every emitted `Data` comes from a pending award without an extract and carries one of its `UA-EDR` ids |
| FilterTender.HeldNeverEmitted | openprocurement/integrations/edr/databridge/filter_tender.py:74 | an item held for the tender is never emitted |
| FilterTender.AwardsPassNoRepeats | openprocurement/integrations/edr/databridge/filter_tender.py:72-77 | no item id is emitted twice in one pass |
| FilterTender.AdmitGrows | openprocurement/integrations/edr/databridge/filter_tender.py:93-97 | claiming and emitting one item extends the state as `Grows` describes |
| FilterTender.QualificationAdmission | openprocurement/integrations/edr/databridge/filter_tender.py:87-97 | one qualification raises iff it cannot be looked up; otherwise it claims and emits exactly one `Data` with its bid's first tenderer id iff it is admissible and not held for the tender, and changes nothing else |
| FilterTender.QualificationsHeldNeverEmitted | openprocurement/integrations/edr/databridge/filter_tender.py:93 | an item held for the tender gets no new `Data` from the qualifications loop |
| FilterTender.QualificationsPassNoRepeats | openprocurement/integrations/edr/databridge/filter_tender.py:93-97 | no item id is emitted twice in one qualifications loop, even when a qualification id repeats |
| FilterTender.QualificationsPassCrash | openprocurement/integrations/edr/databridge/filter_tender.py:87-97 | the qualifications loop crashes iff some pending qualification has no bid or a bid without tenderers |
| FilterTender.QualificationsPassGrows | openprocurement/integrations/edr/databridge/filter_tender.py:87-97 | the qualifications loop only appends and claims what it emits, for this tender |
| FilterTender.QualificationsPassSound | openprocurement/integrations/edr/databridge/filter_tender.py:87-97 | every emitted `Data` comes from an admissible qualification and carries its bid's first tenderer id |
| FilterTender.QualificationsPassClaimsAll | openprocurement/integrations/edr/databridge/filter_tender.py:87-97 | without a crash every admissible qualification is held for the tender afterwards |
| FilterTender.QualificationsPassHeld | openprocurement/integrations/edr/databridge/filter_tender.py:93 | when every admissible qualification is held and none is unmatched, the loop changes nothing |
| FilterTender.QualificationsPassIdempotent | openprocurement/integrations/edr/databridge/filter_tender.py:86-109 | running the loop again on its non-crashed result changes nothing |
| FilterTender.FilterOneGrows | openprocurement/integrations/edr/databridge/filter_tender.py:64-109 | filtering a tender extends the state as `Grows` describes |
| FilterTender.FilterOneIdempotent | openprocurement/integrations/edr/databridge/filter_tender.py:64-109 | filtering the same tender again while its claims are held emits nothing |
| FilterTender.AwardsTakePrecedence | openprocurement/integrations/edr/databridge/filter_tender.py:65-86 | with an `awards` key, bids and qualifications are ignored and the pass cannot crash |
| FilterTender.AwardsExample | openprocurement/integrations/edr/databridge/tests/filter_tender.py:112-174 | of five awards the unsuccessful one and the `UA-ED` one are skipped; the other three are claimed and emitted in order, `0013823` verbatim |
| FilterTender.QualificationsExample | openprocurement/integrations/edr/databridge/tests/filter_tender.py:36-110 | the qualification test tender emits its three admissible qualifications in order |
| FilterTender.FilterTenders.constructor | openprocurement/integrations/edr/databridge/filter_tender.py:31-43 | the queues and `processing_items` are stored |
| FilterTender.FilterTenders.PrepareDataStep | openprocurement/integrations/edr/databridge/filter_tender.py:48-109 | a failed fetch puts the tender id back and changes nothing else; a fetched tender leaves claims and queue as `FilterOne` says, and the step crashes iff `FilterOne` does |
| FilterTender.FilterTenders.ProcessAwards | openprocurement/integrations/edr/databridge/filter_tender.py:65-85 | claims and queue become `AwardsPass` of the old ones |
| FilterTender.FilterTenders.ProcessSuppliers | openprocurement/integrations/edr/databridge/filter_tender.py:72-81 | claims and queue become `SuppliersPass` of the old ones |
| FilterTender.FilterTenders.ProcessQualifications | openprocurement/integrations/edr/databridge/filter_tender.py:86-109 | claims, queue and crash flag are those of `QualificationsPass` |
| FilterTender.FilterTenders.AdmitItem | openprocurement/integrations/edr/databridge/filter_tender.py:93-97 | claims the item for the tender, then appends its `Data` |
| EdrHandling.KindsOf | openprocurement/integrations/edr/databridge/edr_handler.py:63-71 | the entries can be read iff every one is an object; then one kind per entry, in order, with its `code`, `name` and `is_primary` |
| EdrHandling.ReadDetails | openprocurement/integrations/edr/databridge/edr_handler.py:60-82 | a record can be read iff the body is an object whose `activity_kinds` can be read and whose truthy `names` and `address` are objects; its fields are the body's, with `names` and `address` absent iff falsy and, when present, holding `short`/`display` and `address`/`zip`/`country` of the body's objects |
| EdrHandling.ReadDetailsRaises | openprocurement/integrations/edr/databridge/edr_handler.py:60-82 | a list body, a null `activity_kinds`, a non-object entry, a string `names` and a list `address` all raise; a body with only a null `names` and an empty-string `address` reads |
| EdrHandling.LastPrimary | openprocurement/integrations/edr/databridge/edr_handler.py:63-67 | the position found is a primary entry with no primary entry after it; none found means no entry is primary |
| EdrHandling.PrepareData | openprocurement/integrations/edr/databridge/edr_handler.py:60-82 | the loop builds exactly the extract `Payload` |
| EdrHandling.AdditionalKeepsNonPrimary | openprocurement/integrations/edr/databridge/edr_handler.py:68-71 | the additional kinds are exactly the non-primary entries, mapped; they are empty iff every entry is primary |
| EdrHandling.AdditionalConcat | openprocurement/integrations/edr/databridge/edr_handler.py:68-71 | the additional kinds keep input order |
| EdrHandling.PayloadActivityKinds | openprocurement/integrations/edr/databridge/edr_handler.py:63-79 | `activityKind` is the last primary entry (scheme `КВЕД`), null iff none; `additionalActivityKinds` is null iff every entry is primary, otherwise the non-primary list |
| EdrHandling.PayloadKeys | openprocurement/integrations/edr/databridge/edr_handler.py:72-82 | the extract has exactly its seven keys |
| EdrHandling.PayloadIdentification | openprocurement/integrations/edr/databridge/edr_handler.py:72-77 | scheme `UA-EDR` with the record's code; name and legal name from `names` or null; founders and management copied |
| EdrHandling.PayloadAddress | openprocurement/integrations/edr/databridge/edr_handler.py:80-82 | the three address fields come from `address`, all null when it is missing |
| EdrHandling.NotFoundTest | openprocurement/integrations/edr/databridge/edr_handler.py:94 | the test can be evaluated iff the body is an object whose `errors` is a non-empty list starting with an object; it is positive iff that first error's description is exactly `[{"message": "EDRPOU not found"}]` |
| EdrHandling.IdsOf | openprocurement/integrations/edr/databridge/edr_handler.py:102-107 | ids can be taken iff the body is a list of objects with an `id`, an empty object or an empty string; from a list, one id per entry in order; otherwise none |
| EdrHandling.EntryIds | openprocurement/integrations/edr/databridge/edr_handler.py:106 | one id per entry |
| EdrHandling.EntryIdsInOrder | openprocurement/integrations/edr/databridge/edr_handler.py:106 | ids are taken in order and exist iff every entry is an object with an `id` |
| EdrHandling.RouteVerify | openprocurement/integrations/edr/databridge/edr_handler.py:94-113 | not-found only on a 403; found only on a 200 with the body's ids; retry iff the status is neither 200 nor a not-found 403 |
| EdrHandling.HandleStatusResponse | openprocurement/integrations/edr/databridge/edr_handler.py:234-252 | raises iff 401 or 402; throttles iff 429, with the response's `Retry-After`; anything else only logs |
| EdrHandling.LookupOf | openprocurement/integrations/edr/databridge/edr_handler.py:178-183 | a details call is rejected (sent to retry) iff it answered with a status other than 200 |
| EdrHandling.LookupOfReads | openprocurement/integrations/edr/databridge/edr_handler.py:178-183 | a lookup gives a record iff the call answered 200 with a readable record, and that record; it raises iff the call raised or the record cannot be read |
| EdrHandling.IndexOf | openprocurement/integrations/edr/databridge/edr_handler.py:188 | the position of the first occurrence |
| EdrHandling.RemoveFirst | openprocurement/integrations/edr/databridge/edr_handler.py:188 | `list.remove` drops exactly the first occurrence and keeps the other elements in order |
| EdrHandling.DetailsWalkSkips | openprocurement/integrations/edr/databridge/edr_handler.py:177-194 | as written, with two found ids only the first is looked up; the second stays in the list and never reaches the retry queue |
| EdrHandling.DetailsWalkAccounts | openprocurement/integrations/edr/databridge/edr_handler.py:177-194 | as written, every id looked up ends in exactly one of an extract, a retry or the exception that stops the loop; every extract takes one id out of the list |
| EdrHandling.UnreachedSplit | openprocurement/integrations/edr/databridge/edr_handler.py:177-194 | the ids not reached are a suffix of the list; no id before it raises, and its first id does |
| EdrHandling.LookedUntilRaise | openprocurement/integrations/edr/databridge/edr_handler.py:177-194 | the lookups stop right after the first id that raises, or cover every id when none raises |
| EdrHandling.SnapshotWalkComplete | openprocurement/integrations/edr/databridge/edr_handler.py:177-194 | the intended loop looks every id up once in order until one raises, makes one extract per found id, retries once per failed id, and keeps the failed ids followed, after an exception, by the ids from the raising one on; it crashes iff some id raises |
| EdrHandling.SnapshotWalkBothFound | openprocurement/integrations/edr/databridge/edr_handler.py:177-194 | on the input of `DetailsWalkSkips` the intended loop makes both extracts and empties the list |
| EdrHandling.LookUpSnapshot | openprocurement/integrations/edr/databridge/edr_handler.py:177-194 | the intended loop over a snapshot leaves the failed ids followed, after an exception, by the ids from the raising one on; it makes the extracts of the found ids in order, counts one retry per failed id, and crashes iff some id raises |
| EdrHandling.LookUpAll | openprocurement/integrations/edr/databridge/edr_handler.py:177-194 | the loop as written leaves the list, extracts and retries of `DetailsWalk` |
| EdrHandling.LookUpOne | openprocurement/integrations/edr/databridge/edr_handler.py:178-194 | one pass of that loop: a found id is removed and gives its extract, a failed one counts a retry |
| EdrHandling.EmptyIdsMakeNothing | openprocurement/integrations/edr/databridge/edr_handler.py:177 | an empty id list makes no extract and no retry |
| EdrHandling.NotFoundExample | openprocurement/integrations/edr/databridge/edr_handler.py:94-101 | the registry's not-found body routes to the upload queue |
| EdrHandling.EmptyListFound | openprocurement/integrations/edr/databridge/edr_handler.py:102-107 | a 200 with an empty list is found with no ids, and that body is falsy |
| EdrHandling.NotFoundOnlyThatMessage | openprocurement/integrations/edr/databridge/edr_handler.py:94-113 | a 403 with any other error description is retried |
| EdrHandling.DetailsCrashAfterRetry | openprocurement/integrations/edr/databridge/edr_handler.py:177-194 | an id that fails, then one whose record cannot be read: one retry, no extract, and the exception ends the job with both ids still listed |
| EdrHandling.EdrHandler.constructor | openprocurement/integrations/edr/databridge/edr_handler.py:36-58 | the queues are stored, the retry queues start empty and the gate open |
| EdrHandling.EdrHandler.GetEdrId | openprocurement/integrations/edr/databridge/edr_handler.py:84-117 | the request carries `validate_param` of the code; not-found sends the body with the error details to upload; found sends the ids; retry puts the item back before status handling; crashes iff evaluating the body raises or the status raises; the gate is open after a 429 |
| EdrHandling.EdrHandler.RetryGetEdrId | openprocurement/integrations/edr/databridge/edr_handler.py:119-158 | an unsuccessful retry handles the status and drops the item if that raises, else puts it back; any other exception puts it back; success sends an error extract when the body is falsy, then the ids, and crashes iff the ids cannot be read |
| EdrHandling.EdrHandler.HandleStatus | openprocurement/integrations/edr/databridge/edr_handler.py:234-252 | raises iff `HandleStatusResponse` says so; the gate is open on return from a 429 and otherwise untouched |
| EdrHandling.EdrHandler.GetEdrDetails | openprocurement/integrations/edr/databridge/edr_handler.py:168-194 | the item's extracts go to upload and the item goes to retry once per failed lookup, as the as-written `DetailsWalk` says, with the list as the loop leaves it; the job crashes iff a lookup raises |
| UploadFiles.Forwarded | openprocurement/integrations/edr/databridge/upload_file.py:71-73 | only the file content changes, to the answer's `data` or `{}` when absent; none when the answer is not an object |
| UploadFiles.Document | openprocurement/integrations/edr/databridge/upload_file.py:114-115 | the document is the content with `documentType = registerExtract` and every other key kept; present iff the content is an object |
| UploadFiles.Marked | openprocurement/integrations/edr/databridge/upload_file.py:114-115 | only the item's content changes, and only when it is an object, which then carries the document type |
| UploadFiles.DocumentsPath | openprocurement/integrations/edr/databridge/upload_file.py:118-119 | the path is the item name, `/`, the item id, then `/documents` |
| UploadFiles.AttachOf | openprocurement/integrations/edr/databridge/upload_file.py:116-119 | an attach request exists iff the content is an object; it targets the item's tender and documents path and carries the typed document |
| UploadFiles.MarkedIdempotent | openprocurement/integrations/edr/databridge/upload_file.py:114-115 | setting the type twice equals setting it once and does not change the attach request |
| UploadFiles.DocumentsPathParses | openprocurement/integrations/edr/databridge/upload_file.py:117-119 | the path `item_name/item_id/documents` determines both parts when the name has no `/` |
| UploadFiles.ReleaseOnlyThatItem | openprocurement/integrations/edr/databridge/upload_file.py:132 | removing the claim drops exactly that key and keeps every other entry |
| UploadFiles.UploadedThenAttached | openprocurement/integrations/edr/databridge/upload_file.py:71-119 | an uploaded object `data` is attached to the item's own tender and path, with the document type added |
| UploadFiles.NoDataEmptyDocument | openprocurement/integrations/edr/databridge/upload_file.py:72 | an answer without `data` attaches a document holding only its type |
| UploadFiles.UploadFile.constructor | openprocurement/integrations/edr/databridge/upload_file.py:35-53 | the queues and claims are stored; retry queues start empty |
| UploadFiles.UploadFile.UploadToDocService | openprocurement/integrations/edr/databridge/upload_file.py:55-77 | a failed upload puts the item unchanged on the retry queue; a success forwards `Forwarded`, crashing iff the answer is not an object; claims are not touched |
| UploadFiles.UploadFile.RetryUploadToDocService | openprocurement/integrations/edr/databridge/upload_file.py:79-106 | as above on the retry queue; a failure puts the item back |
| UploadFiles.UploadFile.UploadToTender | openprocurement/integrations/edr/databridge/upload_file.py:108-132 | the request is the typed document on the item's path; a non-object content crashes; a failure queues the typed item for retry with claims unchanged; a success releases the claim |
| UploadFiles.UploadFile.RetryUploadToTender | openprocurement/integrations/edr/databridge/upload_file.py:134-164 | a failure or a non-object content puts the typed item back; a success releases the claim |
| UploadFiles.UploadFile.Release | openprocurement/integrations/edr/databridge/upload_file.py:132 | the claim of exactly that item is removed; crashes iff it was absent |

## Left out

- Greenlets, `_run`, `shutdown`, `immortal_jobs` and the restart loops are not modelled. Each worker's `while True` is modelled as one step method per item.
- Gevent events are not modelled beyond the 429 gate's state on return (`gateOpen`). Waiting on the gate is not modelled. `initialization_event`, sleeps and blocking `Queue.get` are not modelled; an empty queue is the `Idle` outcome.
- The `retrying` decorator (5 attempts, exponential wait) is abstracted as the final outcome of the call. That outcome is a result value: `RetryResult` or `DocResult`.
- HTTP clients, the document service, `create_file`, `generate_req_id` and logging are input values or are left out. JSON decoding failures of a response are left out; bodies are parsed values.
- `retry_get_edr_details` is left out. Its success path reads the nonexistent `self.required_fields` and raises for any 200 body that is not an object or has at least one key; only a body of `{}` gets through to the upload queue.
- `databridge.py` (the legacy bridge), `databridge/bridge.py`, the Pyramid views, traversal and renderers are not part of this model.
- `Timeout.TimeoutHandler.UpdateMult`: values are `real`. The source on integer settings uses Python 2 integer division, under which 7/2 is 3.
- `Common.IsDigits`: accepts only ASCII digits. Python's `isdigit` also accepts other Unicode digits.
- `EdrHandling.EdrHandler.GetEdrDetails`: every `Data` of one call shares the item's list object. The model shows each with the list as the loop leaves it; it does not model a later consumer mutating that shared list.
- `EdrHandling.EdrHandler.GetEdrDetails`: assumes every item on `edr_ids_queue` carries a list of ids (`Valid`), as both producers guarantee.
- Concurrent access to the shared `processing_items` by the filter and the uploader is not modelled; each step is atomic.
- `Queue(maxsize=500)` bounds on the retry queues are not modelled; `put` never blocks.
- Malformed tender structures are not modelled (an award without `suppliers`, a supplier without `identifier`). Tenders are typed records; only the crashes the filter's own lookups cause are modelled.
- `Scanning.Scanner.GetTenders`: runs over a finite list of fetch outcomes. The generator's endless wait for the next page is the `finished == false` result.
- `Scanning.Scanner.constructor`: each modelled scanner holds its own copy of the class attribute `sleep_change_value`, taken when it is constructed; a change made through one `Scanner` instance is not seen by another that already exists.

## Findings

| source | as written | input that shows it | evidently intended | confidence | as-written member | corrected member |
|---|---|---|---|---|---|---|
| openprocurement/integrations/edr/databridge/edr_handler.py:177-194 | `for edr_id in tender_data.edr_ids` iterates the list that `tender_data.edr_ids.remove(edr_id)` shrinks, so the id after every found id is skipped | an item whose list holds two different registry ids, both found: only the first is looked up; the second stays in the list, gets no extract and never goes to the retry queue | every id is looked up once; found ids get an extract and leave the list, failed ids stay and send the item to retry | not executed | EdrHandling.DetailsWalkSkips | EdrHandling.LookUpSnapshot |

`EdrHandling.EdrHandler.GetEdrDetails` models the loop as written (`DetailsWalk`, run
by `LookUpAll`). The corrected loop, `LookUpSnapshot`, walks a snapshot of the list.
`SnapshotWalkComplete` relates the corrected reference walk `SnapshotWalk` to the same
result, and `SnapshotWalkBothFound` shows that it handles the failing input.

=== FILE: auth.dfy ===
/** auth.py: the role of an authenticated request is the name of its last group
    principal (`g:<name>`), or `anonymous` when it has none. */
module Auth {

  const GroupPrefix := "g:"
  const Anonymous := "anonymous"

  predicate IsGroup(principal: string)
  {
    |principal| >= |GroupPrefix| && principal[..|GroupPrefix|] == GroupPrefix
  }

  /** `[g for g in reversed(principals) if g.startswith('g:')]`: only group principals,
      no more of them than there are principals. */
  function Groups(principals: seq<string>): (r: seq<string>)
    ensures forall g :: g in r ==> g in principals && IsGroup(g)
    ensures |r| <= |principals|
  {
    if principals == [] then []
    else
      var last := principals[|principals| - 1];
      (if IsGroup(last) then [last] else []) + Groups(principals[..|principals| - 1])
  }

  function AuthenticatedRole(principals: seq<string>): (role: string)
    ensures role == Anonymous || exists i :: 0 <= i < |principals| && IsGroup(principals[i]) && role == principals[i][2..]
  {
    var groups := Groups(principals);
    if groups != [] then
      assert groups[0] in groups;
      groups[0][2..]
    else Anonymous
  }


  /** Reversing and filtering a concatenation filters the two parts in swapped order. */
  lemma {:induction false} GroupsOfConcat(a: seq<string>, b: seq<string>)
    ensures Groups(a + b) == Groups(b) + Groups(a)
    decreases |b|
  {
    if b == [] {
      assert a + b == a;
    } else {
      var n := |b| - 1;
      var last := if IsGroup(b[n]) then [b[n]] else [];
      assert (a + b)[..|a + b| - 1] == a + b[..n];
      assert (a + b)[|a + b| - 1] == b[n];
      assert Groups(a + b) == last + Groups(a + b[..n]);
      GroupsOfConcat(a, b[..n]);
      assert Groups(b) == last + Groups(b[..n]);
      assert last + (Groups(b[..n]) + Groups(a)) == (last + Groups(b[..n])) + Groups(a);
    }
  }

  lemma GroupsOfOne(p: string)
    ensures Groups([p]) == if IsGroup(p) then [p] else []
  {
    assert [p][..0] == [];
  }

  /** The role is the name of the last principal that starts with `g:`. */
  lemma LastGroupWins(principals: seq<string>, j: int)
    requires 0 <= j < |principals| && IsGroup(principals[j])
    requires forall k :: j < k < |principals| ==> !IsGroup(principals[k])
    ensures AuthenticatedRole(principals) == principals[j][2..]
  {
    var before, after := principals[..j], principals[j + 1..];
    assert principals == before + [principals[j]] + after;
    NoGroupsNoneFound(after);
    GroupsOfConcat(before + [principals[j]], after);
    GroupsOfConcat(before, [principals[j]]);
    GroupsOfOne(principals[j]);
  }

  lemma {:induction false} NoGroupsNoneFound(principals: seq<string>)
    requires forall k :: 0 <= k < |principals| ==> !IsGroup(principals[k])
    ensures Groups(principals) == []
  {
    if principals != [] {
      NoGroupsNoneFound(principals[..|principals| - 1]);
    }
  }

  /** Without any group principal the role is `anonymous`. */
  lemma NoGroupIsAnonymous(principals: seq<string>)
    requires forall k :: 0 <= k < |principals| ==> !IsGroup(principals[k])
    ensures AuthenticatedRole(principals) == Anonymous
  {
    NoGroupsNoneFound(principals);
  }

  /** Inserting a principal that is not a group anywhere never changes the role. */
  lemma NonGroupsIrrelevant(a: seq<string>, p: string, b: seq<string>)
    requires !IsGroup(p)
    ensures AuthenticatedRole(a + [p] + b) == AuthenticatedRole(a + b)
  {
    GroupsOfConcat(a + [p], b);
    GroupsOfConcat(a, [p]);
    GroupsOfOne(p);
    GroupsOfConcat(a, b);
  }

  lemma RobotsExample()
    ensures AuthenticatedRole(["g:robots", "a", "b"]) == "robots"
  {
    LastGroupWins(["g:robots", "a", "b"], 0);
  }
}

=== FILE: client.dfy ===
/** The registry client of client.py: the base URL and headers fixed at construction,
    the choice between the `code` and `passport` lookup parameter, and the URLs of the
    two registry requests. The HTTP call itself is not modelled. */
module Client {
  import opened Common

  const DefaultPort := "443"
  const SubjectsPath := "/1.0/subjects"

  /** An `EdrClient` after `__init__`: none of its fields change afterwards. */
  datatype EdrClient = EdrClient(
    token: string,
    url: string,
    headers: map<string, string>,
    timeout: Option<real>)

  /** A GET request as handed to `requests.get`. */
  datatype Request = Request(url: string, headers: map<string, string>, timeout: Option<real>)

  function NewEdrClient(host: string, token: string, timeout: Option<real> := None, port: string := DefaultPort)
    : (c: EdrClient)
    ensures c.token == token && c.timeout == timeout
    ensures c.url == host + ":" + port + SubjectsPath
    ensures c.headers.Keys == {"Accept", "Authorization"}
    ensures c.headers["Accept"] == "application/json"
    ensures c.headers["Authorization"] == "Token " + token
  {
    EdrClient(token, host + ":" + port + SubjectsPath,
              map["Accept" := "application/json", "Authorization" := "Token " + token],
              timeout)
  }

  /** The lookup parameter `get_subject` sends. */
  function SubjectParam(code: string): (param: string)
    ensures param == "code" <==> IsDigits(code) && (|code| == 8 || |code| == 10)
    ensures param == "code" || param == "passport"
  {
    if IsDigits(code) && (|code| == 8 || |code| == 10) then "code" else "passport"
  }

  /** The request `get_subject` issues, with the client's headers and timeout. Its URL
      can be taken apart again: after the base URL and `?` come the parameter, `=` and
      the code exactly as given (unescaped). */
  function GetSubject(client: EdrClient, code: string): (r: Request)
    ensures r.headers == client.headers && r.timeout == client.timeout
    ensures |r.url| == |client.url| + |SubjectParam(code)| + |code| + 2
    ensures var p := SubjectParam(code);
      && r.url[..|client.url|] == client.url
      && r.url[|client.url|] == '?'
      && r.url[|client.url| + 1..|client.url| + 1 + |p|] == p
      && r.url[|client.url| + 1 + |p|] == '='
      && r.url[|client.url| + 2 + |p|..] == code
  {
    var p := SubjectParam(code);
    var tail := p + ("=" + code);
    var url := client.url + ("?" + tail);
    assert url[|client.url| + 1..] == tail;
    assert tail[..|p|] == p && tail[|p|] == '=' && tail[|p| + 1..] == code;
    Request(url, client.headers, client.timeout)
  }

  /** The request `get_subject_details` issues: the base URL, `/` and the registry's id,
      with the client's headers and timeout. */
  function GetSubjectDetails(client: EdrClient, edrUniqueId: string): (r: Request)
    ensures r.headers == client.headers && r.timeout == client.timeout
    ensures |r.url| == |client.url| + |edrUniqueId| + 1
    ensures && r.url[..|client.url|] == client.url
            && r.url[|client.url|] == '/'
            && r.url[|client.url| + 1..] == edrUniqueId
  {
    Request(client.url + ("/" + edrUniqueId), client.headers, client.timeout)
  }

  /** Digit strings of any length other than 8 and 10, the empty string and every string
      holding a non-digit go to the registry as a passport. */
  lemma PassportCases(code: string)
    ensures !IsDigits(code) ==> SubjectParam(code) == "passport"
    ensures |code| != 8 && |code| != 10 ==> SubjectParam(code) == "passport"
    ensures SubjectParam("") == "passport"
    ensures SubjectParam("123456789") == "passport"
    ensures SubjectParam("12345678901") == "passport"
    ensures SubjectParam("1436057a") == "passport"
    ensures SubjectParam("14360570") == "code"
  {
    assert !IsDigitChar("1436057a"[7]);
  }
}

=== FILE: common.dfy ===
/** Value types shared by every stage of the data bridge: optional values,
    JSON values as the bridge receives them from its HTTP collaborators,
    Python's truthiness and `str.isdigit`, and the `Data` work item. */
module Common {

  datatype Option<+T> = None | Some(value: T)

  /** A JSON value as decoded by the bridge's HTTP clients. */
  datatype Json =
    | JNull
    | JBool(b: bool)
    | JInt(n: int)
    | JStr(s: string)
    | JArr(elems: seq<Json>)
    | JObj(fields: map<string, Json>)

  /** Python's truth value of a decoded JSON value. */
  predicate Truthy(j: Json)
  {
    match j
    case JNull => false
    case JBool(b) => b
    case JInt(n) => n != 0
    case JStr(s) => s != ""
    case JArr(a) => a != []
    case JObj(m) => m != map[]
  }

  /** `dict.get(key)` on a JSON object: JNull when absent or when `j` is not an object. */
  function Get(j: Json, key: string): Json
  {
    if j.JObj? && key in j.fields then j.fields[key] else JNull
  }

  /** A Python `str` or `None` as a JSON value. */
  function OptStr(o: Option<string>): Json
  {
    match o
    case None => JNull
    case Some(s) => JStr(s)
  }

  predicate IsDigitChar(c: char)
  {
    '0' <= c <= '9'
  }

  /** Python's `str.isdigit()` on an ASCII string: false for the empty string. */
  predicate IsDigits(s: string)
  {
    |s| > 0 && forall i :: 0 <= i < |s| ==> IsDigitChar(s[i])
  }

  /** The `Data` namedtuple of databridge/utils.py: six fields in this order. */
  datatype Data = Data(
    tenderId: string,   // tender ID
    itemId: string,     // award or qualification ID
    code: string,       // EDRPOU, IPN or passport
    itemName: string,   // "awards" or "qualifications"
    edrIds: Json,       // unique ids in the registry (JNull for None)
    fileContent: Json   // details for the file (JNull for None)
  )

  const AwardsName := "awards"
  const QualificationsName := "qualifications"
}

=== FILE: edr_handler.dfy ===
/** databridge/edr_handler.py: the registry stage of the bridge. `get_edr_id` looks an
    item's code up and routes it by the response; `retry_get_edr_id` does the same for
    items that failed once; `get_edr_details` fetches the record of every registry id
    found and turns it into an extract with `prepare_data`. Responses are input values;
    the detail lookup is a function from id to response. */
module EdrHandling {
  import opened Common
  import Utils

  const ActivityKindScheme := "КВЕД"
  const IdentificationScheme := "UA-EDR"
  const NotFoundMessage := "EDRPOU not found"

  /** `error_details`: the file content of an extract for a code the registry lacks. */
  const ErrorDetails := JObj(map["error" := JStr("Couldn't find this code in EDR.")])

  // ---------------------------------------------------------------- prepare_data

  datatype Names = Names(short: Json, display: Json)

  datatype Address = Address(address: Json, zip: Json, country: Json)

  /** One entry of `activity_kinds`; `isPrimary` is read for its truthiness. */
  datatype ActivityKind = ActivityKind(code: Json, name: Json, isPrimary: Json)

  /** A registry detail record. `names` and `address` are `None` when the key is
      missing, null or empty (falsy); a missing `activity_kinds` is the empty list; a
      missing scalar is `JNull`. */
  datatype SubjectDetails = SubjectDetails(
    code: Json,
    names: Option<Names>,
    founders: Json,
    management: Json,
    activityKinds: seq<ActivityKind>,
    address: Option<Address>)

  /** The entries of `activity_kinds` when it is a list: `None` when one of them is not
      an object, whose `.get` then raises. */
  function KindsOf(entries: seq<Json>): (r: Option<seq<ActivityKind>>)
    ensures r.Some? <==> forall k :: 0 <= k < |entries| ==> entries[k].JObj?
    ensures r.Some? ==> |r.value| == |entries| && forall k :: 0 <= k < |entries| ==>
      r.value[k] == ActivityKind(Get(entries[k], "code"), Get(entries[k], "name"), Get(entries[k], "is_primary"))
  {
    if entries == [] then Some([])
    else if !entries[0].JObj? then None
    else
      match KindsOf(entries[1..])
      case None => None
      case Some(rest) =>
        Some([ActivityKind(Get(entries[0], "code"), Get(entries[0], "name"), Get(entries[0], "is_primary"))] + rest)
  }

  /** Iterating `data.get('activity_kinds', [])`: a missing key is the empty list; an
      empty object or string yields nothing; a non-empty object or string yields
      strings, and null, booleans and numbers are not iterable, so those raise. */
  function KindsField(data: map<string, Json>): Option<seq<ActivityKind>>
  {
    if "activity_kinds" !in data then Some([])
    else
      match data["activity_kinds"]
      case JArr(entries) => KindsOf(entries)
      case JObj(fields) => if fields == map[] then Some([]) else None
      case JStr(s) => if s == "" then Some([]) else None
      case _ => None
  }

  /** What `prepare_data` reads from a detail body: `None` when reading it raises. The
      body must be an object; `names` and `address` are used only when truthy, and then
      must be objects. */
  function ReadDetails(body: Json): (r: Option<SubjectDetails>)
    ensures r.Some? <==>
      && body.JObj? && KindsField(body.fields).Some?
      && (Truthy(Get(body, "names")) ==> Get(body, "names").JObj?)
      && (Truthy(Get(body, "address")) ==> Get(body, "address").JObj?)
    ensures r.Some? ==>
      && r.value.code == Get(body, "code") && r.value.founders == Get(body, "founders")
      && r.value.management == Get(body, "management")
      && r.value.activityKinds == KindsField(body.fields).value
      && (r.value.names.None? <==> !Truthy(Get(body, "names")))
      && (r.value.address.None? <==> !Truthy(Get(body, "address")))
    ensures r.Some? && r.value.names.Some? ==>
      r.value.names.value == Names(Get(Get(body, "names"), "short"), Get(Get(body, "names"), "display"))
    ensures r.Some? && r.value.address.Some? ==>
      r.value.address.value
        == Address(Get(Get(body, "address"), "address"), Get(Get(body, "address"), "zip"),
                   Get(Get(body, "address"), "country"))
  {
    if !body.JObj? then None
    else
      var names, address := Get(body, "names"), Get(body, "address");
      match KindsField(body.fields)
      case None => None
      case Some(kinds) =>
        if Truthy(names) && !names.JObj? then None
        else if Truthy(address) && !address.JObj? then None
        else Some(SubjectDetails(
          Get(body, "code"),
          if Truthy(names) then Some(Names(Get(names, "short"), Get(names, "display"))) else None,
          Get(body, "founders"),
          Get(body, "management"),
          kinds,
          if Truthy(address) then Some(Address(Get(address, "address"), Get(address, "zip"), Get(address, "country"))) else None))
  }

  /** The shapes on which `prepare_data` raises: a body that is not an object, a null
      `activity_kinds`, an entry of it that is not an object, and a truthy `names` or
      `address` that is not an object. A missing `activity_kinds` and falsy `names` and
      `address` are read. */
  lemma ReadDetailsRaises(body: map<string, Json>, entry: Json)
    requires !entry.JObj?
    ensures ReadDetails(JArr([JObj(body)])).None?
    ensures ReadDetails(JObj(body["activity_kinds" := JNull])).None?
    ensures ReadDetails(JObj(body["activity_kinds" := JArr([entry])])).None?
    ensures ReadDetails(JObj(body["names" := JStr("x")])).None?
    ensures ReadDetails(JObj(body["address" := JArr([JNull])])).None?
    ensures ReadDetails(JObj(map["names" := JNull, "address" := JStr("")])).Some?
  {
    assert KindsOf([entry]).None?;
    assert Truthy(JStr("x")) && Truthy(JArr([JNull]));
  }

  /** An activity kind as the extract writes it. */
  function KindJson(k: ActivityKind): Json
  {
    JObj(map["id" := k.code, "scheme" := JStr(ActivityKindScheme), "description" := k.name])
  }

  /** The position of the last primary entry, if there is one. */
  function LastPrimary(kinds: seq<ActivityKind>): (r: Option<nat>)
    ensures r.Some? ==> r.value < |kinds| && Truthy(kinds[r.value].isPrimary)
    ensures r.Some? ==> forall j :: r.value < j < |kinds| ==> !Truthy(kinds[j].isPrimary)
    ensures r.None? ==> forall j :: 0 <= j < |kinds| ==> !Truthy(kinds[j].isPrimary)
  {
    if kinds == [] then None
    else if Truthy(kinds[|kinds| - 1].isPrimary) then Some(|kinds| - 1)
    else LastPrimary(kinds[..|kinds| - 1])
  }

  /** The non-primary entries, as the extract writes them, in input order. */
  function Additional(kinds: seq<ActivityKind>): seq<Json>
  {
    if kinds == [] then []
    else (if Truthy(kinds[0].isPrimary) then [] else [KindJson(kinds[0])]) + Additional(kinds[1..])
  }

  /** The extract `prepare_data` builds from a detail record. */
  function Payload(d: SubjectDetails): Json
  {
    Extract(d, match LastPrimary(d.activityKinds)
               case None => JNull
               case Some(i) => KindJson(d.activityKinds[i]),
            Additional(d.activityKinds))
  }

  /** The extract's object around its two activity-kind fields. */
  function Extract(d: SubjectDetails, activityKind: Json, additional: seq<Json>): Json
  {
    JObj(map[
      "name" := (if d.names.Some? then d.names.value.short else JNull),
      "identification" := JObj(map[
        "scheme" := JStr(IdentificationScheme),
        "id" := d.code,
        "legalName" := (if d.names.Some? then d.names.value.display else JNull)]),
      "founders" := d.founders,
      "management" := d.management,
      "activityKind" := activityKind,
      "additionalActivityKinds" := (if additional == [] then JNull else JArr(additional)),
      "address" := JObj(map[
        "streetAddress" := (if d.address.Some? then d.address.value.address else JNull),
        "postalCode" := (if d.address.Some? then d.address.value.zip else JNull),
        "countryName" := (if d.address.Some? then d.address.value.country else JNull)])])
  }

  /** `prepare_data`: one pass over the activity kinds, the last primary one winning. */
  method PrepareData(d: SubjectDetails) returns (r: Json)
    ensures r == Payload(d)
  {
    var additional: seq<Json> := [];
    var primary: Json := JNull;  // the empty dict, falsy
    ghost var last: Option<nat> := None;
    var i := 0;
    while i < |d.activityKinds|
      invariant 0 <= i <= |d.activityKinds|
      invariant additional == Additional(d.activityKinds[..i])
      invariant last == LastPrimary(d.activityKinds[..i])
      invariant primary == (match last case None => JNull case Some(j) => KindJson(d.activityKinds[j]))
    {
      var kind := d.activityKinds[i];
      KindsStep(d.activityKinds, i);
      if Truthy(kind.isPrimary) {
        primary := KindJson(kind);
        last := Some(i);
      } else {
        additional := additional + [KindJson(kind)];
      }
      i := i + 1;
    }
    assert d.activityKinds[..i] == d.activityKinds;
    r := Extract(d, primary, additional);
  }

  /** One more entry: it becomes the last primary one, or is added to the others. */
  lemma KindsStep(kinds: seq<ActivityKind>, i: nat)
    requires i < |kinds|
    ensures Additional(kinds[..i + 1])
      == Additional(kinds[..i]) + (if Truthy(kinds[i].isPrimary) then [] else [KindJson(kinds[i])])
    ensures LastPrimary(kinds[..i + 1]) == if Truthy(kinds[i].isPrimary) then Some(i) else LastPrimary(kinds[..i])
  {
    assert kinds[..i + 1] == kinds[..i] + [kinds[i]];
    AdditionalSnoc(kinds[..i], kinds[i]);
  }

  lemma {:induction false} AdditionalSnoc(kinds: seq<ActivityKind>, k: ActivityKind)
    ensures Additional(kinds + [k]) == Additional(kinds) + (if Truthy(k.isPrimary) then [] else [KindJson(k)])
    decreases |kinds|
  {
    var tail := if Truthy(k.isPrimary) then [] else [KindJson(k)];
    if kinds == [] {
      assert [k][1..] == [];
      assert Additional([k]) == tail + Additional([]);
    } else {
      var head := if Truthy(kinds[0].isPrimary) then [] else [KindJson(kinds[0])];
      assert (kinds + [k])[0] == kinds[0];
      assert (kinds + [k])[1..] == kinds[1..] + [k];
      AdditionalSnoc(kinds[1..], k);
      assert Additional(kinds + [k]) == head + (Additional(kinds[1..]) + tail);
      assert Additional(kinds) == head + Additional(kinds[1..]);
    }
  }

  /** The additional kinds are exactly the non-primary entries: every one of them
      appears, in input order, and no primary one does. */
  lemma {:induction false} AdditionalKeepsNonPrimary(kinds: seq<ActivityKind>)
    ensures |Additional(kinds)| <= |kinds|
    ensures forall x :: x in Additional(kinds) <==>
      exists j :: 0 <= j < |kinds| && !Truthy(kinds[j].isPrimary) && x == KindJson(kinds[j])
    ensures Additional(kinds) == [] <==> forall j :: 0 <= j < |kinds| ==> Truthy(kinds[j].isPrimary)
  {
    if kinds != [] {
      AdditionalKeepsNonPrimary(kinds[1..]);
      forall x | x in Additional(kinds)
        ensures exists j :: 0 <= j < |kinds| && !Truthy(kinds[j].isPrimary) && x == KindJson(kinds[j])
      {
        if !(!Truthy(kinds[0].isPrimary) && x == KindJson(kinds[0])) {
          assert x in Additional(kinds[1..]);
          var j :| 0 <= j < |kinds[1..]| && !Truthy(kinds[1..][j].isPrimary) && x == KindJson(kinds[1..][j]);
          assert kinds[j + 1] == kinds[1..][j];
        }
      }
      forall x | exists j :: 0 <= j < |kinds| && !Truthy(kinds[j].isPrimary) && x == KindJson(kinds[j])
        ensures x in Additional(kinds)
      {
        var j :| 0 <= j < |kinds| && !Truthy(kinds[j].isPrimary) && x == KindJson(kinds[j]);
        if j > 0 {
          assert kinds[1..][j - 1] == kinds[j];
        }
      }
      if forall j :: 0 <= j < |kinds| ==> Truthy(kinds[j].isPrimary) {
        forall j | 0 <= j < |kinds[1..]| ensures Truthy(kinds[1..][j].isPrimary) {
          assert kinds[1..][j] == kinds[j + 1];
        }
      }
    }
  }

  /** Splitting the entries splits the additional kinds the same way (input order). */
  lemma {:induction false} AdditionalConcat(a: seq<ActivityKind>, b: seq<ActivityKind>)
    ensures Additional(a + b) == Additional(a) + Additional(b)
    decreases |a|
  {
    if a == [] {
      assert a + b == b;
    } else {
      assert (a + b)[1..] == a[1..] + b;
      AdditionalConcat(a[1..], b);
    }
  }

  /** The activity kinds of the extract: `activityKind` is the last primary entry, or
      null when there is none; `additionalActivityKinds` is null exactly when every
      entry is primary (its entries are those of `AdditionalKeepsNonPrimary`). */
  lemma PayloadActivityKinds(d: SubjectDetails)
    ensures var p := Payload(d);
      && (Get(p, "activityKind") == JNull <==> forall j :: 0 <= j < |d.activityKinds| ==> !Truthy(d.activityKinds[j].isPrimary))
      && (forall i :: 0 <= i < |d.activityKinds| && Truthy(d.activityKinds[i].isPrimary)
            && (forall j :: i < j < |d.activityKinds| ==> !Truthy(d.activityKinds[j].isPrimary))
            ==> Get(p, "activityKind") == KindJson(d.activityKinds[i]))
      && (Get(p, "additionalActivityKinds") == JNull <==> forall j :: 0 <= j < |d.activityKinds| ==> Truthy(d.activityKinds[j].isPrimary))
      && (Get(p, "additionalActivityKinds") != JNull ==> Get(p, "additionalActivityKinds") == JArr(Additional(d.activityKinds)))
  {
    AdditionalKeepsNonPrimary(d.activityKinds);
    var kinds := d.activityKinds;
    forall i | 0 <= i < |kinds| && Truthy(kinds[i].isPrimary)
        && (forall j :: i < j < |kinds| ==> !Truthy(kinds[j].isPrimary))
      ensures LastPrimary(kinds) == Some(i)
    {
    }
  }

  /** The extract has exactly seven keys. */
  lemma PayloadKeys(d: SubjectDetails)
    ensures Payload(d).JObj?
    ensures Payload(d).fields.Keys == {"name", "identification", "founders", "management", "activityKind",
                                       "additionalActivityKinds", "address"}
  {
  }

  /** The identification is always `UA-EDR` with the record's code; name and legal name
      come from `names`, or are null when it is missing; founders and management are
      copied. */
  lemma PayloadIdentification(d: SubjectDetails)
    ensures var p := Payload(d);
      && Get(Get(p, "identification"), "scheme") == JStr(IdentificationScheme)
      && Get(Get(p, "identification"), "id") == d.code
      && Get(p, "founders") == d.founders && Get(p, "management") == d.management
      && Get(p, "name") == (if d.names.Some? then d.names.value.short else JNull)
      && Get(Get(p, "identification"), "legalName") == (if d.names.Some? then d.names.value.display else JNull)
  {
  }

  /** The address fields come from `address`, and are all null when it is missing. */
  lemma PayloadAddress(d: SubjectDetails)
    ensures var a := Get(Payload(d), "address");
      && a.JObj? && a.fields.Keys == {"streetAddress", "postalCode", "countryName"}
      && (d.address.Some? ==>
            && a.fields["streetAddress"] == d.address.value.address
            && a.fields["postalCode"] == d.address.value.zip
            && a.fields["countryName"] == d.address.value.country)
      && (d.address.None? ==> forall key :: key in a.fields ==> a.fields[key] == JNull)
  {
  }

  // ---------------------------------------------------------------- responses

  /** A `verify` response: its status, its parsed body, its `Retry-After` header. */
  datatype Response = Response(status: int, body: Json, retryAfter: Option<string>)

  /** The not-found test of a 403 body: `None` when evaluating it raises (the body is not
      an object, `errors` is not a non-empty list, or its first entry is not an object). */
  function NotFoundTest(body: Json): (r: Option<bool>)
    ensures r.Some? <==>
      body.JObj? && Get(body, "errors").JArr? && |Get(body, "errors").elems| > 0
      && Get(body, "errors").elems[0].JObj?
    ensures r.Some? ==>
      (r.value <==> Get(Get(body, "errors").elems[0], "description")
                      == JArr([JObj(map["message" := JStr(NotFoundMessage)])]))
    ensures r == Some(true) ==>
      Get(body, "errors").JArr? && |Get(body, "errors").elems| > 0
      && Get(Get(body, "errors").elems[0], "description") == JArr([JObj(map["message" := JStr(NotFoundMessage)])])
  {
    if !body.JObj? then None
    else
      var errors := Get(body, "errors");
      if !errors.JArr? || errors.elems == [] || !errors.elems[0].JObj? then None
      else Some(Get(errors.elems[0], "description") == JArr([JObj(map["message" := JStr(NotFoundMessage)])]))
  }

  /** `[obj['id'] for obj in body]`: `None` when it raises. Iterating an empty object or
      string yields nothing; any other non-list raises, and so does an entry that is not
      an object with an `id`. */
  function IdsOf(body: Json): (r: Option<seq<Json>>)
    ensures r.Some? <==>
      || (body.JArr? && forall k :: 0 <= k < |body.elems| ==> body.elems[k].JObj? && "id" in body.elems[k].fields)
      || body == JObj(map[]) || body == JStr("")
    ensures r.Some? && body.JArr? ==>
      |r.value| == |body.elems| && forall k :: 0 <= k < |body.elems| ==> r.value[k] == body.elems[k].fields["id"]
    ensures r.Some? && !body.JArr? ==> r.value == []
  {
    match body
    case JArr(elems) => EntryIdsInOrder(elems); EntryIds(elems)
    case JObj(fields) => if fields == map[] then Some([]) else None
    case JStr(s) => if s == "" then Some([]) else None
    case _ => None
  }

  function EntryIds(entries: seq<Json>): (r: Option<seq<Json>>)
    ensures r.Some? ==> |r.value| == |entries|
  {
    if entries == [] then Some([])
    else if entries[0].JObj? && "id" in entries[0].fields then
      match EntryIds(entries[1..])
      case None => None
      case Some(rest) => Some([entries[0].fields["id"]] + rest)
    else None
  }

  /** The ids are taken in order, one per entry, and only when every entry is an object
      with an `id`. */
  lemma {:induction false} EntryIdsInOrder(entries: seq<Json>)
    ensures EntryIds(entries).Some? <==> forall k :: 0 <= k < |entries| ==> entries[k].JObj? && "id" in entries[k].fields
    ensures EntryIds(entries).Some? ==>
      forall k :: 0 <= k < |entries| ==> EntryIds(entries).value[k] == entries[k].fields["id"]
  {
    if entries != [] {
      EntryIdsInOrder(entries[1..]);
      if forall k :: 0 <= k < |entries| ==> entries[k].JObj? && "id" in entries[k].fields {
        forall k | 0 <= k < |entries[1..]| ensures entries[1..][k].JObj? && "id" in entries[1..][k].fields {
          assert entries[1..][k] == entries[k + 1];
        }
      }
      if EntryIds(entries).Some? {
        forall k | 0 < k < |entries| ensures entries[k].JObj? && "id" in entries[k].fields
          && EntryIds(entries).value[k] == entries[k].fields["id"]
        {
          assert entries[1..][k - 1] == entries[k];
        }
      }
    }
  }

  /** How `get_edr_id` routes a response. */
  datatype Route =
    | NotFound          // to the upload queue with the error details
    | Found(ids: seq<Json>)  // to the ids queue
    | Retry             // to the retry queue, then `handle_status_response`
    | Raises            // evaluating the response raised

  function RouteVerify(r: Response): (route: Route)
    ensures route == NotFound ==> r.status == 403
    ensures route.Found? ==> r.status == 200 && IdsOf(r.body) == Some(route.ids)
    ensures route == Retry <==> r.status != 200 && (r.status != 403 || NotFoundTest(r.body) == Some(false))
    ensures r.status == 403 && NotFoundTest(r.body) == Some(true) ==> route == NotFound
    ensures r.status == 200 && IdsOf(r.body).Some? ==> route == Found(IdsOf(r.body).value)
    ensures route == Raises <==>
      (r.status == 403 && NotFoundTest(r.body).None?) || (r.status == 200 && IdsOf(r.body).None?)
  {
    if r.status == 403 then
      match NotFoundTest(r.body)
      case None => Raises
      case Some(notFound) => if notFound then NotFound else Retry
    else if r.status == 200 then
      match IdsOf(r.body)
      case None => Raises
      case Some(ids) => Found(ids)
    else Retry
  }

  /** What `handle_status_response` does for an unsuccessful status. */
  datatype StatusAction =
    | Raise                          // 401 and 402
    | Throttle(retryAfter: Option<string>)  // 429: close the gate, wait, reopen it
    | LogOnly

  function HandleStatusResponse(status: int, retryAfter: Option<string>): (a: StatusAction)
    ensures a.Raise? <==> status == 401 || status == 402
    ensures a.Throttle? <==> status == 429
    ensures a.Throttle? ==> a.retryAfter == retryAfter
  {
    if status == 401 then Raise
    else if status == 429 then Throttle(retryAfter)
    else if status == 402 then Raise
    else LogOnly
  }

  /** What the retried lookup (`get_edr_id_request` under its retry decorator) ends in. */
  datatype RetryResult =
    | Succeeded(body: Json)                               // a 200
    | Unsuccessful(status: int, retryAfter: Option<string>)  // RetryException with the last response
    | Failed                                              // any other exception

  /** A detail lookup: the parsed body of a 200, the status of any other answer, or a
      call that raised. */
  datatype DetailsResponse = DetailsOk(body: Json) | DetailsFailed(status: int) | DetailsRaised

  /** What one pass of the loop makes of a lookup: a record to build the extract from,
      a status other than 200, which sends the item to retry, or an exception (from the call or from
      `prepare_data` reading the body) that ends the job. */
  datatype Lookup = Record(record: SubjectDetails) | Rejected | Raised

  function LookupOf(r: DetailsResponse): (l: Lookup)
    ensures l.Rejected? <==> r.DetailsFailed?
  {
    match r
    case DetailsOk(body) => (match ReadDetails(body) case Some(record) => Record(record) case None => Raised)
    case DetailsFailed(_) => Rejected
    case DetailsRaised => Raised
  }

  /** A lookup gives a record exactly when the call answered 200 and `prepare_data` could
      read the body, and the record is what it read; every other 200, and a call that
      raised, is an exception. */
  lemma LookupOfReads(r: DetailsResponse)
    ensures LookupOf(r).Record? <==> r.DetailsOk? && ReadDetails(r.body).Some?
    ensures LookupOf(r).Record? ==> LookupOf(r).record == ReadDetails(r.body).value
    ensures LookupOf(r).Raised? <==> r.DetailsRaised? || (r.DetailsOk? && ReadDetails(r.body).None?)
  {
  }

  // ---------------------------------------------------------------- get_edr_details

  /** What the loop over an item's registry ids leaves: the ids still in its list, the
      extracts made (in order), how often the item went to the retry queue, the ids it
      looked up (in order), and whether an exception ended it. */
  datatype Walk = Walk(finalIds: seq<Json>, contents: seq<Json>, retries: nat, requested: seq<Json>, crashed: bool)

  /** The position of the first occurrence of `x`. */
  function IndexOf(xs: seq<Json>, x: Json): (k: nat)
    requires x in xs
    ensures k < |xs| && xs[k] == x
    ensures forall j :: 0 <= j < k ==> xs[j] != x
  {
    if xs[0] == x then 0 else 1 + IndexOf(xs[1..], x)
  }

  /** `list.remove`: drops the first occurrence and keeps the rest in order. */
  function RemoveFirst(xs: seq<Json>, x: Json): (r: seq<Json>)
    requires x in xs
    ensures |r| == |xs| - 1
    ensures exists k :: 0 <= k < |xs| && xs[k] == x && x !in xs[..k] && r == xs[..k] + xs[k + 1..]
  {
    var k := IndexOf(xs, x);
    xs[..k] + xs[k + 1..]
  }

  /** The loop of `get_edr_details` as written: a Python list iterator over the list
      the body removes from, so it steps to position `i + 1` of the shortened list. An
      exception stops it where it is. */
  function DetailsWalk(ids: seq<Json>, i: nat, details: Json -> DetailsResponse): Walk
    decreases |ids| - i
  {
    if i >= |ids| then Walk(ids, [], 0, [], false)
    else
      var id := ids[i];
      match LookupOf(details(id))
      case Record(record) =>
        var rest := DetailsWalk(RemoveFirst(ids, id), i + 1, details);
        rest.(contents := [Payload(record)] + rest.contents, requested := [id] + rest.requested)
      case Rejected =>
        var rest := DetailsWalk(ids, i + 1, details);
        rest.(retries := rest.retries + 1, requested := [id] + rest.requested)
      case Raised =>
        Walk(ids, [], 0, [id], true)
  }

  /** Every id the loop looks up ends in exactly one of an extract, a retry or the
      exception that stops it, and every extract takes its id out of the list. */
  lemma {:induction false} DetailsWalkAccounts(ids: seq<Json>, i: nat, details: Json -> DetailsResponse)
    ensures var w := DetailsWalk(ids, i, details);
      && |w.requested| == |w.contents| + w.retries + (if w.crashed then 1 else 0)
      && |w.finalIds| + |w.contents| == |ids|
    decreases |ids| - i
  {
    if i < |ids| {
      var id := ids[i];
      match LookupOf(details(id))
      case Record(record) =>
        DetailsWalkAccounts(RemoveFirst(ids, id), i + 1, details);
      case Rejected =>
        DetailsWalkAccounts(ids, i + 1, details);
      case Raised =>
    }
  }

  /** Two registry ids that are both found: only the first is looked up; the second is
      skipped, stays in the list and never reaches the retry queue, so its extract is
      never made. */
  lemma DetailsWalkSkips(a: Json, b: Json, ra: SubjectDetails, rb: SubjectDetails, details: Json -> DetailsResponse)
    requires a != b && LookupOf(details(a)) == Record(ra) && LookupOf(details(b)) == Record(rb)
    ensures DetailsWalk([a, b], 0, details) == Walk([b], [Payload(ra)], 0, [a], false)
  {
    assert RemoveFirst([a, b], a) == [b];
  }

  /** The loop as intended, over a snapshot of the list: every id is looked up once,
      until an exception stops it. */
  function SnapshotWalk(snapshot: seq<Json>, ids: seq<Json>, details: Json -> DetailsResponse): Walk
    decreases |snapshot|
  {
    if snapshot == [] then Walk(ids, [], 0, [], false)
    else
      var id := snapshot[0];
      match LookupOf(details(id))
      case Record(record) =>
        var rest := SnapshotWalk(snapshot[1..], if id in ids then RemoveFirst(ids, id) else ids, details);
        rest.(contents := [Payload(record)] + rest.contents, requested := [id] + rest.requested)
      case Rejected =>
        var rest := SnapshotWalk(snapshot[1..], ids, details);
        rest.(retries := rest.retries + 1, requested := [id] + rest.requested)
      case Raised =>
        Walk(ids, [], 0, [id], true)
  }

  /** The ids whose lookup fails, in order, up to the first one that raises. */
  function FailingIds(ids: seq<Json>, details: Json -> DetailsResponse): seq<Json>
  {
    if ids == [] then []
    else
      match LookupOf(details(ids[0]))
      case Record(_) => FailingIds(ids[1..], details)
      case Rejected => [ids[0]] + FailingIds(ids[1..], details)
      case Raised => []
  }

  /** The extracts of the ids whose lookup succeeds, in order, up to the first one that
      raises. */
  function FoundPayloads(ids: seq<Json>, details: Json -> DetailsResponse): seq<Json>
  {
    if ids == [] then []
    else
      match LookupOf(details(ids[0]))
      case Record(record) => [Payload(record)] + FoundPayloads(ids[1..], details)
      case Rejected => FoundPayloads(ids[1..], details)
      case Raised => []
  }

  /** The ids from the first one whose lookup raises on; empty when none raises. */
  function Unreached(ids: seq<Json>, details: Json -> DetailsResponse): seq<Json>
  {
    if ids == [] then []
    else if LookupOf(details(ids[0])).Raised? then ids
    else Unreached(ids[1..], details)
  }

  /** The ids looked up: all of them, or those up to and including the first that
      raises. */
  function Looked(ids: seq<Json>, details: Json -> DetailsResponse): seq<Json>
  {
    if ids == [] then []
    else [ids[0]] + (if LookupOf(details(ids[0])).Raised? then [] else Looked(ids[1..], details))
  }

  /** `Unreached` starts at the first id whose lookup raises: it is a suffix of the ids,
      every id before it is looked up without an exception, and it starts with an id
      that raises. */
  lemma {:induction false} UnreachedSplit(ids: seq<Json>, details: Json -> DetailsResponse)
    ensures var u := Unreached(ids, details);
      && |u| <= |ids| && u == ids[|ids| - |u|..]
      && (forall k :: 0 <= k < |ids| - |u| ==> !LookupOf(details(ids[k])).Raised?)
      && (u != [] ==> LookupOf(details(u[0])).Raised?)
  {
    if ids != [] {
      UnreachedSplit(ids[1..], details);
      if !LookupOf(details(ids[0])).Raised? {
        UnreachedShift(ids, details);
      }
    }
  }

  /** The step of `UnreachedSplit` past an id that does not raise. */
  lemma UnreachedShift(ids: seq<Json>, details: Json -> DetailsResponse)
    requires ids != [] && !LookupOf(details(ids[0])).Raised?
    requires var u := Unreached(ids[1..], details);
      && |u| <= |ids[1..]| && u == ids[1..][|ids[1..]| - |u|..]
      && (forall k :: 0 <= k < |ids[1..]| - |u| ==> !LookupOf(details(ids[1..][k])).Raised?)
    ensures var u := Unreached(ids, details);
      && |u| <= |ids| && u == ids[|ids| - |u|..]
      && (forall k :: 0 <= k < |ids| - |u| ==> !LookupOf(details(ids[k])).Raised?)
  {
    var u := Unreached(ids[1..], details);
    assert Unreached(ids, details) == u;
    var n := |ids| - |u|;
    assert ids[1..][n - 1..] == ids[n..];
    forall k | 0 <= k < n ensures !LookupOf(details(ids[k])).Raised? {
      if k > 0 {
        assert ids[1..][k - 1] == ids[k];
      }
    }
  }

  /** The lookups stop right after the first id that raises, or look up every id when
      none does. */
  lemma {:induction false} LookedUntilRaise(ids: seq<Json>, details: Json -> DetailsResponse)
    ensures var u := Unreached(ids, details);
      && |u| <= |ids|
      && (u != [] ==> Looked(ids, details) == ids[..|ids| - |u| + 1])
      && (u == [] ==> Looked(ids, details) == ids)
  {
    if ids != [] {
      LookedUntilRaise(ids[1..], details);
      if !LookupOf(details(ids[0])).Raised? {
        var u := Unreached(ids[1..], details);
        assert Unreached(ids, details) == u;
        assert Looked(ids, details) == [ids[0]] + Looked(ids[1..], details);
        if u != [] {
          var n := |ids| - |u|;
          assert Looked(ids[1..], details) == ids[1..][..n];
          assert ids[..n + 1] == [ids[0]] + ids[1..][..n];
        } else {
          assert ids == [ids[0]] + ids[1..];
        }
      }
    }
  }

  lemma {:induction false} FailingIdsFail(ids: seq<Json>, details: Json -> DetailsResponse)
    ensures forall x :: x in FailingIds(ids, details) ==> LookupOf(details(x)).Rejected?
  {
    if ids != [] {
      FailingIdsFail(ids[1..], details);
    }
  }

  /** With the failed ids seen so far at the front of the list, the walk over the rest
      removes exactly the found ones, and an exception leaves the rest in place. */
  ghost predicate WalkFrom(kept: seq<Json>, rest: seq<Json>, details: Json -> DetailsResponse)
  {
    var w := SnapshotWalk(rest, kept + rest, details);
    && w.requested == Looked(rest, details)
    && w.finalIds == kept + FailingIds(rest, details) + Unreached(rest, details)
    && w.contents == FoundPayloads(rest, details)
    && w.retries == |FailingIds(rest, details)|
    && (w.crashed <==> Unreached(rest, details) != [])
  }

  lemma {:induction false} SnapshotWalkFrom(kept: seq<Json>, rest: seq<Json>, details: Json -> DetailsResponse)
    requires forall x :: x in kept ==> LookupOf(details(x)).Rejected?
    ensures WalkFrom(kept, rest, details)
    decreases |rest|
  {
    if rest == [] {
      assert kept + [] + [] == kept;
    } else {
      match LookupOf(details(rest[0]))
      case Record(record) =>
        SnapshotWalkFrom(kept, rest[1..], details);
        FoundStep(kept, rest, record, details);
      case Rejected =>
        SnapshotWalkFrom(kept + [rest[0]], rest[1..], details);
        FailedStep(kept, rest, details);
      case Raised =>
        assert kept + [] + rest == kept + rest;
    }
  }

  lemma FoundStep(kept: seq<Json>, rest: seq<Json>, record: SubjectDetails, details: Json -> DetailsResponse)
    requires rest != [] && LookupOf(details(rest[0])) == Record(record)
    requires forall x :: x in kept ==> LookupOf(details(x)).Rejected?
    requires WalkFrom(kept, rest[1..], details)
    ensures WalkFrom(kept, rest, details)
  {
    var id := rest[0];
    RemoveAfterKept(kept, rest);
    var w' := SnapshotWalk(rest[1..], kept + rest[1..], details);
    assert SnapshotWalk(rest, kept + rest, details)
      == w'.(contents := [Payload(record)] + w'.contents, requested := [id] + w'.requested);
    assert FailingIds(rest, details) == FailingIds(rest[1..], details);
    assert Unreached(rest, details) == Unreached(rest[1..], details);
    assert FoundPayloads(rest, details) == [Payload(record)] + FoundPayloads(rest[1..], details);
  }

  lemma FailedStep(kept: seq<Json>, rest: seq<Json>, details: Json -> DetailsResponse)
    requires rest != [] && LookupOf(details(rest[0])).Rejected?
    requires WalkFrom(kept + [rest[0]], rest[1..], details)
    ensures WalkFrom(kept, rest, details)
  {
    var id := rest[0];
    FailedUnfold(kept, rest, details);
    FailedLists(rest, details);
    FailedCombine(SnapshotWalk(rest, kept + rest, details), SnapshotWalk(rest[1..], (kept + [id]) + rest[1..], details),
                  kept, id, FailingIds(rest[1..], details), Unreached(rest[1..], details));
  }

  /** The bookkeeping of a failed id: one more retry, and the id stays between the
      earlier failed ids and the later ones. */
  lemma FailedCombine(w: Walk, w': Walk, kept: seq<Json>, id: Json, failing: seq<Json>, unreached: seq<Json>)
    requires w == w'.(retries := w'.retries + 1, requested := [id] + w'.requested)
    requires w'.finalIds == (kept + [id]) + failing + unreached && w'.retries == |failing|
    ensures w.requested == [id] + w'.requested && w.contents == w'.contents && w.crashed == w'.crashed
    ensures w.finalIds == kept + ([id] + failing) + unreached && w.retries == |[id] + failing|
  {
    assert (kept + [id]) + failing + unreached == kept + ([id] + failing) + unreached;
  }

  /** A failed lookup counts a retry and keeps the id in the list. */
  lemma FailedUnfold(kept: seq<Json>, rest: seq<Json>, details: Json -> DetailsResponse)
    requires rest != [] && LookupOf(details(rest[0])).Rejected?
    ensures var w' := SnapshotWalk(rest[1..], (kept + [rest[0]]) + rest[1..], details);
      SnapshotWalk(rest, kept + rest, details) == w'.(retries := w'.retries + 1, requested := [rest[0]] + w'.requested)
  {
    assert kept + rest == (kept + [rest[0]]) + rest[1..];
  }

  /** A failed id heads the failing ids and is looked up; it neither raises nor makes an
      extract. */
  lemma FailedLists(rest: seq<Json>, details: Json -> DetailsResponse)
    requires rest != [] && LookupOf(details(rest[0])).Rejected?
    ensures FailingIds(rest, details) == [rest[0]] + FailingIds(rest[1..], details)
    ensures Unreached(rest, details) == Unreached(rest[1..], details)
    ensures FoundPayloads(rest, details) == FoundPayloads(rest[1..], details)
    ensures Looked(rest, details) == [rest[0]] + Looked(rest[1..], details)
  {
  }

  lemma RemoveAfterKept(kept: seq<Json>, rest: seq<Json>)
    requires rest != [] && rest[0] !in kept
    ensures rest[0] in kept + rest
    ensures RemoveFirst(kept + rest, rest[0]) == kept + rest[1..]
  {
    var ids := kept + rest;
    assert ids[|kept|] == rest[0];
    var k := IndexOf(ids, rest[0]);
    assert ids[..k] == kept;
    assert ids[k + 1..] == rest[1..];
  }

  /** The intended loop looks the ids up once each, in order, until one raises; it
      makes one extract per found id, sends the item to the retry queue once per failed
      id, and leaves the failed ids in the list, followed by the ids from the raising
      one on. */
  lemma SnapshotWalkComplete(ids: seq<Json>, details: Json -> DetailsResponse)
    ensures var w := SnapshotWalk(ids, ids, details);
      && w.requested == Looked(ids, details)
      && w.finalIds == FailingIds(ids, details) + Unreached(ids, details)
      && w.contents == FoundPayloads(ids, details)
      && w.retries == |FailingIds(ids, details)|
      && (w.crashed <==> Unreached(ids, details) != [])
  {
    SnapshotWalkFrom([], ids, details);
    assert [] + ids == ids;
    assert WalkFrom([], ids, details);
    assert [] + FailingIds(ids, details) == FailingIds(ids, details);
  }

  /** On the input of `DetailsWalkSkips` the intended loop makes both extracts and
      leaves the list empty. */
  lemma SnapshotWalkBothFound(a: Json, b: Json, ra: SubjectDetails, rb: SubjectDetails, details: Json -> DetailsResponse)
    requires a != b && LookupOf(details(a)) == Record(ra) && LookupOf(details(b)) == Record(rb)
    ensures SnapshotWalk([a, b], [a, b], details) == Walk([], [Payload(ra), Payload(rb)], 0, [a, b], false)
  {
    SnapshotWalkComplete([a, b], details);
    assert [a, b][1..] == [b] && [b][1..] == [];
    assert FailingIds([b], details) == FailingIds([], details);
    assert FailingIds([a, b], details) == FailingIds([b], details);
    assert Unreached([a, b], details) == Unreached([b], details) == Unreached([], details);
    assert Looked([a, b], details) == [a] + Looked([b], details);
    assert Looked([b], details) == [b] + Looked([], details);
    assert FoundPayloads([b], details) == [Payload(rb)] + FoundPayloads([], details);
    assert FoundPayloads([a, b], details) == [Payload(ra)] + FoundPayloads([b], details);
  }

  /** The `Data` a walk puts on the upload queue: one per extract, each sharing the
      item's list (as it is when the loop ends). */
  function Uploads(item: Data, finalIds: seq<Json>, contents: seq<Json>): seq<Data>
  {
    if contents == [] then []
    else [item.(edrIds := JArr(finalIds), fileContent := contents[0])] + Uploads(item, finalIds, contents[1..])
  }

  function Repeat(item: Data, n: nat): seq<Data>
  {
    if n == 0 then [] else [item] + Repeat(item, n - 1)
  }

  datatype StepOutcome =
    | Idle       // the input queue is empty: `get` would block
    | Continued  // the item was handled; the loop goes on
    | Crashed    // an exception ended the job

  class EdrHandler {
    var edrpouCodesQueue: seq<Data>
    var edrIdsQueue: seq<Data>
    var uploadToDocServiceQueue: seq<Data>
    var retryEdrpouCodesQueue: seq<Data>
    var retryEdrIdsQueue: seq<Data>
    /** `until_too_many_requests_event`: set while lookups may go out. */
    var gateOpen: bool

    /** Every item on the ids queue carries a list of registry ids. */
    ghost predicate Valid()
      reads this
    {
      forall d :: d in edrIdsQueue ==> d.edrIds.JArr?
    }

    constructor (edrpouCodesQueue: seq<Data>, edrIdsQueue: seq<Data>, uploadToDocServiceQueue: seq<Data>)
      requires forall d :: d in edrIdsQueue ==> d.edrIds.JArr?
      ensures Valid()
      ensures this.edrpouCodesQueue == edrpouCodesQueue && this.edrIdsQueue == edrIdsQueue
      ensures this.uploadToDocServiceQueue == uploadToDocServiceQueue
      ensures retryEdrpouCodesQueue == [] && retryEdrIdsQueue == [] && gateOpen
    {
      this.edrpouCodesQueue := edrpouCodesQueue;
      this.edrIdsQueue := edrIdsQueue;
      this.uploadToDocServiceQueue := uploadToDocServiceQueue;
      this.retryEdrpouCodesQueue := [];
      this.retryEdrIdsQueue := [];
      this.gateOpen := true;
    }

    /** One turn of `get_edr_id`. `param` is the lookup parameter the request carries;
        `answer` is the registry proxy's response to it, `None` when the call raised. */
    method GetEdrId(answer: Option<Response>) returns (outcome: StepOutcome, param: string)
      modifies this
      ensures old(edrpouCodesQueue) == [] ==> outcome == Idle && edrpouCodesQueue == []
      ensures retryEdrIdsQueue == old(retryEdrIdsQueue)
      ensures old(edrpouCodesQueue) == [] || answer.None? ==>
        && edrIdsQueue == old(edrIdsQueue) && uploadToDocServiceQueue == old(uploadToDocServiceQueue)
        && retryEdrpouCodesQueue == old(retryEdrpouCodesQueue) && gateOpen == old(gateOpen)
      ensures old(edrpouCodesQueue) != [] ==>
        && edrpouCodesQueue == old(edrpouCodesQueue)[1..]
        && param == Utils.ValidateParam(old(edrpouCodesQueue)[0].code)
      ensures old(edrpouCodesQueue) != [] && answer.None? ==> outcome == Crashed
      ensures old(edrpouCodesQueue) != [] && answer.Some? ==>
        var d, response := old(edrpouCodesQueue)[0], answer.value;
        && edrIdsQueue == old(edrIdsQueue)
             + (match RouteVerify(response) case Found(ids) => [d.(edrIds := JArr(ids), fileContent := JNull)] case _ => [])
        && uploadToDocServiceQueue == old(uploadToDocServiceQueue)
             + (if RouteVerify(response) == NotFound then [d.(edrIds := response.body, fileContent := ErrorDetails)] else [])
        && retryEdrpouCodesQueue == old(retryEdrpouCodesQueue) + (if RouteVerify(response) == Retry then [d] else [])
        && (outcome == Crashed <==>
              || RouteVerify(response) == Raises
              || (RouteVerify(response) == Retry && HandleStatusResponse(response.status, response.retryAfter).Raise?))
        && (outcome != Crashed ==> outcome == Continued)
        && gateOpen == (old(gateOpen) || (RouteVerify(response) == Retry && response.status == 429))
      ensures old(Valid()) ==> Valid()
    {
      param := "";
      if edrpouCodesQueue == [] {
        return Idle, param;
      }
      var d := edrpouCodesQueue[0];
      edrpouCodesQueue := edrpouCodesQueue[1..];
      param := Utils.ValidateParam(d.code);
      if answer.None? {
        return Crashed, param;
      }
      var response := answer.value;
      match RouteVerify(response)
      case NotFound =>
        uploadToDocServiceQueue := uploadToDocServiceQueue + [d.(edrIds := response.body, fileContent := ErrorDetails)];
        outcome := Continued;
      case Found(ids) =>
        edrIdsQueue := edrIdsQueue + [d.(edrIds := JArr(ids), fileContent := JNull)];
        outcome := Continued;
      case Retry =>
        retryEdrpouCodesQueue := retryEdrpouCodesQueue + [d];
        var raised := HandleStatus(response.status, response.retryAfter);
        outcome := if raised then Crashed else Continued;
      case Raises =>
        outcome := Crashed;
    }

    /** One call of `retry_get_edr_id`. A status that makes `handle_status_response`
        raise ends the call before the item is put back. */
    method RetryGetEdrId(result: RetryResult) returns (outcome: StepOutcome, param: string)
      modifies this
      ensures old(retryEdrpouCodesQueue) == [] ==> outcome == Idle && retryEdrpouCodesQueue == []
      ensures edrpouCodesQueue == old(edrpouCodesQueue) && retryEdrIdsQueue == old(retryEdrIdsQueue)
      ensures old(retryEdrpouCodesQueue) == [] ==>
        edrIdsQueue == old(edrIdsQueue) && uploadToDocServiceQueue == old(uploadToDocServiceQueue)
      ensures old(retryEdrpouCodesQueue) != [] ==>
        var d := old(retryEdrpouCodesQueue)[0];
        && param == Utils.ValidateParam(d.code)
        && match result
           case Unsuccessful(status, retryAfter) =>
             && edrIdsQueue == old(edrIdsQueue) && uploadToDocServiceQueue == old(uploadToDocServiceQueue)
             && gateOpen == (old(gateOpen) || status == 429)
             && (if HandleStatusResponse(status, retryAfter).Raise?
                 then outcome == Crashed && retryEdrpouCodesQueue == old(retryEdrpouCodesQueue)[1..]
                 else outcome == Continued && retryEdrpouCodesQueue == old(retryEdrpouCodesQueue)[1..] + [d])
           case Failed =>
             && edrIdsQueue == old(edrIdsQueue) && uploadToDocServiceQueue == old(uploadToDocServiceQueue)
             && outcome == Continued && retryEdrpouCodesQueue == old(retryEdrpouCodesQueue)[1..] + [d]
           case Succeeded(body) =>
             && retryEdrpouCodesQueue == old(retryEdrpouCodesQueue)[1..]
             && uploadToDocServiceQueue == old(uploadToDocServiceQueue)
                  + (if Truthy(body) then [] else [d.(edrIds := body, fileContent := ErrorDetails)])
             && edrIdsQueue == old(edrIdsQueue)
                  + (match IdsOf(body) case Some(ids) => [d.(edrIds := JArr(ids), fileContent := JNull)] case None => [])
             && (outcome == Crashed <==> IdsOf(body).None?)
             && (outcome != Crashed ==> outcome == Continued)
      ensures !(old(retryEdrpouCodesQueue) != [] && result.Unsuccessful?) ==> gateOpen == old(gateOpen)
      ensures old(Valid()) ==> Valid()
    {
      param := "";
      if retryEdrpouCodesQueue == [] {
        return Idle, param;
      }
      var d := retryEdrpouCodesQueue[0];
      retryEdrpouCodesQueue := retryEdrpouCodesQueue[1..];
      param := Utils.ValidateParam(d.code);
      match result
      case Unsuccessful(status, retryAfter) =>
        var raised := HandleStatus(status, retryAfter);
        if raised {
          return Crashed, param;
        }
        retryEdrpouCodesQueue := retryEdrpouCodesQueue + [d];
        outcome := Continued;
      case Failed =>
        retryEdrpouCodesQueue := retryEdrpouCodesQueue + [d];
        outcome := Continued;
      case Succeeded(body) =>
        if !Truthy(body) {
          uploadToDocServiceQueue := uploadToDocServiceQueue + [d.(edrIds := body, fileContent := ErrorDetails)];
        }
        match IdsOf(body)
        case None =>
          outcome := Crashed;
        case Some(ids) =>
          edrIdsQueue := edrIdsQueue + [d.(edrIds := JArr(ids), fileContent := JNull)];
          outcome := Continued;
    }

    /** `handle_status_response`: raises for 401 and 402; a 429 closes the gate, waits
        and opens it again, so the gate is open when it returns; anything else is only
        logged. */
    method HandleStatus(status: int, retryAfter: Option<string>) returns (raised: bool)
      modifies this`gateOpen
      ensures raised <==> HandleStatusResponse(status, retryAfter).Raise?
      ensures gateOpen == (old(gateOpen) || status == 429)
    {
      match HandleStatusResponse(status, retryAfter)
      case Raise =>
        raised := true;
      case Throttle(_) =>
        gateOpen := false;
        gateOpen := true;
        raised := false;
      case LogOnly =>
        raised := false;
    }

    /** One turn of `get_edr_details`: the loop over the item's registry ids as written.
        The `Data` it puts share the item's list; they are shown with the list as it is
        when the loop ends. An exception ends the job after the extracts and retries of
        the ids before it. */
    method GetEdrDetails(details: Json -> DetailsResponse) returns (outcome: StepOutcome)
      requires Valid()
      modifies this`edrIdsQueue, this`uploadToDocServiceQueue, this`retryEdrIdsQueue
      ensures Valid()
      ensures edrpouCodesQueue == old(edrpouCodesQueue) && retryEdrpouCodesQueue == old(retryEdrpouCodesQueue)
      ensures gateOpen == old(gateOpen)
      ensures old(edrIdsQueue) == [] ==>
        && outcome == Idle && edrIdsQueue == []
        && uploadToDocServiceQueue == old(uploadToDocServiceQueue) && retryEdrIdsQueue == old(retryEdrIdsQueue)
      ensures old(edrIdsQueue) != [] ==>
        var d := old(edrIdsQueue)[0];
        var w := DetailsWalk(d.edrIds.elems, 0, details);
        && outcome == (if w.crashed then Crashed else Continued)
        && edrIdsQueue == old(edrIdsQueue)[1..]
        && uploadToDocServiceQueue == old(uploadToDocServiceQueue) + Uploads(d, w.finalIds, w.contents)
        && retryEdrIdsQueue == old(retryEdrIdsQueue) + Repeat(d.(edrIds := JArr(w.finalIds)), w.retries)
    {
      if edrIdsQueue == [] {
        return Idle;
      }
      var d := edrIdsQueue[0];
      TailCarriesLists(edrIdsQueue);
      edrIdsQueue := edrIdsQueue[1..];
      var ids, contents, retries, crashed := LookUpAll(d.edrIds.elems, details);
      uploadToDocServiceQueue := uploadToDocServiceQueue + Uploads(d, ids, contents);
      retryEdrIdsQueue := retryEdrIdsQueue + Repeat(d.(edrIds := JArr(ids)), retries);
      return if crashed then Crashed else Continued;
    }
  }

  /** The loop of `get_edr_details` over one item's list: it looks ids up at
      successive positions while removing every found id from the list it walks, and
      stops at an exception. */
  method LookUpAll(edrIds: seq<Json>, details: Json -> DetailsResponse)
    returns (ids: seq<Json>, contents: seq<Json>, retries: nat, crashed: bool)
    ensures var w := DetailsWalk(edrIds, 0, details);
      ids == w.finalIds && contents == w.contents && retries == w.retries && crashed == w.crashed
  {
    ids := edrIds;
    ghost var whole := DetailsWalk(ids, 0, details);
    var i := 0;
    contents, retries, crashed := [], 0, false;
    while i < |ids| && !crashed
      invariant !crashed ==> var w := DetailsWalk(ids, i, details);
        && whole.finalIds == w.finalIds && whole.contents == contents + w.contents
        && whole.retries == retries + w.retries && whole.crashed == w.crashed
      invariant crashed ==>
        whole.finalIds == ids && whole.contents == contents && whole.retries == retries && whole.crashed
      decreases |ids| - i, !crashed
    {
      var next, content, failed, raised := LookUpOne(ids, i, details);
      if raised {
        assert whole.contents == contents + [];
        crashed := true;
      } else {
        ghost var after := DetailsWalk(next, i + 1, details);
        contents := contents + content;
        assert whole.contents == contents + after.contents;
        retries := retries + (if failed then 1 else 0);
        ids := next;
        i := i + 1;
      }
    }
  }

  /** One pass of that loop: the extract made for the id at position `i`, if found,
      whether it failed, and whether it raised; a found id is removed from the list. */
  method LookUpOne(ids: seq<Json>, i: nat, details: Json -> DetailsResponse)
    returns (next: seq<Json>, content: seq<Json>, failed: bool, raised: bool)
    requires i < |ids|
    ensures |next| <= |ids|
    ensures raised <==> LookupOf(details(ids[i])).Raised?
    ensures var w := DetailsWalk(ids, i, details);
      raised ==> w.finalIds == ids && w.contents == [] && w.retries == 0 && w.crashed
    ensures var w, rest := DetailsWalk(ids, i, details), DetailsWalk(next, i + 1, details);
      !raised ==>
      && w.finalIds == rest.finalIds
      && w.contents == content + rest.contents
      && w.retries == rest.retries + (if failed then 1 else 0)
      && w.crashed == rest.crashed
  {
    var id := ids[i];
    match LookupOf(details(id)) {
      case Record(record) =>
        var payload := PrepareData(record);
        WalkFound(ids, i, details, record);
        next, content, failed, raised := RemoveFirst(ids, id), [payload], false, false;
      case Rejected =>
        WalkFailed(ids, i, details);
        next, content, failed, raised := ids, [], true, false;
      case Raised =>
        next, content, failed, raised := ids, [], false, true;
    }
  }

  lemma WalkFound(ids: seq<Json>, i: nat, details: Json -> DetailsResponse, record: SubjectDetails)
    requires i < |ids| && LookupOf(details(ids[i])) == Record(record)
    ensures var rest := DetailsWalk(RemoveFirst(ids, ids[i]), i + 1, details);
      var w := DetailsWalk(ids, i, details);
      && w.finalIds == rest.finalIds && w.retries == rest.retries && w.crashed == rest.crashed
      && w.contents == [Payload(record)] + rest.contents
  {
  }

  lemma WalkFailed(ids: seq<Json>, i: nat, details: Json -> DetailsResponse)
    requires i < |ids| && LookupOf(details(ids[i])).Rejected?
    ensures var rest := DetailsWalk(ids, i + 1, details);
      var w := DetailsWalk(ids, i, details);
      && w.finalIds == rest.finalIds && w.retries == rest.retries + 1 && w.contents == rest.contents
      && w.crashed == rest.crashed
  {
  }

  /** The loop of `get_edr_details` as intended: it walks a snapshot of the item's
      list, so every id is looked up once, in order, until one raises; the list keeps
      exactly the ids whose lookup failed (and, after an exception, the ids not reached),
      and the item goes to the retry queue once per failed id. */
  method LookUpSnapshot(edrIds: seq<Json>, details: Json -> DetailsResponse)
    returns (ids: seq<Json>, contents: seq<Json>, retries: nat, crashed: bool)
    ensures ids == FailingIds(edrIds, details) + Unreached(edrIds, details)
    ensures contents == FoundPayloads(edrIds, details)
    ensures retries == |FailingIds(edrIds, details)|
    ensures crashed <==> Unreached(edrIds, details) != []
  {
    ids, contents, retries := edrIds, [], 0;
    ghost var kept: seq<Json> := [];
    SnapshotStart(edrIds, details);
    for k := 0 to |edrIds|
      invariant SnapshotInv(edrIds, details, k, kept, ids, contents, retries)
    {
      var raised;
      kept, ids, contents, retries, raised := SnapshotStep(edrIds, details, k, kept, ids, contents, retries);
      if raised {
        return ids, contents, retries, true;
      }
    }
    SnapshotDone(edrIds, details, kept, ids, contents, retries);
    crashed := false;
  }

  /** One pass of the intended loop: looks up the id at position `k` of the snapshot.
      When it raises, nothing changes and the loop's results are final. */
  method SnapshotStep(edrIds: seq<Json>, details: Json -> DetailsResponse, k: nat,
                      ghost kept: seq<Json>, ids: seq<Json>, contents: seq<Json>, retries: nat)
    returns (ghost kept': seq<Json>, ids': seq<Json>, contents': seq<Json>, retries': nat, raised: bool)
    requires k < |edrIds| && SnapshotInv(edrIds, details, k, kept, ids, contents, retries)
    ensures raised <==> LookupOf(details(edrIds[k])).Raised?
    ensures !raised ==> SnapshotInv(edrIds, details, k + 1, kept', ids', contents', retries')
    ensures raised ==>
      && ids' == FailingIds(edrIds, details) + Unreached(edrIds, details)
      && contents' == FoundPayloads(edrIds, details)
      && retries' == |FailingIds(edrIds, details)| && Unreached(edrIds, details) != []
  {
    var id := edrIds[k];
    match LookupOf(details(id)) {
      case Record(record) =>
        var payload := PrepareData(record);
        SnapshotFound(edrIds, details, k, kept, ids, contents, retries, record);
        kept', ids', contents', retries', raised := kept, RemoveFirst(ids, id), contents + [payload], retries, false;
      case Rejected =>
        SnapshotFailed(edrIds, details, k, kept, ids, contents, retries);
        kept', ids', contents', retries', raised := kept + [id], ids, contents, retries + 1, false;
      case Raised =>
        SnapshotRaised(edrIds, details, k, kept, ids, contents, retries);
        kept', ids', contents', retries', raised := kept, ids, contents, retries, true;
    }
  }

  /** What the intended loop has done after looking up the first `k` ids without an
      exception: `kept` are the failed ones, still at the front of the list. */
  ghost predicate SnapshotInv(edrIds: seq<Json>, details: Json -> DetailsResponse, k: nat,
                              kept: seq<Json>, ids: seq<Json>, contents: seq<Json>, retries: nat)
  {
    && k <= |edrIds|
    && ids == kept + edrIds[k..]
    && (forall x :: x in kept ==> LookupOf(details(x)).Rejected?)
    && FailingIds(edrIds, details) == kept + FailingIds(edrIds[k..], details)
    && FoundPayloads(edrIds, details) == contents + FoundPayloads(edrIds[k..], details)
    && Unreached(edrIds, details) == Unreached(edrIds[k..], details)
    && retries == |kept|
  }

  /** A found id is removed from the list and adds its extract. */
  lemma SnapshotFound(edrIds: seq<Json>, details: Json -> DetailsResponse, k: nat,
                      kept: seq<Json>, ids: seq<Json>, contents: seq<Json>, retries: nat, record: SubjectDetails)
    requires SnapshotInv(edrIds, details, k, kept, ids, contents, retries)
    requires k < |edrIds| && LookupOf(details(edrIds[k])) == Record(record)
    ensures edrIds[k] in ids
    ensures SnapshotInv(edrIds, details, k + 1, kept, RemoveFirst(ids, edrIds[k]), contents + [Payload(record)], retries)
  {
    var rest := edrIds[k..];
    assert rest[1..] == edrIds[k + 1..];
    RemoveAfterKept(kept, rest);
    assert FailingIds(rest, details) == FailingIds(rest[1..], details);
    assert Unreached(rest, details) == Unreached(rest[1..], details);
    assert FoundPayloads(rest, details) == [Payload(record)] + FoundPayloads(rest[1..], details);
    assert contents + FoundPayloads(rest, details) == (contents + [Payload(record)]) + FoundPayloads(rest[1..], details);
  }

  /** A failed id stays in the list, behind the failed ones before it. */
  lemma SnapshotFailed(edrIds: seq<Json>, details: Json -> DetailsResponse, k: nat,
                       kept: seq<Json>, ids: seq<Json>, contents: seq<Json>, retries: nat)
    requires SnapshotInv(edrIds, details, k, kept, ids, contents, retries)
    requires k < |edrIds| && LookupOf(details(edrIds[k])).Rejected?
    ensures SnapshotInv(edrIds, details, k + 1, kept + [edrIds[k]], ids, contents, retries + 1)
  {
    var rest := edrIds[k..];
    assert rest[1..] == edrIds[k + 1..];
    assert ids == (kept + [edrIds[k]]) + rest[1..];
    assert FailingIds(rest, details) == [edrIds[k]] + FailingIds(rest[1..], details);
    assert kept + FailingIds(rest, details) == (kept + [edrIds[k]]) + FailingIds(rest[1..], details);
    assert Unreached(rest, details) == Unreached(rest[1..], details);
    assert FoundPayloads(rest, details) == FoundPayloads(rest[1..], details);
  }

  /** An exception leaves the failed ids at the front of the list and the ids from the
      raising one on behind them. */
  lemma SnapshotRaised(edrIds: seq<Json>, details: Json -> DetailsResponse, k: nat,
                       kept: seq<Json>, ids: seq<Json>, contents: seq<Json>, retries: nat)
    requires SnapshotInv(edrIds, details, k, kept, ids, contents, retries)
    requires k < |edrIds| && LookupOf(details(edrIds[k])).Raised?
    ensures ids == FailingIds(edrIds, details) + Unreached(edrIds, details)
    ensures contents == FoundPayloads(edrIds, details)
    ensures retries == |FailingIds(edrIds, details)| && Unreached(edrIds, details) != []
  {
    var rest := edrIds[k..];
    assert FailingIds(rest, details) == [] && FoundPayloads(rest, details) == [];
    assert Unreached(rest, details) == rest;
    assert kept + [] == kept && contents + [] == contents;
  }

  lemma SnapshotStart(edrIds: seq<Json>, details: Json -> DetailsResponse)
    ensures SnapshotInv(edrIds, details, 0, [], edrIds, [], 0)
  {
    assert edrIds[0..] == edrIds;
  }

  lemma SnapshotDone(edrIds: seq<Json>, details: Json -> DetailsResponse,
                     kept: seq<Json>, ids: seq<Json>, contents: seq<Json>, retries: nat)
    requires SnapshotInv(edrIds, details, |edrIds|, kept, ids, contents, retries)
    ensures ids == FailingIds(edrIds, details) + Unreached(edrIds, details)
    ensures contents == FoundPayloads(edrIds, details)
    ensures retries == |FailingIds(edrIds, details)| && Unreached(edrIds, details) == []
  {
    assert edrIds[|edrIds|..] == [];
    assert kept + [] == kept && contents + [] == contents;
  }

  /** An id that fails, then one whose record cannot be read: the item goes to the
      retry queue once, then the exception ends the job with both ids still listed. */
  lemma DetailsCrashAfterRetry(a: Json, b: Json, details: Json -> DetailsResponse)
    requires a != b && LookupOf(details(a)).Rejected? && LookupOf(details(b)).Raised?
    ensures DetailsWalk([a, b], 0, details) == Walk([a, b], [], 1, [a, b], true)
  {
  }

  lemma TailCarriesLists(queue: seq<Data>)
    requires queue != [] && forall d :: d in queue ==> d.edrIds.JArr?
    ensures queue[0].edrIds.JArr? && forall d :: d in queue[1..] ==> d.edrIds.JArr?
  {
    assert queue[0] in queue;
    forall d | d in queue[1..] ensures d.edrIds.JArr? {
      var k :| 0 <= k < |queue[1..]| && queue[1..][k] == d;
      assert queue[k + 1] == d;
    }
  }

  /** An empty id list (a 200 with no entries) makes no extract and no retry: the item
      leaves the pipeline without a document. */
  lemma EmptyIdsMakeNothing(details: Json -> DetailsResponse)
    ensures DetailsWalk([], 0, details) == Walk([], [], 0, [], false)
    ensures SnapshotWalk([], [], details) == Walk([], [], 0, [], false)
  {
  }

  /** The not-found body of the registry proxy routes the item to the upload queue. */
  lemma NotFoundExample()
    ensures var desc := JArr([JObj(map["message" := JStr(NotFoundMessage)])]);
      var body := JObj(map["errors" := JArr([JObj(map["description" := desc])])]);
      RouteVerify(Response(403, body, None)) == NotFound
  {
  }

  /** A 200 with an empty list is still a success: the item goes to the ids queue with
      no ids. The same empty answer on the retry path is also falsy, so there it sends
      an error extract as well. */
  lemma EmptyListFound(retryAfter: Option<string>)
    ensures RouteVerify(Response(200, JArr([]), retryAfter)) == Found([])
    ensures !Truthy(JArr([])) && IdsOf(JArr([])) == Some([])
  {
  }

  /** Only a 403 with that exact description is a not-found; a 403 with any other first
      description is retried. */
  lemma NotFoundOnlyThatMessage(body: Json, retryAfter: Option<string>)
    requires NotFoundTest(body) == Some(false)
    ensures RouteVerify(Response(403, body, retryAfter)) == Retry
  {
  }
}

=== FILE: filter_tender.dfy ===
/** databridge/filter_tender.py: the admission control of the filter worker. For each
    tender id taken from `filtered_tender_ids_queue` it fetches the tender and, for every
    pending award (or, without awards, every pending qualification) that has no
    `registerExtract` document and a `UA-EDR` identifier, claims the item in
    `processing_items` and puts a `Data` on `edrpou_codes_queue`. */
module FilterTender {
  import opened Common

  const IdentificationScheme := "UA-EDR"
  const RegisterExtract := "registerExtract"

  datatype Identifier = Identifier(scheme: string, id: string)

  /** A document attached to an award or a qualification; `documentType` may be absent. */
  datatype Document = Document(documentType: Option<string>)

  /** An award; a missing `documents` key is the empty list. */
  datatype Award = Award(id: string, status: string, documents: seq<Document>, suppliers: seq<Identifier>)

  datatype Qualification = Qualification(id: string, status: string, documents: seq<Document>, bidID: string)

  /** A bid with the identifiers of its tenderers. */
  datatype Bid = Bid(id: string, tenderers: seq<Identifier>)

  /** The fields of a tender the filter looks at; `None` is a missing key. */
  datatype Tender = Tender(
    id: string,
    awards: Option<seq<Award>>,
    bids: Option<seq<Bid>>,
    qualifications: Option<seq<Qualification>>)

  /** The result of `get_tender`: the tender, or any exception. */
  datatype Fetch = Got(tender: Tender) | FetchFailed

  /** The claims and the output queue as the filter updates them. */
  datatype Pass = Pass(processing: map<string, string>, emitted: seq<Data>)

  /** The outcome of filtering one tender; `crashed` is an exception (a missing
      `qualifications` key, no bid for a `bidID`, a bid without tenderers) that ends the
      worker's job after the claims and emissions made so far. */
  datatype Outcome = Outcome(pass: Pass, crashed: bool)

  predicate HasRegisterExtract(documents: seq<Document>)
  {
    exists k :: 0 <= k < |documents| && documents[k].documentType == Some(RegisterExtract)
  }

  /** The status and document test shared by awards and qualifications. */
  predicate Awaiting(status: string, documents: seq<Document>)
  {
    status == "pending" && !HasRegisterExtract(documents)
  }

  /** The negation of `check_processing_item`: the item is held for this tender by a
      truthy (non-empty) tender id. */
  predicate Claimed(processing: map<string, string>, itemId: string, tenderId: string)
  {
    itemId in processing && processing[itemId] != "" && processing[itemId] == tenderId
  }

  /** The body of the supplier (or tenderer) test: claim and emit when the identifier is
      `UA-EDR` and the item is not held for this tender. At most one `Data` is appended,
      and afterwards a `UA-EDR` item is held for a truthy tender id (`AdmitGrows` says
      that no other claim changes). */
  function Admit(st: Pass, tenderId: string, itemId: string, identifier: Identifier, itemName: string): (r: Pass)
    ensures |st.emitted| <= |r.emitted| <= |st.emitted| + 1 && r.emitted[..|st.emitted|] == st.emitted
    ensures |r.emitted| > |st.emitted| <==> identifier.scheme == IdentificationScheme && !Claimed(st.processing, itemId, tenderId)
    ensures tenderId != "" && identifier.scheme == IdentificationScheme ==> Claimed(r.processing, itemId, tenderId)
  {
    if identifier.scheme == IdentificationScheme && !Claimed(st.processing, itemId, tenderId) then
      Pass(st.processing[itemId := tenderId],
           st.emitted + [Data(tenderId, itemId, identifier.id, itemName, JNull, JNull)])
    else st
  }

  /** The loop over one award's suppliers. */
  function SuppliersPass(st: Pass, tenderId: string, itemId: string, suppliers: seq<Identifier>): (r: Pass)
    ensures |st.emitted| <= |r.emitted| && r.emitted[..|st.emitted|] == st.emitted
    decreases |suppliers|
  {
    if suppliers == [] then st
    else SuppliersPass(Admit(st, tenderId, itemId, suppliers[0], AwardsName), tenderId, itemId, suppliers[1..])
  }

  function AwardStep(st: Pass, tenderId: string, award: Award): (r: Pass)
    ensures |st.emitted| <= |r.emitted| && r.emitted[..|st.emitted|] == st.emitted
  {
    if Awaiting(award.status, award.documents) then SuppliersPass(st, tenderId, award.id, award.suppliers)
    else st
  }

  /** The loop over the awards of a tender: it only appends to the queue, and an empty
      list of awards changes nothing. */
  function AwardsPass(st: Pass, tenderId: string, awards: seq<Award>): (r: Pass)
    ensures |st.emitted| <= |r.emitted| && r.emitted[..|st.emitted|] == st.emitted
    ensures awards == [] ==> r == st
    decreases |awards|
  {
    if awards == [] then st
    else AwardsPass(AwardStep(st, tenderId, awards[0]), tenderId, awards[1..])
  }

  /** `[b for b in bids if b['id'] == bid_id][0]`, or `None` for the IndexError. */
  function BidFor(bids: seq<Bid>, bidID: string): (r: Option<Bid>)
    ensures r.Some? ==> r.value in bids && r.value.id == bidID
  {
    if bids == [] then None
    else if bids[0].id == bidID then Some(bids[0])
    else BidFor(bids[1..], bidID)
  }

  /** The lookup fails iff no bid has the id, and finds the first bid that has it. */
  lemma {:induction false} BidForFirst(bids: seq<Bid>, bidID: string)
    ensures BidFor(bids, bidID).None? <==> forall b :: b in bids ==> b.id != bidID
    ensures BidFor(bids, bidID).Some? ==>
      exists i :: 0 <= i < |bids| && bids[i] == BidFor(bids, bidID).value
        && forall j :: 0 <= j < i ==> bids[j].id != bidID
  {
    if bids != [] && bids[0].id != bidID {
      BidForFirst(bids[1..], bidID);
      if BidFor(bids, bidID).Some? {
        var i :| 0 <= i < |bids[1..]| && bids[1..][i] == BidFor(bids, bidID).value
          && forall j :: 0 <= j < i ==> bids[1..][j].id != bidID;
        assert bids[i + 1] == bids[1..][i];
        forall j | 0 <= j < i + 1 ensures bids[j].id != bidID {
          if j > 0 {
            assert bids[j] == bids[1..][j - 1];
          }
        }
      }
      forall b | b in bids && b != bids[0] ensures b in bids[1..] {
        var k :| 0 <= k < |bids| && bids[k] == b;
        assert bids[1..][k - 1] == b;
      }
    }
  }

  /** One qualification; `None` is an IndexError (no bid, or a bid without tenderers). */
  function QualificationStep(st: Pass, tenderId: string, bids: seq<Bid>, q: Qualification): Option<Pass>
  {
    if !Awaiting(q.status, q.documents) then Some(st)
    else
      match BidFor(bids, q.bidID)
      case None => None
      case Some(bid) =>
        if bid.tenderers == [] then None
        else Some(Admit(st, tenderId, q.id, bid.tenderers[0], QualificationsName))
  }

  /** The loop over the qualifications of a tender: it only appends to the queue, and a
      crash happens only at a pending qualification that cannot be looked up. */
  function QualificationsPass(st: Pass, tenderId: string, bids: seq<Bid>, qs: seq<Qualification>): (o: Outcome)
    ensures |st.emitted| <= |o.pass.emitted| && o.pass.emitted[..|st.emitted|] == st.emitted
    ensures o.crashed ==> exists q :: q in qs && Unmatched(bids, q)
    decreases |qs|
  {
    if qs == [] then Outcome(st, false)
    else
      match QualificationStep(st, tenderId, bids, qs[0])
      case None =>
        assert qs[0] in qs && Unmatched(bids, qs[0]);
        Outcome(st, true)
      case Some(st') =>
        assert forall q :: q in qs[1..] ==> q in qs;
        QualificationsPass(st', tenderId, bids, qs[1..])
  }

  /** The `else` branch of `prepare_data` for one fetched tender: awards take precedence
      over bids; bids without a `qualifications` key raise at once. It only appends to
      the queue; it can crash only for a tender with bids and without awards; a tender
      with neither changes nothing. */
  function FilterOne(st: Pass, tender: Tender): (o: Outcome)
    ensures |st.emitted| <= |o.pass.emitted| && o.pass.emitted[..|st.emitted|] == st.emitted
    ensures o.crashed ==> tender.awards.None? && tender.bids.Some?
    ensures tender.awards.None? && tender.bids.None? ==> o == Outcome(st, false)
  {
    if tender.awards.Some? then Outcome(AwardsPass(st, tender.id, tender.awards.value), false)
    else if tender.bids.Some? then
      if tender.qualifications.None? then Outcome(st, true)
      else QualificationsPass(st, tender.id, tender.bids.value, tender.qualifications.value)
    else Outcome(st, false)
  }

  /** The codes of the `UA-EDR` identifiers, in order. */
  function UaEdrCodes(ids: seq<Identifier>): seq<string>
  {
    if ids == [] then []
    else (if ids[0].scheme == IdentificationScheme then [ids[0].id] else []) + UaEdrCodes(ids[1..])
  }

  /** The `Data` the filter builds for an item from a list of codes. */
  function ItemData(tenderId: string, itemId: string, codes: seq<string>, itemName: string): seq<Data>
  {
    if codes == [] then [] else [Data(tenderId, itemId, codes[0], itemName, JNull, JNull)] + ItemData(tenderId, itemId, codes[1..], itemName)
  }

  /** An award the filter admits: pending, without an extract, with a `UA-EDR` supplier. */
  predicate Qualifies(a: Award)
  {
    Awaiting(a.status, a.documents) && UaEdrCodes(a.suppliers) != []
  }

  /** What the supplier loop of an item adds to the queue, stated without the loop:
      nothing when the item is held; else one `Data` for its first `UA-EDR` code, or,
      under an empty tender id (which no claim can match), one per `UA-EDR` code. */
  function ItemEmission(processing: map<string, string>, tenderId: string, itemId: string,
                        codes: seq<string>): seq<Data>
  {
    if codes == [] then []
    else if tenderId == "" then ItemData(tenderId, itemId, codes, AwardsName)
    else if Claimed(processing, itemId, tenderId) then []
    else ItemData(tenderId, itemId, codes[..1], AwardsName)
  }

  /** What one award adds to the queue. */
  function AwardEmission(processing: map<string, string>, tenderId: string, a: Award): seq<Data>
  {
    if !Awaiting(a.status, a.documents) then []
    else ItemEmission(processing, tenderId, a.id, UaEdrCodes(a.suppliers))
  }

  /** The ids of the items of some `Data`. */
  function ItemIds(ds: seq<Data>): set<string>
  {
    set d | d in ds :: d.itemId
  }

  /** `after` extends `before` by claims for this tender: the queue only grows, the keys
      grow by the ids of the new `Data`, which are all held for `tenderId`, and no other
      entry changes. */
  ghost predicate Grows(before: Pass, after: Pass, tenderId: string)
  {
    && |before.emitted| <= |after.emitted|
    && after.emitted[..|before.emitted|] == before.emitted
    && after.processing.Keys == before.processing.Keys + ItemIds(after.emitted[|before.emitted|..])
    && (forall d :: d in after.emitted[|before.emitted|..] ==> after.processing[d.itemId] == tenderId)
    && (forall k :: k in after.processing && after.processing[k] != tenderId ==>
          k in before.processing && after.processing[k] == before.processing[k])
  }

  /** The `UA-EDR` codes are exactly the ids of the `UA-EDR` identifiers. */
  lemma {:induction false} UaEdrCodesFilters(ids: seq<Identifier>)
    ensures forall c :: c in UaEdrCodes(ids) <==>
      exists i :: 0 <= i < |ids| && ids[i].scheme == IdentificationScheme && ids[i].id == c
  {
    if ids != [] {
      UaEdrCodesFilters(ids[1..]);
      forall c | c in UaEdrCodes(ids)
        ensures exists i :: 0 <= i < |ids| && ids[i].scheme == IdentificationScheme && ids[i].id == c
      {
        if !(ids[0].scheme == IdentificationScheme && ids[0].id == c) {
          assert c in UaEdrCodes(ids[1..]);
          var i :| 0 <= i < |ids[1..]| && ids[1..][i].scheme == IdentificationScheme && ids[1..][i].id == c;
          assert ids[i + 1] == ids[1..][i];
        }
      }
      forall c | exists i :: 0 <= i < |ids| && ids[i].scheme == IdentificationScheme && ids[i].id == c
        ensures c in UaEdrCodes(ids)
      {
        var i :| 0 <= i < |ids| && ids[i].scheme == IdentificationScheme && ids[i].id == c;
        if i > 0 {
          assert ids[1..][i - 1] == ids[i];
        }
      }
    }
  }

  lemma ItemDataMembers(tenderId: string, itemId: string, codes: seq<string>, itemName: string)
    ensures |ItemData(tenderId, itemId, codes, itemName)| == |codes|
    ensures forall d :: d in ItemData(tenderId, itemId, codes, itemName) ==>
      d == Data(tenderId, itemId, d.code, itemName, JNull, JNull) && d.code in codes
  {
  }

  /** The supplier loop, stated without the loop: the item ends up held for the tender
      when it has a `UA-EDR` supplier, and the queue gains `ItemEmission`. */
  ghost predicate SuppliersExact(st: Pass, tenderId: string, itemId: string, suppliers: seq<Identifier>)
  {
    var codes := UaEdrCodes(suppliers);
    SuppliersPass(st, tenderId, itemId, suppliers)
      == Pass(if codes == [] then st.processing else st.processing[itemId := tenderId],
              st.emitted + ItemEmission(st.processing, tenderId, itemId, codes))
  }

  lemma {:induction false} SuppliersPassExact(st: Pass, tenderId: string, itemId: string, suppliers: seq<Identifier>)
    ensures SuppliersExact(st, tenderId, itemId, suppliers)
    decreases |suppliers|
  {
    if suppliers == [] {
      assert st.emitted + [] == st.emitted;
    } else {
      var s0 := suppliers[0];
      var st1 := Admit(st, tenderId, itemId, s0, AwardsName);
      SuppliersPassExact(st1, tenderId, itemId, suppliers[1..]);
      if s0.scheme != IdentificationScheme {
        assert UaEdrCodes(suppliers) == UaEdrCodes(suppliers[1..]);
      } else if Claimed(st.processing, itemId, tenderId) {
        SuppliersHeldStep(st, tenderId, itemId, suppliers);
      } else {
        SuppliersAdmittedStep(st, tenderId, itemId, suppliers);
      }
    }
  }

  /** A `UA-EDR` supplier of an item already held for the tender: nothing happens. */
  lemma SuppliersHeldStep(st: Pass, tenderId: string, itemId: string, suppliers: seq<Identifier>)
    requires suppliers != [] && suppliers[0].scheme == IdentificationScheme
    requires Claimed(st.processing, itemId, tenderId)
    ensures SuppliersExact(st, tenderId, itemId, suppliers)
  {
    var codes := UaEdrCodes(suppliers);
    assert codes == [suppliers[0].id] + UaEdrCodes(suppliers[1..]);
    assert st.processing[itemId := tenderId] == st.processing;
    assert Admit(st, tenderId, itemId, suppliers[0], AwardsName) == st;
    SuppliersPassUnchanged(st, tenderId, itemId, suppliers[1..]);
    assert st.emitted + [] == st.emitted;
  }

  /** A `UA-EDR` supplier of an item not held for the tender: the item is claimed and one
      `Data` added; later suppliers add more only under an empty tender id. */
  lemma SuppliersAdmittedStep(st: Pass, tenderId: string, itemId: string, suppliers: seq<Identifier>)
    requires suppliers != [] && suppliers[0].scheme == IdentificationScheme
    requires !Claimed(st.processing, itemId, tenderId)
    requires SuppliersExact(Admit(st, tenderId, itemId, suppliers[0], AwardsName), tenderId, itemId, suppliers[1..])
    ensures SuppliersExact(st, tenderId, itemId, suppliers)
  {
    var s0 := suppliers[0];
    var st1 := Admit(st, tenderId, itemId, s0, AwardsName);
    var codes := UaEdrCodes(suppliers);
    var rest := UaEdrCodes(suppliers[1..]);
    assert codes == [s0.id] + rest;
    var d := Data(tenderId, itemId, s0.id, AwardsName, JNull, JNull);
    assert st1 == Pass(st.processing[itemId := tenderId], st.emitted + [d]);
    assert st1.processing[itemId := tenderId] == st1.processing;
    if tenderId == "" {
      assert !Claimed(st1.processing, itemId, tenderId);
      assert ItemData(tenderId, itemId, codes, AwardsName) == [d] + ItemData(tenderId, itemId, rest, AwardsName);
    } else {
      assert Claimed(st1.processing, itemId, tenderId);
      assert ItemData(tenderId, itemId, codes[..1], AwardsName) == [d];
      SuppliersPassUnchanged(st1, tenderId, itemId, suppliers[1..]);
    }
  }

  /** The supplier loop of an item held under a non-empty tender id changes nothing. */
  lemma {:induction false} SuppliersPassUnchanged(st: Pass, tenderId: string, itemId: string, suppliers: seq<Identifier>)
    requires Claimed(st.processing, itemId, tenderId)
    ensures SuppliersPass(st, tenderId, itemId, suppliers) == st
    decreases |suppliers|
  {
    if suppliers != [] {
      SuppliersPassUnchanged(st, tenderId, itemId, suppliers[1..]);
    }
  }

  /** One award step, stated without the loop. */
  lemma AwardStepExact(st: Pass, tenderId: string, a: Award)
    ensures var r := AwardStep(st, tenderId, a);
      && r.processing == (if Qualifies(a) then st.processing[a.id := tenderId] else st.processing)
      && r.emitted == st.emitted + AwardEmission(st.processing, tenderId, a)
  {
    if Awaiting(a.status, a.documents) {
      SuppliersPassExact(st, tenderId, a.id, a.suppliers);
    } else {
      assert st.emitted + [] == st.emitted;
    }
  }

  /** An award adds a `Data` iff it is pending, has no extract, has a `UA-EDR` supplier
      and is not already held for this tender; under a non-empty tender id it adds at
      most one, whatever the number of its `UA-EDR` suppliers. */
  lemma AwardAdmission(st: Pass, tenderId: string, a: Award)
    ensures var added := AwardEmission(st.processing, tenderId, a);
      && (added != [] <==> Qualifies(a) && !Claimed(st.processing, a.id, tenderId))
      && (tenderId != "" ==> |added| <= 1)
      && (forall d :: d in added ==>
            && d.tenderId == tenderId && d.itemId == a.id && d.itemName == AwardsName
            && d.edrIds == JNull && d.fileContent == JNull
            && exists i :: 0 <= i < |a.suppliers| && a.suppliers[i].scheme == IdentificationScheme
                 && a.suppliers[i].id == d.code)
  {
    var codes := UaEdrCodes(a.suppliers);
    UaEdrCodesFilters(a.suppliers);
    ItemDataMembers(tenderId, a.id, codes, AwardsName);
    if codes != [] {
      ItemDataMembers(tenderId, a.id, codes[..1], AwardsName);
      assert forall c :: c in codes[..1] ==> c in codes;
    }
  }

  lemma GrowsTrans(a: Pass, b: Pass, c: Pass, tenderId: string)
    requires Grows(a, b, tenderId) && Grows(b, c, tenderId)
    ensures Grows(a, c, tenderId)
  {
    GrowsTransQueue(a, b, c, tenderId);
    forall d | d in c.emitted[|a.emitted|..]
      ensures c.processing[d.itemId] == tenderId
    {
      GrowsTransClaim(a, b, c, tenderId, d);
    }
  }

  lemma GrowsTransQueue(a: Pass, b: Pass, c: Pass, tenderId: string)
    requires Grows(a, b, tenderId) && Grows(b, c, tenderId)
    ensures |a.emitted| <= |c.emitted| && c.emitted[..|a.emitted|] == a.emitted
    ensures c.processing.Keys == a.processing.Keys + ItemIds(c.emitted[|a.emitted|..])
  {
    var n, m := |a.emitted|, |b.emitted|;
    assert c.emitted[..n] == c.emitted[..m][..n];
    assert c.emitted[n..] == b.emitted[n..] + c.emitted[m..];
    ItemIdsConcat(b.emitted[n..], c.emitted[m..]);
  }

  lemma ItemIdsConcat(x: seq<Data>, y: seq<Data>)
    ensures ItemIds(x + y) == ItemIds(x) + ItemIds(y)
  {
  }

  lemma GrowsTransClaim(a: Pass, b: Pass, c: Pass, tenderId: string, d: Data)
    requires Grows(a, b, tenderId) && Grows(b, c, tenderId)
    requires d in c.emitted[|a.emitted|..]
    ensures d.itemId in c.processing && c.processing[d.itemId] == tenderId
  {
    var n, m := |a.emitted|, |b.emitted|;
    assert c.emitted[n..] == b.emitted[n..] + c.emitted[m..];
    if d !in c.emitted[m..] {
      assert d in b.emitted[n..];
      assert d.itemId in b.processing;
    }
  }

  lemma AwardStepGrows(st: Pass, tenderId: string, a: Award)
    ensures Grows(st, AwardStep(st, tenderId, a), tenderId)
  {
    AwardStepExact(st, tenderId, a);
    AwardAdmission(st, tenderId, a);
    var r := AwardStep(st, tenderId, a);
    var added := AwardEmission(st.processing, tenderId, a);
    assert r.emitted[..|st.emitted|] == st.emitted;
    assert r.emitted[|st.emitted|..] == added;
    if Qualifies(a) && added == [] {
      assert a.id in st.processing;
    }
    if added != [] {
      assert added[0] in added;
    }
  }

  /** After the awards loop the queue has only grown, and its new `Data` are exactly the
      newly held items (the keys after are the keys before plus their ids). */
  lemma {:induction false} AwardsPassGrows(st: Pass, tenderId: string, awards: seq<Award>)
    ensures Grows(st, AwardsPass(st, tenderId, awards), tenderId)
    decreases |awards|
  {
    if awards == [] {
      assert st.emitted[..|st.emitted|] == st.emitted;
      assert st.emitted[|st.emitted|..] == [];
    } else {
      var st1 := AwardStep(st, tenderId, awards[0]);
      AwardStepGrows(st, tenderId, awards[0]);
      AwardsPassGrows(st1, tenderId, awards[1..]);
      GrowsTrans(st, st1, AwardsPass(st1, tenderId, awards[1..]), tenderId);
    }
  }

  /** A claim held for this tender is never released or changed by the awards loop. */
  lemma {:induction false} AwardsPassKeepsClaims(st: Pass, tenderId: string, awards: seq<Award>, k: string)
    requires k in st.processing && st.processing[k] == tenderId
    ensures var r := AwardsPass(st, tenderId, awards);
      k in r.processing && r.processing[k] == tenderId
    decreases |awards|
  {
    if awards != [] {
      AwardStepExact(st, tenderId, awards[0]);
      AwardsPassKeepsClaims(AwardStep(st, tenderId, awards[0]), tenderId, awards[1..], k);
    }
  }

  /** Every admissible award of the tender is held for it after the loop. */
  lemma {:induction false} AwardsPassClaimsAll(st: Pass, tenderId: string, awards: seq<Award>)
    ensures var r := AwardsPass(st, tenderId, awards);
      forall a :: a in awards && Qualifies(a) ==> a.id in r.processing && r.processing[a.id] == tenderId
    decreases |awards|
  {
    if awards != [] {
      var st1 := AwardStep(st, tenderId, awards[0]);
      AwardStepExact(st, tenderId, awards[0]);
      AwardsPassClaimsAll(st1, tenderId, awards[1..]);
      if Qualifies(awards[0]) {
        AwardsPassKeepsClaims(st1, tenderId, awards[1..], awards[0].id);
      }
      forall a | a in awards && Qualifies(a)
        ensures a == awards[0] || a in awards[1..]
      {
        var i :| 0 <= i < |awards| && awards[i] == a;
        if i > 0 {
          assert awards[1..][i - 1] == a;
        }
      }
    }
  }

  /** With every admissible award already held, the awards loop changes nothing. */
  lemma {:induction false} AwardsPassHeld(st: Pass, tenderId: string, awards: seq<Award>)
    requires tenderId != ""
    requires forall a :: a in awards && Qualifies(a) ==> Claimed(st.processing, a.id, tenderId)
    ensures AwardsPass(st, tenderId, awards) == st
    decreases |awards|
  {
    if awards != [] {
      AwardStepExact(st, tenderId, awards[0]);
      if Qualifies(awards[0]) {
        assert awards[0] in awards;
        assert st.processing[awards[0].id := tenderId] == st.processing;
      }
      assert st.emitted + [] == st.emitted;
      assert AwardStep(st, tenderId, awards[0]) == st;
      forall a | a in awards[1..] ensures a in awards {
      }
      AwardsPassHeld(st, tenderId, awards[1..]);
    }
  }

  /** Filtering the same tender again while its claims are held adds nothing and changes
      nothing: the awards loop is idempotent. */
  lemma AwardsPassIdempotent(st: Pass, tenderId: string, awards: seq<Award>)
    requires tenderId != ""
    ensures var r := AwardsPass(st, tenderId, awards);
      AwardsPass(r, tenderId, awards) == r
  {
    AwardsPassClaimsAll(st, tenderId, awards);
    AwardsPassHeld(AwardsPass(st, tenderId, awards), tenderId, awards);
  }

  /** A `Data` the awards loop may add: for a pending award of the tender without an
      extract, carrying the code of one of its `UA-EDR` suppliers verbatim. */
  ghost predicate FromAward(d: Data, tenderId: string, awards: seq<Award>)
  {
    && d.tenderId == tenderId && d.itemName == AwardsName && d.edrIds == JNull && d.fileContent == JNull
    && exists a :: a in awards && Awaiting(a.status, a.documents) && a.id == d.itemId
         && exists i :: 0 <= i < |a.suppliers| && a.suppliers[i].scheme == IdentificationScheme
              && a.suppliers[i].id == d.code
  }

  lemma FromAwardWiden(d: Data, tenderId: string, awards: seq<Award>)
    requires awards != [] && FromAward(d, tenderId, awards[1..])
    ensures FromAward(d, tenderId, awards)
  {
    var a :| a in awards[1..] && Awaiting(a.status, a.documents) && a.id == d.itemId
         && exists i :: 0 <= i < |a.suppliers| && a.suppliers[i].scheme == IdentificationScheme
              && a.suppliers[i].id == d.code;
    assert a in awards;
  }

  /** Everything the awards loop adds comes from an admissible award of the tender. */
  lemma {:induction false} AwardsPassSound(st: Pass, tenderId: string, awards: seq<Award>)
    ensures var r := AwardsPass(st, tenderId, awards);
      |st.emitted| <= |r.emitted| &&
      forall d :: d in r.emitted[|st.emitted|..] ==> FromAward(d, tenderId, awards)
    decreases |awards|
  {
    var r := AwardsPass(st, tenderId, awards);
    if awards == [] {
      assert r.emitted[|st.emitted|..] == [];
    } else {
      var a0 := awards[0];
      var st1 := AwardStep(st, tenderId, a0);
      var added := AwardEmission(st.processing, tenderId, a0);
      assert |st1.emitted| <= |r.emitted| by {
      }
      var later := r.emitted[|st1.emitted|..];
      assert r.emitted[|st.emitted|..] == added + later by {
        AwardStepExact(st, tenderId, a0);
        assert r.emitted == st.emitted + added + later;
      }
      assert forall d :: d in added ==> FromAward(d, tenderId, awards) by {
        AwardAdmission(st, tenderId, a0);
        assert a0 in awards;
      }
      assert forall d :: d in later ==> FromAward(d, tenderId, awards) by {
        AwardsPassSound(st1, tenderId, awards[1..]);
        forall d | d in later ensures FromAward(d, tenderId, awards) {
          FromAwardWiden(d, tenderId, awards);
        }
      }
    }
  }

  /** An item held for the tender before the awards loop gets no new `Data` from it. */
  lemma {:induction false} HeldNeverEmitted(st: Pass, tenderId: string, awards: seq<Award>, k: string)
    requires Claimed(st.processing, k, tenderId)
    ensures var r := AwardsPass(st, tenderId, awards);
      |st.emitted| <= |r.emitted| && k !in ItemIds(r.emitted[|st.emitted|..])
    decreases |awards|
  {
    var r := AwardsPass(st, tenderId, awards);
    if awards == [] {
      assert r.emitted[|st.emitted|..] == [];
    } else {
      var a0 := awards[0];
      var st1 := AwardStep(st, tenderId, a0);
      var added := AwardEmission(st.processing, tenderId, a0);
      assert k !in ItemIds(added) by {
        AwardAdmission(st, tenderId, a0);
      }
      assert Claimed(st1.processing, k, tenderId) && st1.emitted == st.emitted + added by {
        AwardStepExact(st, tenderId, a0);
      }
      HeldNeverEmitted(st1, tenderId, awards[1..], k);
      var later := r.emitted[|st1.emitted|..];
      assert r.emitted == st.emitted + added + later;
      assert r.emitted[|st.emitted|..] == added + later;
      ItemIdsConcat(added, later);
    }
  }

  /** Under a non-empty tender id one awards loop adds at most one `Data` per item, even
      when the same award id appears twice or an award has several `UA-EDR` suppliers. */
  lemma {:induction false} AwardsPassNoRepeats(st: Pass, tenderId: string, awards: seq<Award>)
    requires tenderId != ""
    ensures var r := AwardsPass(st, tenderId, awards);
      |st.emitted| <= |r.emitted| &&
      var added := r.emitted[|st.emitted|..];
      forall i, j :: 0 <= i < j < |added| ==> added[i].itemId != added[j].itemId
    decreases |awards|
  {
    var r := AwardsPass(st, tenderId, awards);
    if awards == [] {
      assert r.emitted[|st.emitted|..] == [];
    } else {
      var a0 := awards[0];
      var st1 := AwardStep(st, tenderId, a0);
      AwardFirst(st, tenderId, a0);
      AwardsPassNoRepeats(st1, tenderId, awards[1..]);
      if |st.emitted| < |st1.emitted| {
        HeldNeverEmitted(st1, tenderId, awards[1..], a0.id);
      }
      DistinctExtension(st.emitted, st1.emitted, r.emitted, a0.id);
    }
  }

  /** One award step under a non-empty tender id: at most one `Data`, for the award's
      id, which it then holds. */
  lemma AwardFirst(st: Pass, tenderId: string, a: Award)
    requires tenderId != ""
    ensures var st1 := AwardStep(st, tenderId, a);
      && |st.emitted| <= |st1.emitted| <= |st.emitted| + 1
      && st1.emitted[..|st.emitted|] == st.emitted
      && (forall d :: d in st1.emitted[|st.emitted|..] ==> d.itemId == a.id)
      && (|st.emitted| < |st1.emitted| ==> Claimed(st1.processing, a.id, tenderId))
  {
    var st1 := AwardStep(st, tenderId, a);
    var first := AwardEmission(st.processing, tenderId, a);
    AwardAdmission(st, tenderId, a);
    AwardStepExact(st, tenderId, a);
    assert st1.emitted[..|st.emitted|] == st.emitted && st1.emitted[|st.emitted|..] == first;
  }

  /** Three stages of a queue, the middle one adding at most one `Data` for `id`, which
      the last stage never names again: distinct items after the middle stage stay
      distinct after the first. */
  lemma DistinctExtension(e0: seq<Data>, e1: seq<Data>, e2: seq<Data>, id: string)
    requires |e0| <= |e1| <= |e2| && e1[..|e0|] == e0 && e2[..|e1|] == e1
    requires |e1| <= |e0| + 1 && forall d :: d in e1[|e0|..] ==> d.itemId == id
    requires |e0| < |e1| ==> id !in ItemIds(e2[|e1|..])
    requires var later := e2[|e1|..];
      forall i, j :: 0 <= i < j < |later| ==> later[i].itemId != later[j].itemId
    ensures var added := e2[|e0|..];
      forall i, j :: 0 <= i < j < |added| ==> added[i].itemId != added[j].itemId
  {
    var first, later := e1[|e0|..], e2[|e1|..];
    assert e2[|e0|..] == first + later;
    if |e0| < |e1| {
      DistinctAfterOne(first, later, id);
    } else {
      assert first + later == later;
    }
  }

  /** One item in front of items that never name it keeps the ids distinct. */
  lemma DistinctAfterOne(first: seq<Data>, later: seq<Data>, id: string)
    requires |first| <= 1 && forall d :: d in first ==> d.itemId == id
    requires id !in ItemIds(later)
    requires forall i, j :: 0 <= i < j < |later| ==> later[i].itemId != later[j].itemId
    ensures forall i, j :: 0 <= i < j < |first + later| ==> (first + later)[i].itemId != (first + later)[j].itemId
  {
    forall j | 0 <= j < |later| ensures later[j].itemId != id {
      assert later[j] in later;
    }
  }

  /** A qualification whose bid's first tenderer is `UA-EDR`: the filter admits it. */
  predicate QualificationAdmissible(bids: seq<Bid>, q: Qualification)
  {
    && Awaiting(q.status, q.documents)
    && BidFor(bids, q.bidID).Some?
    && BidFor(bids, q.bidID).value.tenderers != []
    && BidFor(bids, q.bidID).value.tenderers[0].scheme == IdentificationScheme
  }

  /** A pending qualification the filter cannot look up: its `bidID` names no bid, or
      that bid has no tenderers. */
  predicate Unmatched(bids: seq<Bid>, q: Qualification)
  {
    Awaiting(q.status, q.documents)
    && (BidFor(bids, q.bidID).None? || BidFor(bids, q.bidID).value.tenderers == [])
  }

  lemma AdmitGrows(st: Pass, tenderId: string, itemId: string, identifier: Identifier, itemName: string)
    ensures Grows(st, Admit(st, tenderId, itemId, identifier, itemName), tenderId)
  {
    var r := Admit(st, tenderId, itemId, identifier, itemName);
    assert r.emitted[..|st.emitted|] == st.emitted;
    if r != st {
      assert r.emitted[|st.emitted|..] == [Data(tenderId, itemId, identifier.id, itemName, JNull, JNull)];
    } else {
      assert r.emitted[|st.emitted|..] == [];
    }
  }

  /** One qualification raises iff it cannot be looked up; otherwise it adds a `Data`
      iff it is admissible and not already held for this tender, and then exactly one,
      carrying its bid's first tenderer id, with the item claimed for the tender. */
  lemma QualificationAdmission(st: Pass, tenderId: string, bids: seq<Bid>, q: Qualification)
    ensures QualificationStep(st, tenderId, bids, q).None? <==> Unmatched(bids, q)
    ensures var s := QualificationStep(st, tenderId, bids, q);
      s.Some? ==>
      if QualificationAdmissible(bids, q) && !Claimed(st.processing, q.id, tenderId) then
        s.value == Pass(st.processing[q.id := tenderId],
                        st.emitted + [Data(tenderId, q.id, BidFor(bids, q.bidID).value.tenderers[0].id,
                                           QualificationsName, JNull, JNull)])
      else s.value == st
  {
  }

  /** An item held for the tender before the qualifications loop gets no new `Data`
      from it. */
  lemma {:induction false} QualificationsHeldNeverEmitted(st: Pass, tenderId: string, bids: seq<Bid>,
                                                          qs: seq<Qualification>, k: string)
    requires Claimed(st.processing, k, tenderId)
    ensures var r := QualificationsPass(st, tenderId, bids, qs).pass;
      |st.emitted| <= |r.emitted| && k !in ItemIds(r.emitted[|st.emitted|..])
    decreases |qs|
  {
    var r := QualificationsPass(st, tenderId, bids, qs).pass;
    if qs == [] || QualificationStep(st, tenderId, bids, qs[0]).None? {
      assert r == st;
      assert r.emitted[|st.emitted|..] == [];
    } else {
      var st1 := QualificationStep(st, tenderId, bids, qs[0]).value;
      QualificationAdmission(st, tenderId, bids, qs[0]);
      var added := st1.emitted[|st.emitted|..];
      assert k !in ItemIds(added) && Claimed(st1.processing, k, tenderId) && st1.emitted == st.emitted + added;
      QualificationsHeldNeverEmitted(st1, tenderId, bids, qs[1..], k);
      var later := r.emitted[|st1.emitted|..];
      assert r.emitted == st.emitted + added + later;
      assert r.emitted[|st.emitted|..] == added + later;
      ItemIdsConcat(added, later);
    }
  }

  /** Under a non-empty tender id one qualifications loop adds at most one `Data` per
      item, even when the same qualification id appears twice. */
  lemma {:induction false} QualificationsPassNoRepeats(st: Pass, tenderId: string, bids: seq<Bid>, qs: seq<Qualification>)
    requires tenderId != ""
    ensures var r := QualificationsPass(st, tenderId, bids, qs).pass;
      |st.emitted| <= |r.emitted| &&
      var added := r.emitted[|st.emitted|..];
      forall i, j :: 0 <= i < j < |added| ==> added[i].itemId != added[j].itemId
    decreases |qs|
  {
    var r := QualificationsPass(st, tenderId, bids, qs).pass;
    if qs == [] || QualificationStep(st, tenderId, bids, qs[0]).None? {
      assert r == st;
      assert r.emitted[|st.emitted|..] == [];
    } else {
      var q0 := qs[0];
      var st1 := QualificationStep(st, tenderId, bids, q0).value;
      QualificationFirst(st, tenderId, bids, q0);
      QualificationsPassNoRepeats(st1, tenderId, bids, qs[1..]);
      if |st.emitted| < |st1.emitted| {
        QualificationsHeldNeverEmitted(st1, tenderId, bids, qs[1..], q0.id);
      }
      DistinctExtension(st.emitted, st1.emitted, r.emitted, q0.id);
    }
  }

  /** One qualification step that does not raise, under a non-empty tender id: at most
      one `Data`, for the qualification's id, which it then holds. */
  lemma QualificationFirst(st: Pass, tenderId: string, bids: seq<Bid>, q: Qualification)
    requires tenderId != "" && QualificationStep(st, tenderId, bids, q).Some?
    ensures var st1 := QualificationStep(st, tenderId, bids, q).value;
      && |st.emitted| <= |st1.emitted| <= |st.emitted| + 1
      && st1.emitted[..|st.emitted|] == st.emitted
      && (forall d :: d in st1.emitted[|st.emitted|..] ==> d.itemId == q.id)
      && (|st.emitted| < |st1.emitted| ==> Claimed(st1.processing, q.id, tenderId))
  {
    QualificationAdmission(st, tenderId, bids, q);
    var st1 := QualificationStep(st, tenderId, bids, q).value;
    if st1 != st {
      assert st1.emitted[..|st.emitted|] == st.emitted;
      assert st1.emitted[|st.emitted|..] == [st1.emitted[|st.emitted|]];
    }
  }

  /** The qualifications loop raises iff some pending qualification without an extract
      cannot be looked up; claims and `Data` made before it stay. */
  lemma {:induction false} QualificationsPassCrash(st: Pass, tenderId: string, bids: seq<Bid>, qs: seq<Qualification>)
    ensures QualificationsPass(st, tenderId, bids, qs).crashed <==> exists q :: q in qs && Unmatched(bids, q)
    decreases |qs|
  {
    if qs != [] {
      match QualificationStep(st, tenderId, bids, qs[0])
      case None =>
        assert Unmatched(bids, qs[0]);
      case Some(st') =>
        QualificationsPassCrash(st', tenderId, bids, qs[1..]);
        assert qs == [qs[0]] + qs[1..];
    }
  }

  /** The qualifications loop keeps the queue's prefix and holds every item it adds. */
  lemma {:induction false} QualificationsPassGrows(st: Pass, tenderId: string, bids: seq<Bid>, qs: seq<Qualification>)
    ensures Grows(st, QualificationsPass(st, tenderId, bids, qs).pass, tenderId)
    decreases |qs|
  {
    var r := QualificationsPass(st, tenderId, bids, qs).pass;
    if qs == [] || QualificationStep(st, tenderId, bids, qs[0]).None? {
      assert r == st;
      assert st.emitted[..|st.emitted|] == st.emitted;
      assert st.emitted[|st.emitted|..] == [];
    } else {
      var st1 := QualificationStep(st, tenderId, bids, qs[0]).value;
      if Awaiting(qs[0].status, qs[0].documents) {
        var bid := BidFor(bids, qs[0].bidID).value;
        AdmitGrows(st, tenderId, qs[0].id, bid.tenderers[0], QualificationsName);
      } else {
        assert st1 == st;
        assert st.emitted[..|st.emitted|] == st.emitted;
        assert st.emitted[|st.emitted|..] == [];
      }
      QualificationsPassGrows(st1, tenderId, bids, qs[1..]);
      GrowsTrans(st, st1, r, tenderId);
    }
  }

  /** A `Data` the qualifications loop may add: for a pending qualification of the tender
      without an extract, carrying verbatim the code of the first tenderer of the first
      bid whose id is its `bidID`. */
  ghost predicate FromQualification(d: Data, tenderId: string, bids: seq<Bid>, qs: seq<Qualification>)
  {
    && d.tenderId == tenderId && d.itemName == QualificationsName && d.edrIds == JNull && d.fileContent == JNull
    && exists q :: q in qs && QualificationAdmissible(bids, q) && q.id == d.itemId
         && BidFor(bids, q.bidID).value.tenderers[0].id == d.code
  }

  lemma {:induction false} QualificationsPassSound(st: Pass, tenderId: string, bids: seq<Bid>, qs: seq<Qualification>)
    ensures var r := QualificationsPass(st, tenderId, bids, qs).pass;
      |st.emitted| <= |r.emitted| &&
      forall d :: d in r.emitted[|st.emitted|..] ==> FromQualification(d, tenderId, bids, qs)
    decreases |qs|
  {
    var r := QualificationsPass(st, tenderId, bids, qs).pass;
    if qs == [] || QualificationStep(st, tenderId, bids, qs[0]).None? {
      assert r == st;
      assert r.emitted[|st.emitted|..] == [];
    } else {
      var q0 := qs[0];
      var st1 := QualificationStep(st, tenderId, bids, q0).value;
      var added := st1.emitted[|st.emitted|..];
      assert r == QualificationsPass(st1, tenderId, bids, qs[1..]).pass;
      QualificationStepSound(st, tenderId, bids, q0);
      var later := r.emitted[|st1.emitted|..];
      assert r.emitted == st.emitted + added + later;
      assert r.emitted[|st.emitted|..] == added + later;
      assert forall d :: d in later ==> FromQualification(d, tenderId, bids, qs) by {
        QualificationsPassSound(st1, tenderId, bids, qs[1..]);
        forall d | d in later ensures FromQualification(d, tenderId, bids, qs) {
          FromQualificationWiden(d, tenderId, bids, qs[1..], qs);
        }
      }
      assert forall d :: d in added ==> FromQualification(d, tenderId, bids, qs) by {
        forall d | d in added ensures FromQualification(d, tenderId, bids, qs) {
          FromQualificationWiden(d, tenderId, bids, [q0], qs);
        }
      }
    }
  }

  /** One qualification step only appends, and what it appends comes from that
      qualification. */
  lemma QualificationStepSound(st: Pass, tenderId: string, bids: seq<Bid>, q: Qualification)
    requires QualificationStep(st, tenderId, bids, q).Some?
    ensures var st1 := QualificationStep(st, tenderId, bids, q).value;
      && |st.emitted| <= |st1.emitted| && st1.emitted[..|st.emitted|] == st.emitted
      && forall d :: d in st1.emitted[|st.emitted|..] ==> FromQualification(d, tenderId, bids, [q])
  {
    var st1 := QualificationStep(st, tenderId, bids, q).value;
    if st1 == st {
      assert st1.emitted[|st.emitted|..] == [];
    } else {
      var bid := BidFor(bids, q.bidID).value;
      assert st1.emitted == st.emitted + [Data(tenderId, q.id, bid.tenderers[0].id, QualificationsName, JNull, JNull)];
      assert st1.emitted[|st.emitted|..] == [Data(tenderId, q.id, bid.tenderers[0].id, QualificationsName, JNull, JNull)];
      assert q in [q];
    }
  }

  lemma FromQualificationWiden(d: Data, tenderId: string, bids: seq<Bid>, small: seq<Qualification>, big: seq<Qualification>)
    requires forall q :: q in small ==> q in big
    requires FromQualification(d, tenderId, bids, small)
    ensures FromQualification(d, tenderId, bids, big)
  {
    var q :| q in small && QualificationAdmissible(bids, q) && q.id == d.itemId
      && BidFor(bids, q.bidID).value.tenderers[0].id == d.code;
    assert q in big;
  }

  /** A qualifications loop that did not raise leaves every admissible qualification held
      for the tender. */
  lemma {:induction false} QualificationsPassClaimsAll(st: Pass, tenderId: string, bids: seq<Bid>, qs: seq<Qualification>)
    ensures var o := QualificationsPass(st, tenderId, bids, qs);
      !o.crashed ==> forall q :: q in qs && QualificationAdmissible(bids, q) ==>
        q.id in o.pass.processing && o.pass.processing[q.id] == tenderId
    decreases |qs|
  {
    if qs != [] && QualificationStep(st, tenderId, bids, qs[0]).Some? {
      var st1 := QualificationStep(st, tenderId, bids, qs[0]).value;
      QualificationsPassClaimsAll(st1, tenderId, bids, qs[1..]);
      var o := QualificationsPass(st1, tenderId, bids, qs[1..]);
      QualificationsPassGrows(st1, tenderId, bids, qs[1..]);
      if QualificationAdmissible(bids, qs[0]) {
        assert qs[0].id in st1.processing && st1.processing[qs[0].id] == tenderId;
        assert qs[0].id in o.pass.processing;
      }
      forall q | q in qs ensures q == qs[0] || q in qs[1..] {
        var i :| 0 <= i < |qs| && qs[i] == q;
        if i > 0 {
          assert qs[1..][i - 1] == q;
        }
      }
    }
  }

  /** With no pending qualification left unmatched and every admissible one held, the
      qualifications loop changes nothing and does not raise. */
  lemma {:induction false} QualificationsPassHeld(st: Pass, tenderId: string, bids: seq<Bid>, qs: seq<Qualification>)
    requires tenderId != ""
    requires forall q :: q in qs ==> !Unmatched(bids, q)
    requires forall q :: q in qs && QualificationAdmissible(bids, q) ==> Claimed(st.processing, q.id, tenderId)
    ensures QualificationsPass(st, tenderId, bids, qs) == Outcome(st, false)
    decreases |qs|
  {
    if qs != [] {
      assert qs[0] in qs;
      assert QualificationStep(st, tenderId, bids, qs[0]) == Some(st);
      forall q | q in qs[1..] ensures q in qs {
      }
      QualificationsPassHeld(st, tenderId, bids, qs[1..]);
    }
  }

  /** A qualifications loop that did not raise is idempotent. */
  lemma QualificationsPassIdempotent(st: Pass, tenderId: string, bids: seq<Bid>, qs: seq<Qualification>)
    requires tenderId != ""
    ensures var o := QualificationsPass(st, tenderId, bids, qs);
      !o.crashed ==> QualificationsPass(o.pass, tenderId, bids, qs) == o
  {
    var o := QualificationsPass(st, tenderId, bids, qs);
    if !o.crashed {
      QualificationsPassCrash(st, tenderId, bids, qs);
      QualificationsPassClaimsAll(st, tenderId, bids, qs);
      QualificationsPassHeld(o.pass, tenderId, bids, qs);
    }
  }

  /** Filtering one tender only adds claims for it and `Data` for them. */
  lemma FilterOneGrows(st: Pass, tender: Tender)
    ensures Grows(st, FilterOne(st, tender).pass, tender.id)
  {
    if tender.awards.Some? {
      AwardsPassGrows(st, tender.id, tender.awards.value);
    } else if tender.bids.Some? && tender.qualifications.Some? {
      QualificationsPassGrows(st, tender.id, tender.bids.value, tender.qualifications.value);
    } else {
      assert st.emitted[..|st.emitted|] == st.emitted;
      assert st.emitted[|st.emitted|..] == [];
    }
  }

  /** A tender taken from the queue a second time while its claims are still held adds
      no `Data` and changes no claim, unless the first pass raised. */
  lemma FilterOneIdempotent(st: Pass, tender: Tender)
    requires tender.id != ""
    ensures var o := FilterOne(st, tender);
      !o.crashed ==> FilterOne(o.pass, tender) == o
  {
    if tender.awards.Some? {
      AwardsPassIdempotent(st, tender.id, tender.awards.value);
    } else if tender.bids.Some? && tender.qualifications.Some? {
      QualificationsPassIdempotent(st, tender.id, tender.bids.value, tender.qualifications.value);
    }
  }

  /** With an `awards` key the bids and qualifications are never looked at. */
  lemma AwardsTakePrecedence(st: Pass, tender: Tender, bids: Option<seq<Bid>>, qs: Option<seq<Qualification>>)
    requires tender.awards.Some?
    ensures FilterOne(st, tender) == FilterOne(st, tender.(bids := bids, qualifications := qs))
    ensures !FilterOne(st, tender).crashed
  {
  }

  /** The filter test with five awards: the unsuccessful one and the one whose scheme
      is `UA-ED` are skipped, the other three are queued in order, the seven-digit code
      verbatim, and held. */
  lemma AwardsExample()
    ensures var ua := Identifier("UA-EDR", "23494714");
      var awards := [Award("a1", "pending", [], [Identifier("UA-EDR", "14360570")]),
                     Award("a2", "pending", [], [Identifier("UA-EDR", "0013823")]),
                     Award("a3", "pending", [], [ua]),
                     Award("a4", "unsuccessful", [], [ua]),
                     Award("a5", "pending", [], [Identifier("UA-ED", "23494714")])];
      AwardsPass(Pass(map[], []), "t", awards)
        == Pass(map["a1" := "t", "a2" := "t", "a3" := "t"],
                [Data("t", "a1", "14360570", AwardsName, JNull, JNull),
                 Data("t", "a2", "0013823", AwardsName, JNull, JNull),
                 Data("t", "a3", "23494714", AwardsName, JNull, JNull)])
  {
    var awards := ExampleAwards();
    ExampleAwardAdmits(0);
    ExampleAwardAdmits(1);
    ExampleAwardAdmits(2);
    ExampleAwardSkips();
    assert awards[4..][1..] == [] && awards[3..][1..] == awards[4..];
    assert awards[2..][1..] == awards[3..] && awards[1..][1..] == awards[2..];
    assert AwardsPass(ExampleAwardsPass(3), "t", awards[3..]) == ExampleAwardsPass(3);
    assert AwardsPass(ExampleAwardsPass(1), "t", awards[1..]) == ExampleAwardsPass(3);
  }

  /** The awards of the filter test with five awards. */
  function ExampleAwards(): seq<Award>
  {
    var ua := Identifier("UA-EDR", "23494714");
    [Award("a1", "pending", [], [Identifier("UA-EDR", "14360570")]),
     Award("a2", "pending", [], [Identifier("UA-EDR", "0013823")]),
     Award("a3", "pending", [], [ua]),
     Award("a4", "unsuccessful", [], [ua]),
     Award("a5", "pending", [], [Identifier("UA-ED", "23494714")])]
  }

  /** The claims and queue after the first `n` admitted awards of that test. */
  function ExampleAwardsPass(n: nat): Pass
    requires n <= 3
  {
    var d1 := Data("t", "a1", "14360570", AwardsName, JNull, JNull);
    var d2 := Data("t", "a2", "0013823", AwardsName, JNull, JNull);
    var d3 := Data("t", "a3", "23494714", AwardsName, JNull, JNull);
    if n == 0 then Pass(map[], [])
    else if n == 1 then Pass(map["a1" := "t"], [d1])
    else if n == 2 then Pass(map["a1" := "t", "a2" := "t"], [d1, d2])
    else Pass(map["a1" := "t", "a2" := "t", "a3" := "t"], [d1, d2, d3])
  }

  lemma ExampleAwardAdmits(k: nat)
    requires k < 3
    ensures AwardStep(ExampleAwardsPass(k), "t", ExampleAwards()[k]) == ExampleAwardsPass(k + 1)
  {
    var a := ExampleAwards()[k];
    var st := ExampleAwardsPass(k);
    assert !HasRegisterExtract([]);
    assert |a.suppliers| == 1 && a.suppliers[1..] == [];
    assert !Claimed(st.processing, a.id, "t");
    var d := Data("t", a.id, a.suppliers[0].id, AwardsName, JNull, JNull);
    assert st.emitted + [d] == ExampleAwardsPass(k + 1).emitted;
    assert st.processing[a.id := "t"] == ExampleAwardsPass(k + 1).processing;
  }

  lemma ExampleAwardSkips()
    ensures AwardStep(ExampleAwardsPass(3), "t", ExampleAwards()[3]) == ExampleAwardsPass(3)
    ensures AwardStep(ExampleAwardsPass(3), "t", ExampleAwards()[4]) == ExampleAwardsPass(3)
  {
    var a := ExampleAwards()[4];
    assert !HasRegisterExtract([]);
    assert a.suppliers[1..] == [];
  }

  lemma QualificationStepAdmits(st: Pass, tenderId: string, bids: seq<Bid>, q: Qualification, bid: Bid)
    requires Awaiting(q.status, q.documents) && BidFor(bids, q.bidID) == Some(bid) && bid.tenderers != []
    ensures QualificationStep(st, tenderId, bids, q) == Some(Admit(st, tenderId, q.id, bid.tenderers[0], QualificationsName))
  {
  }

  lemma QualificationsPassCons(st: Pass, tenderId: string, bids: seq<Bid>, qs: seq<Qualification>, st': Pass)
    requires qs != [] && QualificationStep(st, tenderId, bids, qs[0]) == Some(st')
    ensures QualificationsPass(st, tenderId, bids, qs) == QualificationsPass(st', tenderId, bids, qs[1..])
  {
  }

  /** The bids and qualifications of the filter test with five qualifications. */
  function ExampleBids(): seq<Bid>
  {
    [Bid("b1", [Identifier("UA-EDR", "14360570")]), Bid("b2", [Identifier("UA-EDR", "0013823")]),
     Bid("b3", [Identifier("UA-EDR", "23494714")]), Bid("b4", [Identifier("UA-EDR", "23494714")]),
     Bid("b5", [Identifier("UA-ED", "23494714")])]
  }

  function ExampleQualifications(): seq<Qualification>
  {
    [Qualification("q1", "pending", [], "b1"), Qualification("q2", "pending", [], "b2"),
     Qualification("q3", "pending", [], "b3"), Qualification("q4", "unsuccessful", [], "b4"),
     Qualification("q5", "pending", [], "b5")]
  }

  function ExamplePass(n: nat): Pass
    requires n <= 3
  {
    var d1 := Data("t", "q1", "14360570", QualificationsName, JNull, JNull);
    var d2 := Data("t", "q2", "0013823", QualificationsName, JNull, JNull);
    var d3 := Data("t", "q3", "23494714", QualificationsName, JNull, JNull);
    if n == 0 then Pass(map[], [])
    else if n == 1 then Pass(map["q1" := "t"], [d1])
    else if n == 2 then Pass(map["q1" := "t", "q2" := "t"], [d1, d2])
    else Pass(map["q1" := "t", "q2" := "t", "q3" := "t"], [d1, d2, d3])
  }

  lemma ExampleAdmits(k: nat)
    requires k < 3
    ensures QualificationStep(ExamplePass(k), "t", ExampleBids(), ExampleQualifications()[k])
         == Some(ExamplePass(k + 1))
  {
    var bids, qs := ExampleBids(), ExampleQualifications();
    var bid := bids[k];
    assert BidFor(bids, qs[k].bidID) == Some(bid) by {
      assert bids[1..][0] == bids[1];
      assert bids[1..][1..][0] == bids[2];
    }
    assert !HasRegisterExtract([]);
    QualificationStepAdmits(ExamplePass(k), "t", bids, qs[k], bid);
    ExampleAdmitOne(k, Data("t", qs[k].id, bid.tenderers[0].id, QualificationsName, JNull, JNull));
  }

  /** The `k`-th admitted qualification claims its id and appends its `Data`. */
  lemma ExampleAdmitOne(k: nat, d: Data)
    requires k < 3
    requires d == Data("t", ExampleQualifications()[k].id, ExampleBids()[k].tenderers[0].id, QualificationsName, JNull, JNull)
    ensures !Claimed(ExamplePass(k).processing, ExampleQualifications()[k].id, "t")
    ensures ExamplePass(k).emitted + [d] == ExamplePass(k + 1).emitted
    ensures ExamplePass(k).processing[ExampleQualifications()[k].id := "t"] == ExamplePass(k + 1).processing
  {
    if k == 0 {
      assert ExamplePass(0).emitted + [d] == [d];
    } else if k == 1 {
      assert ExamplePass(1).processing["q2" := "t"] == map["q1" := "t", "q2" := "t"];
    } else {
      assert ExamplePass(2).processing["q3" := "t"] == map["q1" := "t", "q2" := "t", "q3" := "t"];
    }
  }

  lemma ExampleSkips()
    ensures QualificationStep(ExamplePass(3), "t", ExampleBids(), ExampleQualifications()[3]) == Some(ExamplePass(3))
    ensures QualificationStep(ExamplePass(3), "t", ExampleBids(), ExampleQualifications()[4]) == Some(ExamplePass(3))
  {
    var bids, qs := ExampleBids(), ExampleQualifications();
    assert !HasRegisterExtract([]);
    assert bids[1..][1..][1..][1..][0] == bids[4];
    QualificationStepAdmits(ExamplePass(3), "t", bids, qs[4], bids[4]);
  }

  /** The same with qualifications, each looked up through its bid's first tenderer. */
  lemma QualificationsExample()
    ensures FilterOne(Pass(map[], []), Tender("t", None, Some(ExampleBids()), Some(ExampleQualifications())))
        == Outcome(Pass(map["q1" := "t", "q2" := "t", "q3" := "t"],
                        [Data("t", "q1", "14360570", QualificationsName, JNull, JNull),
                         Data("t", "q2", "0013823", QualificationsName, JNull, JNull),
                         Data("t", "q3", "23494714", QualificationsName, JNull, JNull)]), false)
  {
    var bids, qs := ExampleBids(), ExampleQualifications();
    ExampleAdmits(0);
    ExampleAdmits(1);
    ExampleAdmits(2);
    ExampleSkips();
    QualificationsPassCons(ExamplePass(3), "t", bids, qs[4..], ExamplePass(3));
    QualificationsPassCons(ExamplePass(3), "t", bids, qs[3..], ExamplePass(3));
    QualificationsPassCons(ExamplePass(2), "t", bids, qs[2..], ExamplePass(3));
    QualificationsPassCons(ExamplePass(1), "t", bids, qs[1..], ExamplePass(2));
    QualificationsPassCons(ExamplePass(0), "t", bids, qs, ExamplePass(1));
    assert qs[4..][1..] == [];
    assert qs[3..][1..] == qs[4..] && qs[2..][1..] == qs[3..] && qs[1..][1..] == qs[2..];
  }

  datatype StepOutcome =
    | Idle       // the queue is empty: `get` would block
    | Requeued   // the fetch failed and the id went back on the queue
    | Filtered   // the tender was filtered
    | Crashed    // an exception ended the job

  class FilterTenders {
    var processingItems: map<string, string>
    var edrpouCodesQueue: seq<Data>
    var filteredTenderIdsQueue: seq<string>

    constructor (filteredTenderIdsQueue: seq<string>, edrpouCodesQueue: seq<Data>, processingItems: map<string, string>)
      ensures this.filteredTenderIdsQueue == filteredTenderIdsQueue
      ensures this.edrpouCodesQueue == edrpouCodesQueue && this.processingItems == processingItems
    {
      this.filteredTenderIdsQueue := filteredTenderIdsQueue;
      this.edrpouCodesQueue := edrpouCodesQueue;
      this.processingItems := processingItems;
    }

    function Current(): Pass
      reads this
    {
      Pass(processingItems, edrpouCodesQueue)
    }

    /** One turn of the `while True` loop of `prepare_data`; `fetch` is what `get_tender`
        returns for the id taken from the queue. */
    method PrepareDataStep(fetch: Fetch) returns (outcome: StepOutcome)
      modifies this
      ensures old(filteredTenderIdsQueue) == [] ==>
        outcome == Idle && filteredTenderIdsQueue == [] && Current() == old(Current())
      ensures old(filteredTenderIdsQueue) != [] && fetch.FetchFailed? ==>
        && outcome == Requeued
        && filteredTenderIdsQueue == old(filteredTenderIdsQueue)[1..] + [old(filteredTenderIdsQueue)[0]]
        && Current() == old(Current())
      ensures old(filteredTenderIdsQueue) != [] && fetch.Got? ==>
        var o := FilterOne(old(Current()), fetch.tender);
        && filteredTenderIdsQueue == old(filteredTenderIdsQueue)[1..]
        && Current() == o.pass
        && (outcome == Crashed <==> o.crashed)
        && (outcome == Filtered <==> !o.crashed)
    {
      if filteredTenderIdsQueue == [] {
        return Idle;
      }
      var tenderId := filteredTenderIdsQueue[0];
      filteredTenderIdsQueue := filteredTenderIdsQueue[1..];
      match fetch
      case FetchFailed =>
        filteredTenderIdsQueue := filteredTenderIdsQueue + [tenderId];
        return Requeued;
      case Got(tender) =>
        if tender.awards.Some? {
          ProcessAwards(tender.id, tender.awards.value);
          return Filtered;
        } else if tender.bids.Some? {
          if tender.qualifications.None? {
            return Crashed;
          }
          var crashed := ProcessQualifications(tender.id, tender.bids.value, tender.qualifications.value);
          return if crashed then Crashed else Filtered;
        }
        return Filtered;
    }

    method ProcessAwards(tenderId: string, awards: seq<Award>)
      modifies this`processingItems, this`edrpouCodesQueue
      ensures Current() == AwardsPass(old(Current()), tenderId, awards)
    {
      var i := 0;
      while i < |awards|
        invariant 0 <= i <= |awards|
        invariant AwardsPass(Current(), tenderId, awards[i..]) == AwardsPass(old(Current()), tenderId, awards)
      {
        assert awards[i..][1..] == awards[i + 1..];
        var award := awards[i];
        if Awaiting(award.status, award.documents) {
          ProcessSuppliers(tenderId, award.id, award.suppliers);
        }
        i := i + 1;
      }
    }

    method ProcessSuppliers(tenderId: string, itemId: string, suppliers: seq<Identifier>)
      modifies this`processingItems, this`edrpouCodesQueue
      ensures Current() == SuppliersPass(old(Current()), tenderId, itemId, suppliers)
    {
      var j := 0;
      while j < |suppliers|
        invariant 0 <= j <= |suppliers|
        invariant SuppliersPass(Current(), tenderId, itemId, suppliers[j..])
               == SuppliersPass(old(Current()), tenderId, itemId, suppliers)
      {
        assert suppliers[j..][1..] == suppliers[j + 1..];
        AdmitItem(tenderId, itemId, suppliers[j], AwardsName);
        j := j + 1;
      }
    }

    method ProcessQualifications(tenderId: string, bids: seq<Bid>, qs: seq<Qualification>) returns (crashed: bool)
      modifies this`processingItems, this`edrpouCodesQueue
      ensures Outcome(Current(), crashed) == QualificationsPass(old(Current()), tenderId, bids, qs)
    {
      var i := 0;
      while i < |qs|
        invariant 0 <= i <= |qs|
        invariant QualificationsPass(Current(), tenderId, bids, qs[i..]) == QualificationsPass(old(Current()), tenderId, bids, qs)
      {
        assert qs[i..][1..] == qs[i + 1..];
        var q := qs[i];
        if Awaiting(q.status, q.documents) {
          var bid := BidFor(bids, q.bidID);
          if bid.None? || bid.value.tenderers == [] {
            return true;
          }
          AdmitItem(tenderId, q.id, bid.value.tenderers[0], QualificationsName);
        }
        i := i + 1;
      }
      return false;
    }

    /** `if scheme == 'UA-EDR' and check_processing_item(...)`: claim, then put. */
    method AdmitItem(tenderId: string, itemId: string, identifier: Identifier, itemName: string)
      modifies this`processingItems, this`edrpouCodesQueue
      ensures Current() == Admit(old(Current()), tenderId, itemId, identifier, itemName)
    {
      if identifier.scheme == IdentificationScheme && !Claimed(processingItems, itemId, tenderId) {
        processingItems := processingItems[itemId := tenderId];
        edrpouCodesQueue := edrpouCodesQueue + [Data(tenderId, itemId, identifier.id, itemName, JNull, JNull)];
      }
    }
  }
}

=== FILE: scanner.dfy ===
/** databridge/scanner.py: which tenders the scanner passes on, the page loop of
    `get_tenders` (offset advance, termination test, the shared extra delay), and the
    sync point recorded by `initialize_sync`. Page fetches are input values. */
module Scanning {
  import opened Common

  const PreQualificationTypes: seq<string> :=
    ["aboveThresholdEU", "competitiveDialogueUA", "competitiveDialogueEU"]
  const QualificationTypes: seq<string> :=
    ["aboveThresholdUA", "aboveThresholdUA.defense", "aboveThresholdEU",
     "competitiveDialogueUA.stage2", "competitiveDialogueEU.stage2"]

  /** A tender as listed by the sync endpoint (opt_fields status, procurementMethodType). */
  datatype TenderSummary = TenderSummary(id: string, status: string, procurementMethodType: string)

  /** One page of the listing: its tenders and the offsets of the neighbouring pages. */
  datatype Page = Page(data: seq<TenderSummary>, prevOffset: string, nextOffset: string)

  /** The outcome of one `sync_tenders` call inside the loop: a page, a `ResourceError`
      (caught by the loop), or any other exception, which the loop does not catch. */
  datatype FetchResult = Fetched(page: Page) | ResourceError(status: int) | FetchRaised

  /** The `params` dict of one loop: whether it has a truthy `descending`, and its offset. */
  datatype SyncParams = SyncParams(descending: bool, offset: Option<string>)

  datatype SyncPoint = SyncPoint(forwardOffset: string, backwardOffset: string)

  datatype InitOutcome =
    | Started(response: Page)
    | AssertionFailed  // the `assert` on `descending` failed
    | Waiting          // the forward loop still waits for the backward loop's sync point
    | Raised           // the retried listing call raised; the exception ends the job

  /** The tenders the scanner passes on: awaiting qualification or pre-qualification
      under a procurement method that uses it. */
  predicate Eligible(t: TenderSummary)
  {
    || (t.status == "active.qualification" && t.procurementMethodType in QualificationTypes)
    || (t.status == "active.pre-qualification" && t.procurementMethodType in PreQualificationTypes)
  }

  /** The eligible tenders of a page, in page order: a tender is passed on iff it is on
      the page and eligible. */
  function EligibleOf(tenders: seq<TenderSummary>): (r: seq<TenderSummary>)
    ensures forall t :: t in r <==> t in tenders && Eligible(t)
    ensures |r| <= |tenders|
  {
    if tenders == [] then []
    else
      var init := tenders[..|tenders| - 1];
      var last := tenders[|tenders| - 1];
      assert tenders == init + [last];
      EligibleOf(init) + (if Eligible(last) then [last] else [])
  }

  /** The ids of the tenders, in order. */
  function TenderIds(tenders: seq<TenderSummary>): seq<string>
  {
    if tenders == [] then [] else [tenders[0].id] + TenderIds(tenders[1..])
  }

  /** The loop test of `get_tenders`: a descending loop stops on an empty page that
      leaves the offset where it was. */
  predicate Done(params: SyncParams, response: Page)
  {
    params.descending && |response.data| == 0 && params.offset == Some(response.nextOffset)
  }

  /** `Scanner.sleep_change_value` after one fetch: decreased (floored at 0) on success,
      increased on a 425, unchanged on any other error. */
  function SleepChange(value: real, fetch: FetchResult, increment: real, decrement: real): (v: real)
    ensures fetch.Fetched? ==> v >= 0.0
    ensures fetch.Fetched? && decrement >= 0.0 && value >= 0.0 ==> v <= value
    ensures fetch.ResourceError? && fetch.status == 425 ==> v == value + increment
    ensures fetch.ResourceError? && fetch.status != 425 ==> v == value
    ensures fetch.FetchRaised? ==> v == value
  {
    match fetch
    case Fetched(_) => if decrement < value then value - decrement else 0.0
    case ResourceError(status) => if status == 425 then value + increment else value
    case FetchRaised => value
  }

  /** The page the loop works on after a fetch: an error keeps the previous page. */
  function NextResponse(response: Page, fetch: FetchResult): Page
  {
    match fetch
    case Fetched(page) => page
    case ResourceError(_) => response
    case FetchRaised => response
  }

  /** What the page loop leaves: the tenders it yielded, its params, the extra delay,
      whether its own test ended it, the page it stands on (the one that ended it, or
      the last one it filtered), and whether an uncaught exception of a fetch ended the
      generator, and with it the sync worker. Neither flag set: it is waiting for the
      next fetch. */
  datatype RunResult = RunResult(yielded: seq<TenderSummary>, params: SyncParams, value: real, finished: bool,
                                 page: Page, crashed: bool)

  /** The page the loop works on after `fetches`, up to the first one that raises: the
      last one fetched, or `response` when none was. */
  function LastPage(response: Page, fetches: seq<FetchResult>): Page
    decreases |fetches|
  {
    if fetches == [] || fetches[0].FetchRaised? then response
    else LastPage(NextResponse(response, fetches[0]), fetches[1..])
  }

  /** The page loop of `get_tenders` driven by a finite list of fetch outcomes. It yields
      only eligible tenders, never changes the direction of the loop, and does not both
      end by its test and crash. */
  function Run(increment: real, decrement: real, params: SyncParams, response: Page, value: real,
               fetches: seq<FetchResult>): (r: RunResult)
    ensures forall t :: t in r.yielded ==> Eligible(t)
    ensures r.params.descending == params.descending
    ensures !(r.finished && r.crashed)
    decreases |fetches|
  {
    if Done(params, response) then RunResult([], params, value, true, response, false)
    else
      var params' := params.(offset := Some(response.nextOffset));
      var ys := EligibleOf(response.data);
      if fetches == [] then RunResult(ys, params', value, false, response, false)
      else if fetches[0].FetchRaised? then RunResult(ys, params', value, false, response, true)
      else
        var rest := Run(increment, decrement, params', NextResponse(response, fetches[0]),
                        SleepChange(value, fetches[0], increment, decrement), fetches[1..]);
        rest.(yielded := ys + rest.yielded)
  }

  class Scanner {
    const incrementStep: real
    const decrementStep: real
    const delay: real
    /** The class attribute `Scanner.sleep_change_value`, shared by both sync loops. */
    var sleepChangeValue: real
    var initialSyncPoint: Option<SyncPoint>
    var filteredTenderIdsQueue: seq<string>

    /** `__init__` stores the settings and does not touch `sleep_change_value`: the new
        scanner sees whatever the class attribute holds (`sharedSleepChange`; 0 until
        some scanner changes it). */
    constructor (filteredTenderIdsQueue: seq<string>, sharedSleepChange: real, incrementStep: real := 1.0,
                 decrementStep: real := 1.0, delay: real := 15.0)
      ensures this.incrementStep == incrementStep && this.decrementStep == decrementStep
      ensures this.delay == delay && this.filteredTenderIdsQueue == filteredTenderIdsQueue
      ensures sleepChangeValue == sharedSleepChange && initialSyncPoint == None
    {
      this.incrementStep := incrementStep;
      this.decrementStep := decrementStep;
      this.delay := delay;
      this.filteredTenderIdsQueue := filteredTenderIdsQueue;
      this.sleepChangeValue := sharedSleepChange;
      this.initialSyncPoint := None;
    }

    /** `initialize_sync`: the backward loop records the sync point from its first page,
        with the offsets swapped because that page was listed descending; the forward
        loop starts from the recorded forward offset. `response` is what the retried
        registry listing call gives: a page, or `None` when it raised on its last attempt,
        in which case the exception leaves `get_tenders` and no sync point is written. */
    method InitializeSync(params: SyncParams, direction: string, response: Option<Page>)
      returns (outcome: InitOutcome, params': SyncParams)
      modifies this`initialSyncPoint
      ensures outcome == Raised ==> initialSyncPoint == old(initialSyncPoint)
      ensures direction == "backward" && !params.descending ==>
        outcome == AssertionFailed && initialSyncPoint == old(initialSyncPoint)
      ensures direction == "backward" && params.descending && response.None? ==>
        outcome == Raised && params' == params
      ensures direction == "backward" && params.descending && response.Some? ==>
        && outcome == Started(response.value) && params' == params
        && initialSyncPoint == Some(SyncPoint(response.value.prevOffset, response.value.nextOffset))
      ensures direction != "backward" ==> initialSyncPoint == old(initialSyncPoint)
      ensures direction != "backward" && params.descending ==> outcome == AssertionFailed
      ensures direction != "backward" && !params.descending ==>
        match old(initialSyncPoint)
        case None => outcome == Waiting && params' == params
        case Some(point) =>
          && params' == params.(offset := Some(point.forwardOffset))
          && outcome == (if response.Some? then Started(response.value) else Raised)
    {
      params' := params;
      if direction == "backward" {
        if !params.descending {
          return AssertionFailed, params';
        }
        match response
        case None =>
          return Raised, params';
        case Some(page) =>
          initialSyncPoint := Some(SyncPoint(page.prevOffset, page.nextOffset));
          return Started(page), params';
      } else {
        if params.descending {
          return AssertionFailed, params';
        }
        match initialSyncPoint
        case None =>
          return Waiting, params';
        case Some(point) =>
          // the offset is written into `params` before the call, so it stays on a raise
          params' := params.(offset := Some(point.forwardOffset));
          match response
          case None =>
            return Raised, params';
          case Some(page) =>
            return Started(page), params';
      }
    }

    /** The page loop of `get_tenders` from the page `initialize_sync` returned, together
        with the worker that puts every yielded tender id on `filtered_tender_ids_queue`. */
    method GetTenders(params: SyncParams, first: Page, fetches: seq<FetchResult>)
      returns (finalParams: SyncParams, finished: bool, last: Page, crashed: bool)
      modifies this`sleepChangeValue, this`filteredTenderIdsQueue
      ensures var r := Run(incrementStep, decrementStep, params, first, old(sleepChangeValue), fetches);
        && filteredTenderIdsQueue == old(filteredTenderIdsQueue) + TenderIds(r.yielded)
        && sleepChangeValue == r.value && finalParams == r.params && finished == r.finished
        && last == r.page && crashed == r.crashed
    {
      ghost var target := Run(incrementStep, decrementStep, params, first, old(sleepChangeValue), fetches);
      var response := first;
      var p := params;
      var i := 0;
      ghost var yielded: seq<TenderSummary> := [];
      while true
        invariant 0 <= i <= |fetches|
        invariant filteredTenderIdsQueue == old(filteredTenderIdsQueue) + TenderIds(yielded)
        invariant Matches(target, yielded, Run(incrementStep, decrementStep, p, response, sleepChangeValue, fetches[i..]))
        decreases |fetches| - i
      {
        if Done(p, response) {
          MatchesDone(target, yielded, incrementStep, decrementStep, p, response, sleepChangeValue, fetches[i..]);
          assert filteredTenderIdsQueue == old(filteredTenderIdsQueue) + TenderIds(target.yielded);
          return p, true, response, false;
        }
        var tenders := response.data;
        var next := p.(offset := Some(response.nextOffset));
        ghost var queue := filteredTenderIdsQueue;
        PutEligible(tenders);
        ghost var yielded' := yielded + EligibleOf(tenders);
        assert filteredTenderIdsQueue == old(filteredTenderIdsQueue) + TenderIds(yielded') by {
          TenderIdsConcat(yielded, EligibleOf(tenders));
          assert queue + TenderIds(EligibleOf(tenders))
            == old(filteredTenderIdsQueue) + (TenderIds(yielded) + TenderIds(EligibleOf(tenders)));
        }
        if i == |fetches| {
          MatchesLast(target, yielded, incrementStep, decrementStep, p, response, sleepChangeValue);
          assert target.yielded == yielded';
          return next, false, response, false;
        }
        if fetches[i].FetchRaised? {
          // the exception leaves the generator, after the page's tenders were yielded
          MatchesRaised(target, yielded, incrementStep, decrementStep, p, response, sleepChangeValue, fetches[i..]);
          assert target.yielded == yielded';
          return next, false, response, true;
        }
        // sleep(delay + sleep_change_value), then the next sync_tenders call
        assert fetches[i..][0] == fetches[i] && fetches[i..][1..] == fetches[i + 1..];
        MatchesStep(target, yielded, incrementStep, decrementStep, p, response, sleepChangeValue, fetches[i..]);
        sleepChangeValue := SleepChange(sleepChangeValue, fetches[i], incrementStep, decrementStep);
        response := NextResponse(response, fetches[i]);
        p := next;
        yielded := yielded';
        i := i + 1;
      }
    }

    /** The `for tender in tenders` body: eligible tenders go on the queue, in order. */
    method PutEligible(tenders: seq<TenderSummary>)
      modifies this`filteredTenderIdsQueue
      ensures filteredTenderIdsQueue == old(filteredTenderIdsQueue) + TenderIds(EligibleOf(tenders))
    {
      var j := 0;
      while j < |tenders|
        invariant 0 <= j <= |tenders|
        invariant filteredTenderIdsQueue == old(filteredTenderIdsQueue) + TenderIds(EligibleOf(tenders[..j]))
      {
        assert tenders[..j + 1][..j] == tenders[..j];
        var tender := tenders[j];
        assert EligibleOf(tenders[..j + 1])
          == EligibleOf(tenders[..j]) + (if Eligible(tender) then [tender] else []);
        if Eligible(tender) {
          TenderIdsConcat(EligibleOf(tenders[..j]), [tender]);
          assert TenderIds([tender]) == [tender.id];
          assert (old(filteredTenderIdsQueue) + TenderIds(EligibleOf(tenders[..j]))) + [tender.id]
            == old(filteredTenderIdsQueue) + (TenderIds(EligibleOf(tenders[..j])) + [tender.id]);
          filteredTenderIdsQueue := filteredTenderIdsQueue + [tender.id];
        } else {
          assert EligibleOf(tenders[..j]) + [] == EligibleOf(tenders[..j]);
        }
        j := j + 1;
      }
      assert tenders[..j] == tenders;
    }
  }

  /** `whole` is what remains (`rest`) after `done` was already yielded. */
  ghost predicate Matches(whole: RunResult, done: seq<TenderSummary>, rest: RunResult)
  {
    && whole.yielded == done + rest.yielded
    && whole.params == rest.params
    && whole.value == rest.value
    && whole.finished == rest.finished
    && whole.page == rest.page
    && whole.crashed == rest.crashed
  }

  /** One turn of the loop: the page's eligible tenders move from what remains to what
      was yielded. */
  lemma MatchesStep(whole: RunResult, done: seq<TenderSummary>, increment: real, decrement: real,
                    params: SyncParams, response: Page, value: real, fetches: seq<FetchResult>)
    requires Matches(whole, done, Run(increment, decrement, params, response, value, fetches))
    requires !Done(params, response) && fetches != [] && !fetches[0].FetchRaised?
    ensures Matches(whole, done + EligibleOf(response.data),
                    Run(increment, decrement, params.(offset := Some(response.nextOffset)),
                        NextResponse(response, fetches[0]),
                        SleepChange(value, fetches[0], increment, decrement), fetches[1..]))
  {
  }

  /** The loop's own test ends it. */
  lemma MatchesDone(whole: RunResult, done: seq<TenderSummary>, increment: real, decrement: real,
                    params: SyncParams, response: Page, value: real, fetches: seq<FetchResult>)
    requires Matches(whole, done, Run(increment, decrement, params, response, value, fetches))
    requires Done(params, response)
    ensures whole == RunResult(done, params, value, true, response, false)
  {
    assert done + [] == done;
  }

  /** The last turn, with no fetch left. */
  lemma MatchesLast(whole: RunResult, done: seq<TenderSummary>, increment: real, decrement: real,
                    params: SyncParams, response: Page, value: real)
    requires Matches(whole, done, Run(increment, decrement, params, response, value, []))
    requires !Done(params, response)
    ensures whole == RunResult(done + EligibleOf(response.data), params.(offset := Some(response.nextOffset)), value,
                               false, response, false)
  {
  }

  /** A fetch that raises: the page's tenders were yielded, then the generator ends. */
  lemma MatchesRaised(whole: RunResult, done: seq<TenderSummary>, increment: real, decrement: real,
                      params: SyncParams, response: Page, value: real, fetches: seq<FetchResult>)
    requires Matches(whole, done, Run(increment, decrement, params, response, value, fetches))
    requires !Done(params, response) && fetches != [] && fetches[0].FetchRaised?
    ensures whole == RunResult(done + EligibleOf(response.data), params.(offset := Some(response.nextOffset)), value,
                               false, response, true)
  {
  }

  lemma {:induction false} TenderIdsConcat(a: seq<TenderSummary>, b: seq<TenderSummary>)
    ensures TenderIds(a + b) == TenderIds(a) + TenderIds(b)
  {
    if a != [] {
      assert (a + b)[1..] == a[1..] + b;
      TenderIdsConcat(a[1..], b);
    } else {
      assert a + b == b;
    }
  }

  lemma {:induction false} EligibleOfConcat(a: seq<TenderSummary>, b: seq<TenderSummary>)
    ensures EligibleOf(a + b) == EligibleOf(a) + EligibleOf(b)
    decreases |b|
  {
    if b == [] {
      assert a + b == a;
    } else {
      var n := |b| - 1;
      assert (a + b)[..|a + b| - 1] == a + b[..n];
      EligibleOfConcat(a, b[..n]);
    }
  }

  /** The extra delay never goes below 0 when it starts at 0 or above and the increment
      is not negative. */
  lemma {:induction false} RunInvariants(increment: real, decrement: real, params: SyncParams, response: Page,
                                         value: real, fetches: seq<FetchResult>)
    requires value >= 0.0 && increment >= 0.0
    ensures Run(increment, decrement, params, response, value, fetches).value >= 0.0
    decreases |fetches|
  {
    if !Done(params, response) && fetches != [] && !fetches[0].FetchRaised? {
      RunInvariants(increment, decrement, params.(offset := Some(response.nextOffset)),
                    NextResponse(response, fetches[0]),
                    SleepChange(value, fetches[0], increment, decrement), fetches[1..]);
    }
  }

  /** A forward (non-descending) loop never ends by itself. */
  lemma {:induction false} ForwardNeverFinishes(increment: real, decrement: real, params: SyncParams,
                                                response: Page, value: real, fetches: seq<FetchResult>)
    requires !params.descending
    ensures !Run(increment, decrement, params, response, value, fetches).finished
    ensures !Run(increment, decrement, params, response, value, fetches).params.descending
    decreases |fetches|
  {
    if fetches != [] {
      ForwardNeverFinishes(increment, decrement, params.(offset := Some(response.nextOffset)),
                           NextResponse(response, fetches[0]),
                           SleepChange(value, fetches[0], increment, decrement), fetches[1..]);
    }
  }

  /** When the loop ends by itself its test holds on the page it stands on: it is a
      descending loop on an empty page whose next offset is the offset it already had. */
  lemma {:induction false} FinishedMeansCaughtUp(increment: real, decrement: real, params: SyncParams,
                                                 response: Page, value: real, fetches: seq<FetchResult>)
    ensures var r := Run(increment, decrement, params, response, value, fetches);
      && (r.finished ==> Done(r.params, r.page))
      && (r.finished ==> params.descending)
    decreases |fetches|
  {
    if !Done(params, response) && fetches != [] && !fetches[0].FetchRaised? {
      FinishedMeansCaughtUp(increment, decrement, params.(offset := Some(response.nextOffset)),
                            NextResponse(response, fetches[0]),
                            SleepChange(value, fetches[0], increment, decrement), fetches[1..]);
    }
  }

  /** Every turn moves the offset to the next offset of the page it filtered, so the loop
      leaves the offset at the next offset of the page it stands on; when it is still
      waiting, that is the last page fetched. Nothing else in the params changes. */
  lemma {:induction false} RunAdvancesOffset(increment: real, decrement: real, params: SyncParams,
                                             response: Page, value: real, fetches: seq<FetchResult>)
    ensures var r := Run(increment, decrement, params, response, value, fetches);
      && r.params == params.(offset := Some(r.page.nextOffset))
      && (!r.finished ==> r.page == LastPage(response, fetches))
    decreases |fetches|
  {
    if !Done(params, response) && fetches != [] && !fetches[0].FetchRaised? {
      RunAdvancesOffset(increment, decrement, params.(offset := Some(response.nextOffset)),
                        NextResponse(response, fetches[0]),
                        SleepChange(value, fetches[0], increment, decrement), fetches[1..]);
    }
  }

  /** The loop crashes exactly when one of the fetches raises before its own test ends
      it: a `ResourceError` never ends it. */
  lemma {:induction false} RunCrashes(increment: real, decrement: real, params: SyncParams,
                                      response: Page, value: real, fetches: seq<FetchResult>)
    ensures var r := Run(increment, decrement, params, response, value, fetches);
      r.crashed <==> FetchRaised in fetches && !r.finished
    decreases |fetches|
  {
    if !Done(params, response) && fetches != [] && !fetches[0].FetchRaised? {
      assert fetches == [fetches[0]] + fetches[1..];
      RunCrashes(increment, decrement, params.(offset := Some(response.nextOffset)),
                 NextResponse(response, fetches[0]),
                 SleepChange(value, fetches[0], increment, decrement), fetches[1..]);
    }
  }

  /** A fetch that raises ends the loop at once: the page before it was yielded and
      the offset advanced past it, no later page is reached, and the extra delay is
      left as it was. */
  lemma RaiseEndsLoop(increment: real, decrement: real, params: SyncParams, response: Page,
                      value: real, fetches: seq<FetchResult>)
    requires !Done(params, response)
    ensures Run(increment, decrement, params, response, value, [FetchRaised] + fetches)
      == RunResult(EligibleOf(response.data), params.(offset := Some(response.nextOffset)), value, false,
                   response, true)
  {
  }

  predicate IsPrefix<T(==)>(a: seq<T>, b: seq<T>)
  {
    |a| <= |b| && b[..|a|] == a
  }

  /** A failed fetch does not replace the page: the loop yields that page's eligible
      tenders a second time (unless it is a descending loop that has caught up). */
  lemma ErrorRefiltersPage(increment: real, decrement: real, params: SyncParams, response: Page,
                           value: real, status: int, fetches: seq<FetchResult>)
    requires !Done(params, response)
    requires !params.descending || |response.data| > 0
    ensures var r := Run(increment, decrement, params, response, value, [ResourceError(status)] + fetches);
      IsPrefix(EligibleOf(response.data) + EligibleOf(response.data), r.yielded)
  {
    var fs := [ResourceError(status)] + fetches;
    assert fs[1..] == fetches;
    var params' := params.(offset := Some(response.nextOffset));
    assert !Done(params', response);
    var e := EligibleOf(response.data);
    var inner := Run(increment, decrement, params', response, SleepChange(value, fs[0], increment, decrement), fetches);
    assert IsPrefix(e, inner.yielded);
    var r := Run(increment, decrement, params, response, value, fs);
    assert r.yielded == e + inner.yielded;
    assert (e + inner.yielded)[..|e| + |e|] == e + e;
  }

  /** The scanner test with increment 2 and decrement 1: one 425 between two good
      pages; two tenders are queued and the extra delay ends at 1. */
  lemma Trace425()
    ensures var t1 := TenderSummary("t1", "active.pre-qualification", "aboveThresholdEU");
      var t2 := TenderSummary("t2", "active.tendering", "aboveThresholdUA");
      var t3 := TenderSummary("t3", "active.qualification", "aboveThresholdUA");
      var r := Run(2.0, 1.0, SyncParams(false, None), Page([t1], "123", "1234"),
                   0.0, [Fetched(Page([t2], "123", "1234")), ResourceError(425), Fetched(Page([t3], "123", "1234"))]);
      r.yielded == [t1, t3] && r.value == 1.0
  {
    var t1 := TenderSummary("t1", "active.pre-qualification", "aboveThresholdEU");
    var t2 := TenderSummary("t2", "active.tendering", "aboveThresholdUA");
    var t3 := TenderSummary("t3", "active.qualification", "aboveThresholdUA");
    var p2, p3 := Page([t2], "123", "1234"), Page([t3], "123", "1234");
    var fs := [Fetched(p2), ResourceError(425), Fetched(p3)];
    var params := SyncParams(false, Some("1234"));
    assert Eligible(t1) && !Eligible(t2) && Eligible(t3);
    assert EligibleOf([t1]) == [t1] && EligibleOf([t2]) == [] && EligibleOf([t3]) == [t3];
    var r3 := Run(2.0, 1.0, params, p3, 1.0, fs[3..]);
    assert r3.yielded == [t3] && r3.value == 1.0;
    var r2 := Run(2.0, 1.0, params, p2, 2.0, fs[2..]);
    assert r2.yielded == [t3] && r2.value == 1.0;
    var r1 := Run(2.0, 1.0, params, p2, 0.0, fs[1..]);
    assert r1.yielded == [t3] && r1.value == 1.0;
  }

  /** The scanner test with increment 1 and decrement 0.5: three 425s between two good
      pages; the extra delay ends at 2.5. */
  lemma TraceThree425()
    ensures var t1 := TenderSummary("t1", "active.pre-qualification", "aboveThresholdEU");
      var t2 := TenderSummary("t2", "active.tendering", "aboveThresholdUA");
      var t3 := TenderSummary("t3", "active.pre-qualification", "aboveThresholdEU");
      var r := Run(1.0, 0.5, SyncParams(false, None), Page([t1], "123", "1234"),
                   0.0, [Fetched(Page([t2], "123", "1234")), ResourceError(425), ResourceError(425),
                         ResourceError(425), Fetched(Page([t3], "123", "1234"))]);
      r.yielded == [t1, t3] && r.value == 2.5
  {
    var t1 := TenderSummary("t1", "active.pre-qualification", "aboveThresholdEU");
    var t2 := TenderSummary("t2", "active.tendering", "aboveThresholdUA");
    var t3 := TenderSummary("t3", "active.pre-qualification", "aboveThresholdEU");
    var p2, p3 := Page([t2], "123", "1234"), Page([t3], "123", "1234");
    var fs := [Fetched(p2), ResourceError(425), ResourceError(425), ResourceError(425), Fetched(p3)];
    var params := SyncParams(false, Some("1234"));
    assert Eligible(t1) && !Eligible(t2) && Eligible(t3);
    assert EligibleOf([t1]) == [t1] && EligibleOf([t2]) == [] && EligibleOf([t3]) == [t3];
    var r5 := Run(1.0, 0.5, params, p3, 2.5, fs[5..]);
    assert r5.yielded == [t3] && r5.value == 2.5;
    var r4 := Run(1.0, 0.5, params, p2, 3.0, fs[4..]);
    assert r4.yielded == [t3] && r4.value == 2.5;
    var r3 := Run(1.0, 0.5, params, p2, 2.0, fs[3..]);
    assert r3.yielded == [t3];
    var r2 := Run(1.0, 0.5, params, p2, 1.0, fs[2..]);
    assert r2.yielded == [t3];
    var r1 := Run(1.0, 0.5, params, p2, 0.0, fs[1..]);
    assert r1.yielded == [t3] && r1.value == 2.5;
  }
}

=== FILE: timeout_handler.dfy ===
/** The adaptive timeout of timeout_handler.py: a value that grows on failure and
    shrinks on success, multiplicatively or additively, clamped to [min, max]. */
module Timeout {

  /** The value after one update and what `update` returns, or the `ZeroDivisionError`
      a multiplicative success raises when `step` is zero. */
  datatype Step = Step(value: real, ok: bool) | ZeroDivision

  /** What `_update_add` does to `value`, and what it returns: it never raises, reports
      false only for a failure already at `max`, and (for a non-negative step) moves the
      value by at most `step`, down on success and up on failure. */
  function AddUpdate(value: real, min: real, max: real, step: real, isSuccess: bool): (r: Step)
    ensures r.Step?
    ensures r.ok <==> isSuccess || value < max
    ensures 0.0 <= step ==> value - step <= r.value <= value + step
    ensures 0.0 <= step && isSuccess ==> r.value <= value
    ensures 0.0 <= step && !isSuccess ==> value <= r.value
  {
    if isSuccess then
      if value > min then Step(if value - step < min then min else value - step, true)
      else Step(value, true)
    else if value < max then Step(if value + step > max then max else value + step, true)
    else Step(value, false)
  }

  /** What `_update_mult` does to `value`, and what it returns: it raises only for a
      success above `min` with a zero step; it reports false only for a failure at or
      beyond `max` or one whose product overshoots `max`; and (for a non-negative value
      and a step of at least 1) a success never raises the value and a failure never
      lowers it below itself unless clamped to `max`. */
  function MultUpdate(value: real, min: real, max: real, step: real, isSuccess: bool): (r: Step)
    ensures r.ZeroDivision? <==> isSuccess && value > min && step == 0.0
    ensures r.Step? ==> (r.ok <==> isSuccess || (value < max && value * step <= max))
    ensures r.Step? && isSuccess && 0.0 <= value && 1.0 <= step ==> r.value <= value
    ensures r.Step? && !isSuccess && 0.0 <= value && 1.0 <= step ==> value <= r.value || r.value == max
  {
    DivisionShrinks(value, step);
    ProductGrows(value, step);
    if isSuccess then
      if value > min then
        if step == 0.0 then ZeroDivision
        else Step(if value / step < min then min else value / step, true)
      else Step(value, true)
    else if value < max then
      if value * step > max then Step(max, false) else Step(value * step, true)
    else Step(value, false)
  }

  /** The configuration under which the handler keeps `min <= value <= max`. */
  predicate SaneConfig(min: real, max: real, step: real)
  {
    0.0 <= min <= max && 1.0 <= step
  }

  class TimeoutHandler {
    const min: real
    const max: real
    const step: real
    const mode: string
    /** The updater chosen once, at construction: `_update_mult` when true. */
    const multiplicative: bool
    var value: real

    ghost predicate Valid()
      reads this
    {
      SaneConfig(min, max, step) && min <= value <= max
    }

    constructor (min: real := 1.0, max: real := 300.0, step: real := 2.0, mode: string := "mult")
      ensures this.min == min && this.max == max && this.step == step && this.mode == mode
      ensures value == min
      ensures multiplicative <==> mode == "mult"
      ensures SaneConfig(min, max, step) ==> Valid()
    {
      this.min := min;
      this.max := max;
      this.step := step;
      this.mode := mode;
      this.value := min;
      this.multiplicative := mode == "mult";
    }

    /** `update`: dispatches to the updater chosen at construction. `raised` is the
        `ZeroDivisionError` of the multiplicative updater. */
    method Update(isSuccess: bool) returns (ok: bool, raised: bool)
      modifies this
      ensures multiplicative ==>
        MultUpdate(old(value), min, max, step, isSuccess) == (if raised then ZeroDivision else Step(value, ok))
      ensures !multiplicative ==> !raised && Step(value, ok) == AddUpdate(old(value), min, max, step, isSuccess)
      ensures raised ==> value == old(value)
      ensures old(Valid()) ==> !raised && Valid()
    {
      raised := false;
      if multiplicative {
        ok, raised := UpdateMult(isSuccess);
        if old(Valid()) {
          MultKeepsBounds(old(value), min, max, step, isSuccess);
        }
      } else {
        ok := UpdateAdd(isSuccess);
        if old(Valid()) {
          AddKeepsBounds(old(value), min, max, step, isSuccess);
        }
      }
    }

    method UpdateAdd(isSuccess: bool) returns (ok: bool)
      modifies this
      ensures Step(value, ok) == AddUpdate(old(value), min, max, step, isSuccess)
    {
      if isSuccess && value > min {
        value := value - step;
        if value < min {
          value := min;
        }
      }
      if !isSuccess && value < max {
        value := value + step;
        if value > max {
          value := max;
        }
      } else if !isSuccess {
        return false;  // already at max
      }
      return true;
    }

    method UpdateMult(isSuccess: bool) returns (ok: bool, raised: bool)
      modifies this
      ensures MultUpdate(old(value), min, max, step, isSuccess) == (if raised then ZeroDivision else Step(value, ok))
      ensures raised ==> value == old(value)
    {
      raised := false;
      if isSuccess && value > min {
        if step == 0.0 {
          return false, true;  // ZeroDivisionError
        }
        value := value / step;
        if value < min {
          value := min;
        }
      }
      if !isSuccess && value < max {
        value := value * step;
        if value > max {
          value := max;
          return false, false;
        }
      } else if !isSuccess {
        return false, false;  // already at max
      }
      return true, false;
    }
  }

  /** Under a sane configuration every additive update keeps `min <= value <= max`. */
  lemma AddKeepsBounds(value: real, min: real, max: real, step: real, isSuccess: bool)
    requires SaneConfig(min, max, step) && min <= value <= max
    ensures min <= AddUpdate(value, min, max, step, isSuccess).value <= max
  {
  }

  lemma DivisionShrinks(value: real, step: real)
    ensures 0.0 <= value && 1.0 <= step ==> value / step <= value
  {
    if 0.0 <= value && 1.0 <= step {
      assert value == (value / step) * step;
      assert (value / step) * step >= value / step by {
        assert value / step >= 0.0;
      }
    }
  }

  lemma ProductGrows(value: real, step: real)
    ensures 0.0 <= value && 1.0 <= step ==> value <= value * step
  {
    if 0.0 <= value && 1.0 <= step {
      assert value * step - value == value * (step - 1.0);
      assert value * (step - 1.0) >= 0.0;
    }
  }

  /** Under a sane configuration every multiplicative update keeps `min <= value <= max`. */
  lemma MultKeepsBounds(value: real, min: real, max: real, step: real, isSuccess: bool)
    requires SaneConfig(min, max, step) && min <= value <= max
    ensures MultUpdate(value, min, max, step, isSuccess).Step?
    ensures min <= MultUpdate(value, min, max, step, isSuccess).value <= max
  {
    if isSuccess {
      DivisionShrinks(value, step);
    } else {
      ProductGrows(value, step);
    }
  }

  /** A success never increases the value, leaves it alone at or below `min`, and
      always returns true, in either mode. */
  lemma SuccessNeverIncreases(value: real, min: real, max: real, step: real)
    requires SaneConfig(min, max, step)
    ensures var a := AddUpdate(value, min, max, step, true);
      a.ok && a.value <= value && (value <= min ==> a.value == value)
    ensures var m := MultUpdate(value, min, max, step, true);
      m.Step? && m.ok && m.value <= value && (value <= min ==> m.value == value)
  {
    DivisionShrinks(value, step);
  }

  /** A multiplicative failure below `max` sets the value to `min(value * step, max)` and
      reports false exactly when the product overshot `max`; at `max` it changes nothing
      and reports false. */
  lemma MultFailure(value: real, min: real, max: real, step: real)
    ensures var m := MultUpdate(value, min, max, step, false);
      && m.Step?
      && (value < max ==> m.value == (if value * step < max then value * step else max))
      && (value < max ==> (m.ok <==> value * step <= max))
      && (value >= max ==> m == Step(value, false))
  {
  }

  /** An additive failure below `max` reports true even when clamped; only a failure
      already at `max` reports false. */
  lemma AddFailure(value: real, min: real, max: real, step: real)
    ensures var a := AddUpdate(value, min, max, step, false);
      && (value < max ==> a == Step(if value + step < max then value + step else max, true))
      && (value >= max ==> a == Step(value, false))
  {
  }

  /** Only a multiplicative success above `min` divides, so a zero `step` raises
      exactly there; with a zero `step` a failure below a non-negative `max` drops the
      value to 0. */
  lemma ZeroStepRaises(value: real, min: real, max: real, isSuccess: bool)
    ensures MultUpdate(value, min, max, 0.0, isSuccess).ZeroDivision? <==> isSuccess && value > min
    ensures !isSuccess && value < max && 0.0 <= max ==> MultUpdate(value, min, max, 0.0, isSuccess) == Step(0.0, true)
  {
  }

  /** min = 1, max = 7, step = 2, multiplicative: three failures give 2, 4, 7 and
      return true, true, false; the following success gives 3.5. */
  lemma MultTrace()
    ensures MultUpdate(1.0, 1.0, 7.0, 2.0, false) == Step(2.0, true)
    ensures MultUpdate(2.0, 1.0, 7.0, 2.0, false) == Step(4.0, true)
    ensures MultUpdate(4.0, 1.0, 7.0, 2.0, false) == Step(7.0, false)
    ensures MultUpdate(7.0, 1.0, 7.0, 2.0, true) == Step(3.5, true)
  {
  }
}

=== FILE: upload_file.dfy ===
/** databridge/upload_file.py: the last stage of the bridge. An extract is first stored
    in the document service, then attached to its award or qualification as a
    `registerExtract` document; a successful attachment releases the item from the
    shared `processing_items`. The document service's and the tender API's answers are
    input values. */
module UploadFiles {
  import opened Common

  const DocumentType := "registerExtract"
  const DocumentsSuffix := "/documents"

  /** What the document service answered to an upload. */
  datatype DocResult =
    | Uploaded(response: Json)  // the decoded body of the answer
    | UploadFailed              // any exception

  /** Whether the tender API accepted the document. */
  datatype AttachResult = Attached | AttachFailed

  /** The call the bridge makes to the tender API. */
  datatype Attach = Attach(tenderId: string, document: map<string, Json>, path: string)

  datatype StepOutcome =
    | Idle       // the input queue is empty: `get` would block
    | Continued  // the item was handled; the loop goes on
    | Crashed    // an exception ended the job

  /** The item forwarded after a successful upload: its file content replaced by the
      answer's `data`, or by the empty object when there is none. `None` when
      `.get` raises because the answer is not an object. */
  function Forwarded(d: Data, response: Json): (r: Option<Data>)
    ensures r.Some? <==> response.JObj?
    ensures r.Some? ==> r.value.(fileContent := d.fileContent) == d
    ensures r.Some? && "data" in response.fields ==> r.value.fileContent == response.fields["data"]
    ensures r.Some? && "data" !in response.fields ==> r.value.fileContent == JObj(map[])
  {
    if !response.JObj? then None
    else if "data" in response.fields then Some(d.(fileContent := response.fields["data"]))
    else Some(d.(fileContent := JObj(map[])))
  }

  /** The document sent to the tender: the file content with `documentType` set.
      `None` when the assignment raises because the content is not an object. The
      document keeps every key of the content, adds `documentType` and sets it to
      `registerExtract`, whatever the content held there before. */
  function Document(content: Json): (r: Option<map<string, Json>>)
    ensures r.Some? <==> content.JObj?
    ensures r.Some? ==>
      && r.value.Keys == content.fields.Keys + {"documentType"}
      && r.value["documentType"] == JStr(DocumentType)
      && forall k :: k in content.fields && k != "documentType" ==> r.value[k] == content.fields[k]
  {
    if content.JObj? then Some(content.fields["documentType" := JStr(DocumentType)]) else None
  }

  /** The path of the documents of an award or qualification: the item name, `/`, the
      item id, then `/documents`. */
  function DocumentsPath(itemName: string, itemId: string): (r: string)
    ensures |r| == |itemName| + 1 + |itemId| + |DocumentsSuffix|
    ensures && r[..|itemName|] == itemName
            && r[|itemName|] == '/'
            && r[|itemName| + 1..|itemName| + 1 + |itemId|] == itemId
            && r[|itemName| + 1 + |itemId|..] == DocumentsSuffix
  {
    itemName + ("/" + (itemId + DocumentsSuffix))
  }

  /** The request for an item: made exactly when its content is an object, for the
      item's tender, at the documents path of the item, with the document typed as an
      extract. */
  function AttachOf(d: Data): (r: Option<Attach>)
    ensures r.Some? <==> d.fileContent.JObj?
    ensures r.Some? ==>
      && r.value.tenderId == d.tenderId
      && r.value.path == DocumentsPath(d.itemName, d.itemId)
      && r.value.document == Document(d.fileContent).value
      && r.value.document["documentType"] == JStr(DocumentType)
  {
    match Document(d.fileContent)
    case None => None
    case Some(doc) => Some(Attach(d.tenderId, doc, DocumentsPath(d.itemName, d.itemId)))
  }

  /** The item as it stands after the assignment: only its content changes, and only
      when it is an object, which then carries the document type. */
  function Marked(d: Data): (r: Data)
    ensures r.(fileContent := d.fileContent) == d
    ensures r.fileContent.JObj? <==> d.fileContent.JObj?
    ensures !d.fileContent.JObj? ==> r == d
    ensures d.fileContent.JObj? ==>
      && r.fileContent.fields == Document(d.fileContent).value
      && Get(r.fileContent, "documentType") == JStr(DocumentType)
  {
    match Document(d.fileContent)
    case None => d
    case Some(doc) => d.(fileContent := JObj(doc))
  }

  /** Setting the document type twice gives the same document: a retried item, which
      already carries the type, is sent exactly as the first attempt was. */
  lemma MarkedIdempotent(d: Data)
    ensures Marked(Marked(d)) == Marked(d)
    ensures AttachOf(Marked(d)) == AttachOf(d)
  {
    if d.fileContent.JObj? {
      var doc := d.fileContent.fields["documentType" := JStr(DocumentType)];
      assert doc["documentType" := JStr(DocumentType)] == doc;
    }
  }

  /** The first `/` of a path, if any. */
  function FirstSlash(s: string): (k: Option<nat>)
    ensures k.Some? ==> k.value < |s| && s[k.value] == '/' && forall j :: 0 <= j < k.value ==> s[j] != '/'
    ensures k.None? ==> forall j :: 0 <= j < |s| ==> s[j] != '/'
  {
    if s == [] then None
    else if s[0] == '/' then Some(0)
    else match FirstSlash(s[1..])
      case None => None
      case Some(k) => Some(k + 1)
  }

  /** Reading the item name and id back out of a documents path. */
  function ParsePath(path: string): Option<(string, string)>
  {
    if |path| < |DocumentsSuffix| || path[|path| - |DocumentsSuffix|..] != DocumentsSuffix then None
    else
      var head := path[..|path| - |DocumentsSuffix|];
      match FirstSlash(head)
      case None => None
      case Some(k) => Some((head[..k], head[k + 1..]))
  }

  /** The path names the item exactly: parsing it gives back the item name and id,
      given that the name holds no `/` (it is `awards` or `qualifications`). */
  lemma DocumentsPathParses(itemName: string, itemId: string)
    requires forall j :: 0 <= j < |itemName| ==> itemName[j] != '/'
    ensures ParsePath(DocumentsPath(itemName, itemId)) == Some((itemName, itemId))
  {
    var path := DocumentsPath(itemName, itemId);
    var head := itemName + "/" + itemId;
    assert path == head + DocumentsSuffix;
    assert path[|path| - |DocumentsSuffix|..] == DocumentsSuffix;
    assert path[..|path| - |DocumentsSuffix|] == head;
    var k := FirstSlash(head);
    assert head[|itemName|] == '/';
    assert forall j :: 0 <= j < |itemName| ==> head[j] == itemName[j];
    assert k == Some(|itemName|);
    assert head[..|itemName|] == itemName;
    assert head[|itemName| + 1..] == itemId;
  }

  lemma ItemNamesHaveNoSlash()
    ensures forall j :: 0 <= j < |AwardsName| ==> AwardsName[j] != '/'
    ensures forall j :: 0 <= j < |QualificationsName| ==> QualificationsName[j] != '/'
  {
  }

  class UploadFile {
    var uploadToDocServiceQueue: seq<Data>
    var uploadToTenderQueue: seq<Data>
    var retryUploadToDocServiceQueue: seq<Data>
    var retryUploadToTenderQueue: seq<Data>
    /** The `processing_items` shared with the filter stage: item id to tender id. */
    var processingItems: map<string, string>

    constructor (uploadToDocServiceQueue: seq<Data>, uploadToTenderQueue: seq<Data>, processingItems: map<string, string>)
      ensures this.uploadToDocServiceQueue == uploadToDocServiceQueue
      ensures this.uploadToTenderQueue == uploadToTenderQueue
      ensures this.processingItems == processingItems
      ensures retryUploadToDocServiceQueue == [] && retryUploadToTenderQueue == []
    {
      this.uploadToDocServiceQueue := uploadToDocServiceQueue;
      this.uploadToTenderQueue := uploadToTenderQueue;
      this.processingItems := processingItems;
      this.retryUploadToDocServiceQueue := [];
      this.retryUploadToTenderQueue := [];
    }

    /** One turn of `upload_to_doc_service`: the answer's `data` goes on to the tender
        queue, a failed upload to the retry queue unchanged. */
    method UploadToDocService(result: DocResult) returns (outcome: StepOutcome)
      modifies this`uploadToDocServiceQueue, this`uploadToTenderQueue, this`retryUploadToDocServiceQueue
      ensures old(uploadToDocServiceQueue) == [] ==> outcome == Idle && unchanged(this)
      ensures old(uploadToDocServiceQueue) != [] ==>
        var d := old(uploadToDocServiceQueue)[0];
        && uploadToDocServiceQueue == old(uploadToDocServiceQueue)[1..]
        && match result
           case UploadFailed =>
             && outcome == Continued && uploadToTenderQueue == old(uploadToTenderQueue)
             && retryUploadToDocServiceQueue == old(retryUploadToDocServiceQueue) + [d]
           case Uploaded(response) =>
             && retryUploadToDocServiceQueue == old(retryUploadToDocServiceQueue)
             && (outcome == Crashed <==> Forwarded(d, response).None?)
             && uploadToTenderQueue == old(uploadToTenderQueue)
                  + (match Forwarded(d, response) case Some(f) => [f] case None => [])
             && (outcome != Crashed ==> outcome == Continued)
    {
      if uploadToDocServiceQueue == [] {
        return Idle;
      }
      var d := uploadToDocServiceQueue[0];
      uploadToDocServiceQueue := uploadToDocServiceQueue[1..];
      match result
      case UploadFailed =>
        retryUploadToDocServiceQueue := retryUploadToDocServiceQueue + [d];
        outcome := Continued;
      case Uploaded(response) =>
        match Forwarded(d, response)
        case None =>
          outcome := Crashed;
        case Some(f) =>
          uploadToTenderQueue := uploadToTenderQueue + [f];
          outcome := Continued;
    }

    /** One turn of `retry_upload_to_doc_service`; a failure puts the item back. */
    method RetryUploadToDocService(result: DocResult) returns (outcome: StepOutcome)
      modifies this`uploadToTenderQueue, this`retryUploadToDocServiceQueue
      ensures old(retryUploadToDocServiceQueue) == [] ==> outcome == Idle && unchanged(this)
      ensures old(retryUploadToDocServiceQueue) != [] ==>
        var d := old(retryUploadToDocServiceQueue)[0];
        match result
        case UploadFailed =>
          && outcome == Continued && uploadToTenderQueue == old(uploadToTenderQueue)
          && retryUploadToDocServiceQueue == old(retryUploadToDocServiceQueue)[1..] + [d]
        case Uploaded(response) =>
          && retryUploadToDocServiceQueue == old(retryUploadToDocServiceQueue)[1..]
          && (outcome == Crashed <==> Forwarded(d, response).None?)
          && uploadToTenderQueue == old(uploadToTenderQueue)
               + (match Forwarded(d, response) case Some(f) => [f] case None => [])
          && (outcome != Crashed ==> outcome == Continued)
    {
      if retryUploadToDocServiceQueue == [] {
        return Idle;
      }
      var d := retryUploadToDocServiceQueue[0];
      retryUploadToDocServiceQueue := retryUploadToDocServiceQueue[1..];
      match result
      case UploadFailed =>
        retryUploadToDocServiceQueue := retryUploadToDocServiceQueue + [d];
        outcome := Continued;
      case Uploaded(response) =>
        match Forwarded(d, response)
        case None =>
          outcome := Crashed;
        case Some(f) =>
          uploadToTenderQueue := uploadToTenderQueue + [f];
          outcome := Continued;
    }

    /** One turn of `upload_to_tender`. The document type is set before the call and
        outside its error handling, so a content that is not an object ends the job; a
        failed call puts the item, with the type set, on the retry queue; a successful
        one deletes the item from `processing_items`, which ends the job when the key
        is missing. `request` is the call made to the tender API. */
    method UploadToTender(result: AttachResult) returns (outcome: StepOutcome, request: Option<Attach>)
      modifies this`uploadToTenderQueue, this`retryUploadToTenderQueue, this`processingItems
      ensures old(uploadToTenderQueue) == [] ==> outcome == Idle && request.None? && unchanged(this)
      ensures old(uploadToTenderQueue) != [] ==>
        var d := old(uploadToTenderQueue)[0];
        && uploadToTenderQueue == old(uploadToTenderQueue)[1..]
        && request == AttachOf(d)
        && (request.None? ==>
              outcome == Crashed && retryUploadToTenderQueue == old(retryUploadToTenderQueue)
              && processingItems == old(processingItems))
        && (request.Some? && result == AttachFailed ==>
              outcome == Continued && retryUploadToTenderQueue == old(retryUploadToTenderQueue) + [Marked(d)]
              && processingItems == old(processingItems))
        && (request.Some? && result == Attached ==>
              retryUploadToTenderQueue == old(retryUploadToTenderQueue)
              && processingItems == old(processingItems) - {d.itemId}
              && (outcome == Crashed <==> d.itemId !in old(processingItems))
              && (outcome != Crashed ==> outcome == Continued))
    {
      request := None;
      if uploadToTenderQueue == [] {
        return Idle, request;
      }
      var d := uploadToTenderQueue[0];
      uploadToTenderQueue := uploadToTenderQueue[1..];
      request := AttachOf(d);
      if request.None? {
        return Crashed, request;
      }
      if result == AttachFailed {
        retryUploadToTenderQueue := retryUploadToTenderQueue + [Marked(d)];
        return Continued, request;
      }
      outcome := Release(d.itemId);
    }

    /** One turn of `retry_upload_to_tender`. Here the document type is set inside the
        error handling, so a content that is not an object only puts the item back. */
    method RetryUploadToTender(result: AttachResult) returns (outcome: StepOutcome, request: Option<Attach>)
      modifies this`retryUploadToTenderQueue, this`processingItems
      ensures old(retryUploadToTenderQueue) == [] ==> outcome == Idle && request.None? && unchanged(this)
      ensures old(retryUploadToTenderQueue) != [] ==>
        var d := old(retryUploadToTenderQueue)[0];
        && request == AttachOf(d)
        && (request.None? || result == AttachFailed ==>
              outcome == Continued && retryUploadToTenderQueue == old(retryUploadToTenderQueue)[1..] + [Marked(d)]
              && processingItems == old(processingItems))
        && (request.Some? && result == Attached ==>
              retryUploadToTenderQueue == old(retryUploadToTenderQueue)[1..]
              && processingItems == old(processingItems) - {d.itemId}
              && (outcome == Crashed <==> d.itemId !in old(processingItems))
              && (outcome != Crashed ==> outcome == Continued))
    {
      request := None;
      if retryUploadToTenderQueue == [] {
        return Idle, request;
      }
      var d := retryUploadToTenderQueue[0];
      retryUploadToTenderQueue := retryUploadToTenderQueue[1..];
      request := AttachOf(d);
      if request.None? || result == AttachFailed {
        retryUploadToTenderQueue := retryUploadToTenderQueue + [Marked(d)];
        return Continued, request;
      }
      outcome := Release(d.itemId);
    }

    /** `del processing_items[item_id]`: raises when the key is missing. */
    method Release(itemId: string) returns (outcome: StepOutcome)
      modifies this`processingItems
      ensures processingItems == old(processingItems) - {itemId}
      ensures outcome == Crashed <==> itemId !in old(processingItems)
      ensures outcome != Crashed ==> outcome == Continued
    {
      if itemId !in processingItems {
        return Crashed;
      }
      processingItems := processingItems - {itemId};
      outcome := Continued;
    }
  }

  /** Removing the attached item leaves every other claim as it was. */
  lemma ReleaseOnlyThatItem(processing: map<string, string>, itemId: string)
    ensures itemId !in processing - {itemId}
    ensures forall k :: k in processing && k != itemId ==> k in processing - {itemId} && (processing - {itemId})[k] == processing[k]
    ensures (processing - {itemId}).Keys == processing.Keys - {itemId}
  {
  }

  /** An item whose file content is an object always reaches the tender API: the
      first stage forwards the answer's `data` and, when that is an object, the request
      carries it with the document type, on the item's own documents path. */
  lemma UploadedThenAttached(d: Data, response: Json)
    requires response.JObj? && "data" in response.fields && response.fields["data"].JObj?
    ensures Forwarded(d, response).Some?
    ensures var f := Forwarded(d, response).value;
      && AttachOf(f).Some?
      && AttachOf(f).value.tenderId == d.tenderId
      && AttachOf(f).value.path == DocumentsPath(d.itemName, d.itemId)
      && AttachOf(f).value.document == response.fields["data"].fields["documentType" := JStr(DocumentType)]
  {
  }

  /** An answer without `data` still produces an attachment: an empty document with
      only its type. */
  lemma NoDataEmptyDocument(d: Data, response: Json)
    requires response.JObj? && "data" !in response.fields
    ensures Forwarded(d, response).Some?
    ensures AttachOf(Forwarded(d, response).value).Some?
    ensures AttachOf(Forwarded(d, response).value).value.document == map["documentType" := JStr(DocumentType)]
  {
  }
}

=== FILE: utils.dfy ===
/** databridge/utils.py: the bridge's own choice of lookup parameter and the
    `journal_context` helper that decorates a log record in place. (The `Data` record
    is `Common.Data`.) */
module Utils {
  import opened Common
  import Client

  const IdPassportLen := 9

  /** The parameter the bridge asks the registry proxy for. */
  function ValidateParam(code: string): (param: string)
    ensures param == "code" <==> IsDigits(code) && |code| != IdPassportLen
    ensures param == "code" || param == "passport"
  {
    if IsDigits(code) && |code| != IdPassportLen then "code" else "passport"
  }

  /** The bridge and the registry client disagree exactly on the non-empty digit strings
      whose length is neither 8, 9 nor 10: the bridge sends those as a code, the client
      as a passport. */
  lemma LookupRulesDisagree(code: string)
    ensures ValidateParam(code) != Client.SubjectParam(code)
        <==> IsDigits(code) && |code| != 8 && |code| != 9 && |code| != 10
    ensures ValidateParam(code) != Client.SubjectParam(code)
        ==> ValidateParam(code) == "code" && Client.SubjectParam(code) == "passport"
  {
  }

  /** The seven-digit identifier of the filter tests goes out as a code from the bridge
      and as a passport from the client; the empty string and nine digits are passports. */
  lemma LookupExamples()
    ensures ValidateParam("0013823") == "code"
    ensures Client.SubjectParam("0013823") == "passport"
    ensures ValidateParam("") == "passport"
    ensures ValidateParam("123456789") == "passport"
    ensures ValidateParam("14360570") == "code"
  {
    assert IsDigits("0013823");
    assert IsDigits("14360570");
  }

  const JournalPrefix := "JOURNAL_"

  /** The entries `journal_context` writes for those keys of `params` that are in `keys`. */
  function JournalEntries(params: map<string, string>, keys: set<string>): map<string, string>
  {
    map j | j in JournalKeys(params, keys) :: params[UnJournal(j)]
  }

  function JournalKeys(params: map<string, string>, keys: set<string>): (js: set<string>)
    ensures forall j :: j in js ==> |j| >= |JournalPrefix| && UnJournal(j) in params && UnJournal(j) in keys
  {
    var js := set k | k in keys && k in params :: JournalPrefix + k;
    assert forall k :: k in keys && k in params ==> UnJournal(JournalPrefix + k) == k by {
      forall k | k in keys && k in params {
        UnJournalInverts(k);
      }
    }
    js
  }

  /** The parameter name behind a `JOURNAL_` key. */
  function UnJournal(j: string): string
  {
    if |j| >= |JournalPrefix| then j[|JournalPrefix|..] else j
  }

  lemma UnJournalInverts(k: string)
    ensures UnJournal(JournalPrefix + k) == k
  {
    assert (JournalPrefix + k)[|JournalPrefix|..] == k;
  }

  /** A log record: a dictionary shared by reference, updated in place. */
  class Record {
    var entries: map<string, string>

    constructor (entries: map<string, string>)
      ensures this.entries == entries
    {
      this.entries := entries;
    }
  }

  /** `journal_context(record, params)`: writes `JOURNAL_<k>` for every key of `params`
      into `record` and returns that same record. A caller relying on the default
      `record={}` passes the one shared default object. */
  method JournalContext(record: Record, params: map<string, string>) returns (r: Record)
    modifies record
    ensures r == record
    ensures record.entries == old(record.entries) + JournalEntries(params, params.Keys)
  {
    var rest := params.Keys;
    ghost var done: set<string> := {};
    while rest != {}
      invariant rest + done == params.Keys && rest !! done
      invariant record.entries == old(record.entries) + JournalEntries(params, done)
      decreases rest
    {
      var k :| k in rest;
      JournalEntriesGrow(params, done, k);
      UpdateAfterUnion(old(record.entries), JournalEntries(params, done), JournalPrefix + k, params[k]);
      record.entries := record.entries[JournalPrefix + k := params[k]];
      rest := rest - {k};
      done := done + {k};
    }
    return record;
  }

  lemma UpdateAfterUnion(a: map<string, string>, b: map<string, string>, key: string, v: string)
    ensures (a + b)[key := v] == a + b[key := v]
  {
  }

  lemma JournalEntriesGrow(params: map<string, string>, keys: set<string>, k: string)
    requires k in params
    ensures JournalEntries(params, keys + {k}) == JournalEntries(params, keys)[JournalPrefix + k := params[k]]
  {
    UnJournalInverts(k);
    assert JournalKeys(params, keys + {k}) == JournalKeys(params, keys) + {JournalPrefix + k};
  }

  /** After `journal_context`, every key of `params` is readable under its `JOURNAL_`
      name, and every other entry of the record is as it was. */
  lemma {:induction false} JournalContextEffect(old_: map<string, string>, params: map<string, string>)
    ensures var r := old_ + JournalEntries(params, params.Keys);
      && (forall k :: k in params ==> JournalPrefix + k in r && r[JournalPrefix + k] == params[k])
      && (forall key :: key in old_ && (forall k :: k in params ==> key != JournalPrefix + k)
            ==> key in r && r[key] == old_[key])
      && (forall key :: key in r ==> key in old_ || exists k :: k in params && key == JournalPrefix + k)
  {
    var r := old_ + JournalEntries(params, params.Keys);
    forall k | k in params
      ensures JournalPrefix + k in r && r[JournalPrefix + k] == params[k]
    {
      UnJournalInverts(k);
    }
  }
}
